=== FILE: README.md ===
# Dhaka MRT Line 6 timetable, modelled in Dafny

The repository publishes the timetable of Dhaka's metro line 6 (Uttara North
to Motijheel, sixteen stations) and shows it in several viewers:

- `generate_timetable.py` builds the timetable. It reads service periods
  (`start | end | headway`, where the headway is `rush`, `offpeak`, minutes or
  `m:ss`), inter-station travel times and dwell times (with per-station and
  per-period overrides). It generates the departures of each period from the
  origin, with rush hour alternating between two headways. It adds each
  station's cumulative offset and writes, per station and per direction, the
  sorted `HH:MM:SS` departures without duplicates.
- `docs/script.js` is the main web page:
  - the schedule file for the day (weekday, Friday, or Saturday/holiday, with
    the holiday list as a parameter);
  - the next three trains, or every train with "show all";
  - the leaving-now and arriving labels and banner;
  - first and last trains;
  - element ids of the rows;
  - the administrator's custom clock (set, advance, pause, reset).
- `docs/delay-handler.js` adds published delay minutes to some stations'
  times in the morning and afternoon peaks on the days the delays apply.
- `docs/train_map.js` is the live map. It filters by direction, rebuilds each
  train's journey from the timetable and places it on a segment (departing,
  arriving or in transit with a progress fraction). It also builds the
  station details (first and last train) and the station's train list (a
  window of at most fifteen rows around the next train).
- `docs/train_details.js` follows one train: its journey, the station it has
  reached, the timeline badges and the animated marker.
- The older viewers are modelled too:
  - the first page (root `script.js`);
  - the Next.js page (`mrt-nextjs/src/app/page.tsx`);
  - the Telegram bot (`main.py`), which sorts the times by how soon they come.

Times are text in the viewers. The model therefore compares them with its own
lexicographic order (`LexOrder`), which is what JavaScript's and Python's
string comparison does on these ASCII strings. The generator works in
seconds of the day. Lemmas in `Clock` connect the two
(`Clock.FormatHMSOrder`, `Clock.SecondsVersusMinute`). Everything the
programs obtain from outside is a parameter:

- the loaded timetable;
- the clock reading;
- the fetched holiday list;
- the configuration file's contents;
- the set of verified times.

Modules follow the programs:

- `Wrappers`, `LexOrder`, `Strings`, `Clock`, `JsNumber`, `Timetable` and
  `Selection` are shared vocabulary;
- `GenParse`, `GenOffsets`, `GenTrains` and `GenSchedule` model the
  generator;
- `Calendar`, `Delays`, `ScheduleView` and `CustomClock` model
  `docs/script.js` and `docs/delay-handler.js`;
- `TrainMap` and `TrainDetails` model the map and the details page;
- `LegacyViews` and `Bot` model the older viewers.

Where the description of the system and its code disagree, the model
follows the code:

- The main page and the details page compare the `HH:MM` clock with
  `HH:MM:SS` times using `===` and `<=`. The model shows what that comparison
  does, and proves the minute-wise comparison the pages evidently intend
  separately (see Findings).
- The first page spells one station "Bijoy Sharani", while the timetable's
  key is "Bijoy Sarani", so that station is never offered there
  (`LegacyViews.FirstPageOmitsBijoySarani`).
- `isPublicHoliday` answers true for 1 April 2025 before its Friday check.
  That date is a Tuesday, so the "never a Friday" property still holds.

## Model

| member | source | states |
|---|---|---|
| Clock.Pad2 | docs/script.js:184-185 | two-digit zero padding is a two-character digit string whose decimal value is the number |
| Clock.After | generate_timetable.py:433 | adding an offset wraps past midnight: the result is a second of the day congruent to start plus offset modulo 86400 |
| Clock.FormatHMSOrder | generate_timetable.py:195-197 | string order of two `HH:MM:SS` texts agrees exactly (both directions) with the order of their seconds |
| Clock.FormatHMOrder | docs/script.js:439-441 | string order of two `HH:MM` texts agrees exactly with the order of their minutes |
| Clock.SecondsVersusMinute | docs/script.js:475-476 | an `HH:MM:SS` time sorts before the `HH:MM` clock exactly when its minute is earlier, and the two texts are never equal |
| Clock.HMSExtendsHM | generate_timetable.py:197 | the seconds text of an instant is its minute text followed by a colon and the padded seconds |
| Clock.ParseFormatHMS | generate_timetable.py:180 | `strptime('%H:%M:%S')` reads back every formatted second of the day (format then parse is the identity) |
| Clock.ParseFormatHM | generate_timetable.py:186 | the `%H:%M` reading recovers every formatted minute, and the clock parser reads it as that minute's first second |
| Clock.FormatParseHMS | generate_timetable.py:180 | a parsed `%H:%M:%S` text is reproduced by formatting its value exactly when it was eight characters long (parse then format round trip, with its exception for unpadded fields) |
| Clock.ParseTwelveHour | generate_timetable.py:188-190 | a `h:MM AM/PM` text fails the 24-hour formats and reads as the hour modulo 12, plus 12 after noon |
| LexOrder.Transitive | docs/script.js:475-476 | the string order used to compare times is transitive |
| LexOrder.Connected | docs/script.js:475-476 | of two different strings one sorts before the other |
| LexOrder.Asymmetric | docs/script.js:475-476 | the string order never holds in both directions |
| LexOrder.LessEqIsLessOrEqual | mrt-nextjs/src/app/page.tsx:95 | `<=` on strings is "equal or `<`" |
| Strings.JoinSplit | generate_timetable.py:283 | joining the pieces of `split(sep)` with the separator gives back the text |
| Strings.SplitJoin | generate_timetable.py:283 | splitting the join of separator-free pieces gives back the pieces |
| Strings.PyIntOfDecimal | generate_timetable.py:19 | Python's `int()` reads every decimal rendering of a natural number back as that number |
| Strings.PyIntOfIntString | generate_timetable.py:19 | `int(str(i))` is `i` for every integer, negative ones included |
| Strings.WordsOfTwo | generate_timetable.py:164-165 | `split()` of two words separated by white space yields exactly the two words |
| Strings.StripClean | generate_timetable.py:157 | `strip()` leaves a text alone when it neither starts nor ends with white space |
| Selection.Earlier | docs/script.js:475 | the past trains are exactly the listed times that sort before the clock |
| Selection.NotEarlier | docs/script.js:476 | the future trains are exactly the listed times that do not sort before the clock |
| Selection.Later | script.js:54 | the strict filter keeps exactly the listed times that sort after the clock |
| Selection.SplitPartition | docs/script.js:475-479 | past and future trains together are a permutation of the list, and a train at the clock's own text counts as future |
| Selection.SplitAscending | docs/script.js:475-479 | on a sorted list, the past trains followed by the future trains are the list itself |
| Selection.LaterWithoutNow | script.js:54 | when no time equals the clock text, the strict filter and the `>=` filter agree |
| Selection.SliceFront | docs/script.js:501 | `slice(0, n)` is the first n entries, or the whole list when shorter |
| Selection.SliceLast | docs/script.js:737-738 | `slice(-1)` is the last entry, or nothing for an empty list |
| Selection.SliceIndex | docs/script.js:737 | a slice index is clamped to the length, and a negative one counts from the end, floored at zero |
| Timetable.TravelOrder | docs/train_details.js:101-106 | the station order is line order toward Motijheel and its exact reverse otherwise |
| Timetable.Times | docs/train_details.js:88-89 | a station's list for a direction is found exactly when both keys are present |
| Timetable.IndexOf | docs/train_details.js:94 | `indexOf` is -1 exactly for an absent value, and otherwise the position of its first occurrence |
| Timetable.Reverse | docs/train_map.js:186 | `reverse()` puts entry i at position length-1-i |
| JsNumber.FieldNumber | docs/train_map.js:274 | a digit-only field, the empty one included, reads as the decimal value of its digits (0 when empty); the other forms `Number` accepts are not modelled and read as `NaN` |
| JsNumber.FieldNumberReadsBack | docs/train_map.js:274 | `Number` reads back the number a field was written from, plain or padded to two digits |
| JsNumber.MinutesOfHMS | docs/train_map.js:273-276 | the minutes-of-day reading of a formatted `HH:MM:SS` time is its whole minute (the seconds are dropped) |
| JsNumber.MinutesOfHM | docs/train_details.js:141-144 | the minutes-of-day reading of an `HH:MM` clock is that minute |
| JsNumber.NoColonIsNaN | docs/train_map.js:274-275 | a time text without a colon reads as `NaN` |
| Calendar.NextDateWeekday | docs/script.js:283-285 | the day after a date falls on the next day of the week, so the day-of-week rule is a true weekday count |
| Calendar.FormattedDateInjective | docs/script.js:183-186 | the `YYYY-MM-DD` spelling of valid dates is one-to-one, so list membership identifies the date |
| Calendar.FixedHolidaySpelling | docs/script.js:189-191 | the hard-coded holiday is a valid date, spelled `2025-04-01`, and falls on a Tuesday |
| Calendar.OnlyFixedHolidaySpelling | docs/script.js:189 | only 1 April 2025 has the hard-coded spelling |
| Calendar.IsPublicHoliday | docs/script.js:181-279 | a holiday is never a Friday |
| Calendar.IsPublicHolidaySpec | docs/script.js:187-278 | a date is a holiday exactly when it is 1 April 2025, or when the list was obtained, names the date, and the date is not a Friday |
| Calendar.DayFile | docs/train_map.js:112-123 | Friday selects the Friday file, Saturday the Saturday file, and every other day the weekday file, each an if-and-only-if |
| Calendar.ServiceFile | docs/script.js:283-306 | a holiday takes the Saturday file, any other day its day-of-week file |
| Calendar.ServiceFileOfDate | docs/script.js:311-344 | a Friday always keeps the Friday file, and the holiday check changes the file exactly for holidays from Sunday to Thursday |
| Calendar.PageFile | mrt-nextjs/src/app/page.tsx:53-61 | the Next.js page loads the same day file under `/data/` |
| Delays.WindowsOfClockText | docs/delay-handler.js:31-42 | on a generated time, the afternoon and morning delay windows hold exactly for the minutes inside their inclusive bounds |
| Delays.WindowsOfMinuteText | docs/delay-handler.js:82-88 | on an `HH:MM` text the windows hold exactly for the minutes inside their bounds |
| Delays.DelayApplicable | docs/delay-handler.js:1-4 | of the days of the week, delays apply exactly Sunday to Thursday |
| Delays.IsDelayTime | docs/delay-handler.js:31-42 | a time in the afternoon window has numeric fields and lies from 15:30 to 18:20 inclusive; `WindowsOfClockText` gives the converse for generated times |
| Delays.IsWithinMorningPeakHours | docs/delay-handler.js:82-88 | a time in the morning window has numeric fields and lies from 08:30 to 10:30 inclusive; `WindowsOfClockText` gives the converse for generated times |
| Delays.ApplyDelays | docs/delay-handler.js:6-24 | at most three minutes, only on a delay day inside the afternoon window, and never at Motijheel or Bangladesh Secretariat |
| Delays.GetDelayMinutes | docs/delay-handler.js:44-62 | at most three minutes, positive exactly for the stations of the delay table |
| Delays.ApplyDelaysMatchesTable | docs/delay-handler.js:6-62 | the grouped station lists of `applyDelays` give every station the same delay as the lookup table |
| Delays.GroupsMatchTable | docs/delay-handler.js:15-60 | each station's group delay equals its table delay |
| Delays.AddDelayDisplay | docs/delay-handler.js:26-29 | the delay badge is empty exactly when no delay applies, and otherwise shows that delay |
| Delays.GetMorningDelay | docs/delay-handler.js:90-101 | morning delays are at most three minutes and positive exactly for the listed stations toward Motijheel |
| Delays.FormatTimeWithDelay | docs/delay-handler.js:103-120 | the time is unchanged on a day without delays and for an unknown direction |
| Delays.FormatTimeWithDelaySpec | docs/delay-handler.js:103-120 | toward Motijheel the morning delay is appended in the morning window; toward Uttara North the afternoon delay in the afternoon window |
| Delays.FormatTimeWithDelayShape | docs/delay-handler.js:109-119 | the displayed time is the time itself or the time followed by a suffix of one to three minutes |
| GenParse.DurationOfFields | generate_timetable.py:18-19 | fewer than two colon fields fail, and a duration is read only when both fields are integers |
| GenParse.ParseDurationMinSec | generate_timetable.py:16-19 | every `m:ss` text reads back as m*60+ss seconds |
| GenParse.DurationOfReadFields | generate_timetable.py:19 | two integer fields give minutes times sixty plus seconds |
| GenParse.ParseDuration | generate_timetable.py:16-19 | reads a value exactly when the stripped text has two colon fields that `int()` accepts; `ParseDurationMinSec` gives that value for every `M:SS` text |
| GenParse.Keyword | generate_timetable.py:211-223 | `rush` is the alternating headway and nothing else is, and `offpeak` is the fixed off-peak headway |
| GenParse.ParseHeadway | generate_timetable.py:200-223 | case and surrounding white space aside, only `rush` is the rush pattern and `offpeak` is 8:00; `ParseHeadwayMinutes` and `ParseHeadwayMinSec` give the numeric forms |
| GenParse.PeriodMatchesHeadway | generate_timetable.py:287-295 | a slot is a rush period exactly when its headway is the rush headway, and an off-peak period carries the off-peak headway |
| GenParse.ParseHeadwayMinutes | generate_timetable.py:223 | a plain number of minutes reads back as that many minutes |
| GenParse.ParseHeadwayFields | generate_timetable.py:219-221 | two numeric `m:s` fields read as minutes times sixty plus seconds |
| GenParse.ParseHeadwayMinSec | generate_timetable.py:219-221 | every `m:ss` headway reads back as its seconds |
| GenParse.HeadwayDisplayRoundTrip | generate_timetable.py:373-376 | a fixed headway written as `m:ss` parses back to itself |
| GenParse.ParseSlotLine | generate_timetable.py:277-299 | a line gives a slot exactly when, stripped, it is not blank, a `#` comment or a code fence, has three pipe-separated fields and a third field that reads as a headway; the slot is the stripped start, the stripped end, that headway and the field's period |
| GenParse.StripParseHeadway | generate_timetable.py:283-289 | surrounding white space changes neither the headway nor the period read from a field |
| GenParse.SlotsOfLines | generate_timetable.py:266-301 | every slot read comes from some line of the section, and there are no more slots than lines |
| GenParse.SlotsOfLinesAppend | generate_timetable.py:276-301 | reading two runs of lines gives the slots of the first followed by those of the second |
| GenParse.SlotsConsistent | generate_timetable.py:287-296 | every slot read is a rush period exactly when its headway is rush |
| GenParse.ParseSlots | generate_timetable.py:266-301 | at most one slot per line of the section, every accepted line's slot among them, and each slot's period is rush exactly when its headway is the rush pattern |
| GenParse.SlotOfLine | generate_timetable.py:276-299 | the slot of an accepted line is appended right after the slots of the lines before it |
| GenParse.InsertColon | generate_timetable.py:172-176 | a three- or four-character time without a colon becomes one character longer, with a colon before its last two characters, and removing that colon gives back the input; every other text is left as it was |
| GenParse.AmPmColon | generate_timetable.py:162-170 | a 12-hour text without a colon fails exactly on fewer than two words; a first word of three or four characters gets its colon as a 24-hour text would and is followed by one space and the second word, further words dropped; any other text keeps its form |
| GenParse.PrepareTime | generate_timetable.py:157-176 | a text with a colon is used as it is; a colon-free 24-hour text of three or four characters gains a colon before its minutes and loses nothing else; a colon-free AM/PM text is prepared exactly when it has at least two words |
| GenParse.ParseTimeThreeDigits | generate_timetable.py:173-174 | a `HMM` text reads as that hour and minute |
| GenParse.ParseTimeFourDigits | generate_timetable.py:175-176 | a `HHMM` text reads as that hour and minute |
| GenParse.ParseTimeFormatHMS | generate_timetable.py:155-197 | `parse_time` reads every time the generator writes back to its second (the generator's output is its own input) |
| GenParse.ParseTimeTwelveHour | generate_timetable.py:188-190 | `h:MM AM/PM` reads as the 24-hour minute of that clock reading |
| GenParse.ParseTimeTwelveHourNoColon | generate_timetable.py:162-170 | `hMM AM/PM` without a colon reads like `h:MM AM/PM` |
| GenParse.ParseTime | generate_timetable.py:155-192 | a parsed time is a second of the day; `ParseTimeFormatHMS`, `ParseTimeThreeDigits`, `ParseTimeFourDigits` and `ParseTimeTwelveHour` give its readings |
| GenTrains.Interval | generate_timetable.py:256-260 | the gap is positive: one of the two rush headways chosen by the toggle, or the fixed headway |
| GenTrains.NextToggle | generate_timetable.py:256-258 | the rush toggle flips after every rush departure and stays put for fixed headways |
| GenTrains.Departures | generate_timetable.py:249-261 | departures start at the start time, rise strictly, stay before the end, and are empty exactly when the start is not before the end |
| GenTrains.DeparturesEvery | generate_timetable.py:259-261 | with a fixed headway, departure k is start + k*headway and their number is the number of headways that fit |
| GenTrains.DeparturesRush | generate_timetable.py:256-258 | in rush hour consecutive departures differ by the two rush headways alternately |
| GenTrains.DeparturesJoin | generate_timetable.py:231-234 | a fixed-headway run split at a multiple of the headway is the two runs one after the other |
| GenTrains.TrainSeconds | generate_timetable.py:240-261 | the first train leaves at the start time, equal ends give that one train, and every train falls within the day, past midnight included |
| GenTrains.TrainSecondsEvery | generate_timetable.py:241-261 | with a fixed headway, an end before the start means the next day, and train k leaves at start + k*headway modulo a day |
| GenTrains.Texts | generate_timetable.py:255 | each departure is written as `HH:MM:SS` and reads back to its second |
| GenTrains.Terminates | generate_timetable.py:236-261 | the inputs on which the function returns: it always returns when an end does not parse, and for two distinct parsed ends it returns exactly when the headway is the rush pattern or a positive number of seconds |
| GenTrains.GenerateTrainTimes | generate_timetable.py:226-263 | a successful run yields at least one train, every one a clock text |
| GenTrains.GenerateTrainTimesSpec | generate_timetable.py:238-263 | the run succeeds exactly when both bounds parse, and then lists the departures of the parsed bounds in order, each reading back to its second |
| GenTrains.GenerateTrainTimesOne | generate_timetable.py:240-243 | two ends of the same second give the one formatted start, whatever the headway |
| GenTrains.DepartureLoop | generate_timetable.py:249-261 | the `while` loop with its rush toggle computes exactly the recursive departure sequence |
| GenOffsets.Resolve | generate_timetable.py:121 | a number of seconds is itself, and a category resolves exactly when it is configured, to its value |
| GenOffsets.WaitTime | generate_timetable.py:111-129 | a period override wins, then a station override, then the default category; no value only when the setting chosen names an unknown category |
| GenOffsets.PeriodOverrideWins | generate_timetable.py:117-121 | a period override decides the dwell whatever the station overrides and default say |
| GenOffsets.DefaultApplies | generate_timetable.py:128-129 | without overrides a station dwells for the default category, and the lookup fails exactly when that category is missing |
| GenOffsets.ShippedWaitTimes | generate_timetable.py:65-129 | with the shipped configuration every station and period resolves to a dwell of 30, 45 or 60 seconds |
| GenOffsets.JourneyStations | generate_timetable.py:26-43 | the southbound journey lists the stations in line order |
| GenOffsets.JourneyStationsReversed | generate_timetable.py:45-62 | the northbound journey lists them in exactly reversed order |
| GenOffsets.JourneySymmetric | generate_timetable.py:26-62 | both journeys have the same length, and each leg takes the same travel time in both directions |
| GenOffsets.TravelFails | generate_timetable.py:144 | an unreadable travel time makes the whole offset computation fail |
| GenOffsets.DwellFails | generate_timetable.py:150 | an unresolvable dwell at an intermediate station makes it fail |
| GenOffsets.OffsetStep | generate_timetable.py:143-150 | each station's offset is the previous offset plus the previous intermediate station's dwell plus the leg's travel time |
| GenOffsets.OffsetMonotone | generate_timetable.py:143-150 | with non-negative times, offsets never decrease along the journey |
| GenOffsets.StationOffsets | generate_timetable.py:132-152 | offsets exist exactly when every travel time and every intermediate dwell resolves |
| GenOffsets.WalkFrom | generate_timetable.py:143-152 | the accumulating walk, from any point where it agrees with the reference, ends with the reference offsets |
| GenOffsets.ComputeStationOffsets | generate_timetable.py:132-152 | the loop of `compute_station_offsets` equals the closed-form offsets (cumulative travel plus dwells before the station) |
| GenSchedule.SlotTrains | generate_timetable.py:369-372 | a slot yields trains exactly when its bounds parse, each a clock text tagged with the slot's period |
| GenSchedule.AllTrains | generate_timetable.py:368-372 | the slot loop yields its departures exactly when no slot's time fails to parse (the loop raises at the first that does), and every collected departure is a clock text |
| GenSchedule.FirstSeen | generate_timetable.py:380-383 | the de-duplicating dictionary has exactly the departure times as keys |
| GenSchedule.FirstSeenFirst | generate_timetable.py:380-383 | a time keeps the period of its first occurrence |
| GenSchedule.SortedItems | generate_timetable.py:384 | every sorted item is a dictionary entry with its own value |
| GenSchedule.SortedItemsIncrease | generate_timetable.py:384 | the sorted items rise strictly in string order, so no time is repeated |
| GenSchedule.SortedItemsComplete | generate_timetable.py:384 | every clock-text key of the dictionary appears among the sorted items |
| GenSchedule.Platform | generate_timetable.py:368-384 | a platform's departures exist exactly when the slot loop completes |
| GenSchedule.PlatformIncreases | generate_timetable.py:379-384 | the platform's departures rise strictly |
| GenSchedule.PlatformTexts | generate_timetable.py:368-384 | the platform lists exactly the set of generated times, nothing lost and nothing added |
| GenSchedule.PlatformFirstPeriod | generate_timetable.py:379-384 | a listed time carries the period of its first generated occurrence |
| GenSchedule.PeriodOffsets | generate_timetable.py:413-417 | the offset table exists exactly when all three periods' offsets do, and it holds them under their periods |
| GenSchedule.PeriodOffsetsAt | generate_timetable.py:413-417 | every period's entry of the table is that period's offsets |
| GenSchedule.Arrival | generate_timetable.py:431-433 | an arrival exists exactly when the departure parsed and the station has an offset for its period, and it is a second of the day |
| GenSchedule.Column | generate_timetable.py:429-435 | a station's column exists exactly when every arrival does, with one entry per departure |
| GenSchedule.ColumnReadsBack | generate_timetable.py:429-434 | entry k of a column is departure k plus its period's offset, wrapped and formatted |
| GenSchedule.Build | generate_timetable.py:423-444 | the timetable exists exactly when every station has both columns, and it is keyed by exactly those stations |
| GenSchedule.ScheduleDefined | generate_timetable.py:357-444 | `generate_schedule` succeeds exactly when no slot of either platform fails to parse and both journeys' offsets exist |
| GenSchedule.GenerateSchedule | generate_timetable.py:357-444 | a timetable exists only when no slot of either platform fails to parse; the Uttara North slots are reached only after every Motijheel slot ran; `ScheduleDefined` and `ScheduleShape` state exactly when and its shape |
| GenSchedule.FirstSlotRaises | generate_timetable.py:367-372 | a first Motijheel slot whose time does not parse ends the run with no timetable, whatever the later slots of either platform are |
| GenSchedule.ScheduleShape | generate_timetable.py:419-444 | the timetable has every station of the line, both directions per station, and as many times per direction as origin departures |
| GenSchedule.ScheduleEntryToMotijheel | generate_timetable.py:428-435 | the k-th Motijheel-bound time at a station is the k-th origin departure plus that station's offset for its period |
| GenSchedule.ScheduleEntryToUttara | generate_timetable.py:437-444 | the same for the Uttara North-bound times |
| GenSchedule.SameStations | generate_timetable.py:420 | both journeys visit exactly the stations of the line |
| GenSchedule.ParseTimeClockText | generate_timetable.py:432 | on a generated clock text the full `parse_time` agrees with the plain `%H:%M:%S` reading |
| ScheduleView.ClassOf | docs/script.js:505-520 | a row is marked leaving exactly when it matches the clock, arriving exactly when it matches the next minute instead, otherwise upcoming for the first three and never past |
| ScheduleView.ClockNow | docs/script.js:430-442 | the seconds reading is below 60, and the one-minute-later reading sorts after the current one except at 23:59, where it wraps to 00:00 |
| ScheduleView.MakeRow | docs/script.js:521-525 | a row keeps its time and class, is verified exactly when its id is, and on platform 1 or without delay rules shows the bare time |
| ScheduleView.Shown | docs/script.js:498-501 | shown trains are listed times not before the clock: all of them with "show all", at most three otherwise |
| ScheduleView.PlatformRows | docs/script.js:488-525 | the rows are the past trains (only with "show all") marked past, then the shown trains with their classes |
| ScheduleView.DefaultView | docs/script.js:501 | without "show all" the page shows the first three future trains, or all of them when fewer |
| ScheduleView.ShowAllView | docs/script.js:488-502 | with "show all" on a sorted list the past and future rows together list every train once, in order |
| ScheduleView.ExactLabelsNeverFire | docs/script.js:505-512 | as written (exact match of `HH:MM` with `HH:MM:SS`), no generated row is ever marked leaving or arriving |
| ScheduleView.MinuteLabelsFire | docs/script.js:505-512 | compared by minute, a row is leaving exactly in its own minute and arriving exactly in the minute before |
| ScheduleView.PlatformMessage | docs/script.js:447-460 | a platform's message is its arriving text, its leaving text, or nothing |
| ScheduleView.Banner | docs/script.js:455-460 | an empty message leaves the banner to the other platform |
| ScheduleView.ExactBannerSilent | docs/script.js:447-453 | as written the banner stays empty on generated times at every clock reading |
| ScheduleView.MinuteBanner | docs/script.js:447-453 | compared by minute the banner announces an arrival when a train is due next minute, else a departure in the first half of a train's minute |
| ScheduleView.FindNextTrains | docs/script.js:426-621 | the view exists exactly when the station has both directions, and then shows each platform's rows for its direction and the banner joined from the two platforms' messages |
| ScheduleView.ExactViewBannerSilent | docs/script.js:447-460 | as written the station page shows no banner for a generated timetable at any clock reading |
| ScheduleView.FirstTrain | docs/script.js:646-647 | the first train is the list's first entry, or none |
| ScheduleView.LastTrain | docs/script.js:737-738 | the last train is the list's last entry, or none |
| ScheduleView.KeepIdChars | docs/script.js:75 | the cleaned id keeps only allowed characters and never grows |
| ScheduleView.KeepIdCharsKeeps | docs/script.js:75 | cleaning leaves a text unchanged exactly when all its characters are allowed, and cleaning twice is cleaning once |
| ScheduleView.GenerateTimeId | docs/script.js:74-76 | a row id consists of allowed characters only |
| ScheduleView.TimeIdsDistinct | docs/script.js:74-76 | the id of a generated time is the cleaned prefix plus its six digits, so different times on a platform get different ids |
| ScheduleView.ShownText | docs/script.js:980-986 | platform 1 and placeholder labels show the time as it is |
| ScheduleView.MatchingsAgreeOnMinuteText | docs/script.js:448 | on an `HH:MM` text exact and minute-wise matching agree |
| ScheduleView.ExactMissesSecondsText | docs/script.js:448 | an `HH:MM:SS` time never equals an `HH:MM` clock |
| CustomClock.ParseIntOfDigits | docs/script.js:875-877 | `parseInt` reads a leading digit run as its value, whatever follows |
| CustomClock.ParseInt | docs/script.js:875-877 | text without any digit is `NaN`, and a negative result needs a minus sign; `ParseIntOfDigits` gives the value of a leading digit run |
| CustomClock.FieldOr0 | docs/script.js:875-877 | a missing field counts as zero |
| CustomClock.SetHoursInRange | docs/script.js:880 | `setHours` with in-range fields keeps the day and the milliseconds and sets the time of day |
| CustomClock.SetHours | docs/script.js:880 | the milliseconds are kept whatever the fields; `SetHoursInRange` states the kept day and the set time of day |
| CustomClock.CurrentTime | docs/script.js:108-110 | the current time is the custom time when one is set, else the system clock |
| CustomClock.UpdateClock | docs/script.js:147-164 | a paused tick shows nothing and changes nothing; otherwise it shows the current time and advances a custom time by one second |
| CustomClock.SetCustomTime | docs/script.js:868-889 | a text without a colon is refused and changes nothing; otherwise a custom time is set, pause untouched |
| CustomClock.SetClockText | docs/script.js:868-889 | setting an `HH:MM:SS` text puts exactly that second of today on the clock |
| CustomClock.SetMinuteText | docs/script.js:868-889 | setting an `HH:MM` text puts that minute of today on the clock, at second zero |
| CustomClock.ResetTime | docs/script.js:893-898 | after a reset the clock follows the system clock again |
| CustomClock.TogglePause | docs/script.js:928-936 | the pause button flips the pause flag; pausing changes nothing else |
| CustomClock.PauseResume | docs/script.js:928-936 | pausing then resuming returns to the state, with the custom time advanced one second by the resume's tick |
| CustomClock.RunClock | docs/script.js:147-157 | over n ticks a paused clock shows nothing, a custom clock shows one-second steps and ends n seconds on, and otherwise the system readings are shown |
| CustomClock.HandleTimeChange | mrt-nextjs/src/app/page.tsx:19-26 | an offset is kept exactly when a time is chosen |
| CustomClock.OffsetAdvances | mrt-nextjs/src/app/page.tsx:38-49 | with an offset the page's clock advances with the system clock from the chosen time; without one it is the system clock |
| LegacyViews.NextThree | mrt-nextjs/src/app/page.tsx:95-101 | the shown trains are the first three later trains (fewer when fewer exist), and when fewer than three are shown none is missing |
| LegacyViews.PageNextTrains | mrt-nextjs/src/app/page.tsx:87-104 | nothing without data or a station, an exception when a direction is missing, and otherwise both platforms' next three |
| LegacyViews.PageLaterBySecond | mrt-nextjs/src/app/page.tsx:77-96 | with the clock as `HH:MM:SS` a train is later exactly when its second is after the clock |
| LegacyViews.FirstPageLaterByMinute | script.js:48-55 | with the clock as `HH:MM` a train due earlier in the current minute still counts as later |
| LegacyViews.FirstPageNextTrains | script.js:44-68 | an unknown station changes nothing, a missing direction fails, and otherwise both platforms' next three are shown |
| LegacyViews.Dropdown | script.js:26-39 | the dropdown lists exactly the ordered stations present in the timetable |
| LegacyViews.DropdownInOrder | script.js:32-39 | the dropdown keeps line order |
| LegacyViews.FirstPageOmitsBijoySarani | script.js:26-30 | the station keyed "Bijoy Sarani" is never offered by the first page |
| Bot.KeyOf | main.py:108-109 | a time gets a finite key exactly when it parses and is after now, and that key is the positive number of seconds to wait |
| Bot.NowMinute | main.py:93-102 | the bot's clock is the whole minute |
| Bot.SortBy | main.py:108 | `sorted` is a permutation that keeps, for every key, the entries with that key in their list order (stability) |
| Bot.SortBySorted | main.py:108 | `sorted` orders by key |
| Bot.InsertWithKey | main.py:108 | inserting adds the entry in front of the entries with its key and leaves other keys' entries alone |
| Bot.NextThree | main.py:108-109 | the reply fails exactly when some time does not parse, and otherwise is the first three (or fewer) of the stable sort |
| Bot.UpcomingFirst | main.py:108-109 | the sort lists the upcoming times first, in order of time, then the past and unparsable times in list order |
| Bot.NextThreeSpec | main.py:108-109 | the reply shows the upcoming times first and fills up with past times in list order |
| Bot.Reply | main.py:93-116 | no reply before a `/start` has bound the global `user` (the `NameError` of main.py:98); after it, a reply exists exactly when the station has both directions and both lists parse, and then holds each direction's next three |
| TrainMap.ToggleFilter | docs/train_map.js:21-28 | clicking the active filter returns to "all", clicking another selects it |
| TrainMap.ToggleTwice | docs/train_map.js:21-28 | clicking a filter twice returns to "all" |
| TrainMap.FilteredDirections | docs/train_map.js:157-165 | a direction is drawn exactly when the filter is "all" or that direction |
| TrainMap.Walk | docs/train_map.js:188-201 | a rebuilt journey has one stop per station |
| TrainMap.WalkStops | docs/train_map.js:188-201 | each stop of a rebuilt journey is the station's entry for that train |
| TrainMap.WalkComplete | docs/train_map.js:188-201 | the journey is rebuilt whenever every station has an entry for the train |
| TrainMap.HasEntry | docs/train_map.js:190 | an entry exists only at a station and direction the timetable has, inside that column |
| TrainMap.BuildTrain | docs/train_map.js:180-203 | a rebuilt train visits all sixteen stations |
| TrainMap.BuildTrainSpec | docs/train_map.js:182-203 | a train is rebuilt exactly when every station in travel order has its entry, and stop j's time is that entry |
| TrainMap.Origin | docs/train_map.js:174 | trains toward Motijheel start at Uttara North and the others at Motijheel |
| TrainMap.Running | docs/train_map.js:209 | a running train has numeric first and last times, and the clock lies from its first time to a quarter minute after its last |
| TrainMap.OriginFirst | docs/train_map.js:174-186 | the origin is the first station of the travel order |
| TrainMap.TrainCount | docs/train_map.js:176-178 | trains are counted exactly when the origin has the direction, as its number of times |
| TrainMap.SegmentKind | docs/train_map.js:211-249 | each kind exactly on its window: arriving in the minute before the next stop (or, on the last segment, only at the instant its departing window closes), departing in the quarter minute from it, in transit from the current stop up to the arriving window with progress the elapsed share of the leg, below one; nothing otherwise |
| TrainMap.Locate | docs/train_map.js:211-249 | the train is placed on the first segment whose window holds |
| TrainMap.PlaceTrain | docs/train_map.js:180-250 | a train is placed exactly when it is rebuilt, running and located on a segment, and then on that segment |
| TrainMap.LocateRunning | docs/train_map.js:209-249 | on ascending times a train between its first stop and a quarter minute after its last is found on some segment: the four checks leave no gap |
| TrainMap.RunningTrainPlaced | docs/train_map.js:180-250 | a rebuilt train with ascending times is on the map exactly while it runs |
| TrainMap.ProcessDirection | docs/train_map.js:173-252 | the markers are placements of existing trains, in train order |
| TrainMap.ProcessDirectionComplete | docs/train_map.js:173-252 | every train that can be placed has its marker |
| TrainMap.NowMinutes | docs/train_map.js:155 | the map's clock is the seconds of the day divided by sixty |
| TrainMap.DirectionTrains | docs/train_map.js:342-343 | a missing direction is an empty list |
| TrainMap.FirstLast | docs/train_map.js:345-359 | "first - last" for a non-empty list, the no-service text otherwise |
| TrainMap.StationDetails | docs/train_map.js:337-364 | details exist exactly for known stations and give both directions' first and last trains |
| TrainMap.FirstPending | docs/train_map.js:375-385 | the current index is the first train not yet departed, or -1 when all have |
| TrainMap.CountTrains | docs/train_map.js:375-385 | the counting loop returns the departed count and the first pending index |
| TrainMap.WindowStart | docs/train_map.js:388 | the list starts at most three trains before the first pending one |
| TrainMap.WindowEnd | docs/train_map.js:389 | the list ends fifteen trains after its start, or at the end of the list |
| TrainMap.StatusOf | docs/train_map.js:399-412 | a train is departed exactly when its numeric time is before the current minute, so a `NaN` time never is; the next and coming labels go to the first pending train and the one after it |
| TrainMap.Rows | docs/train_map.js:388-420 | consecutive trains from `max(0, departed - 3)`, as many as remain up to fifteen |
| TrainMap.TrainList | docs/train_map.js:366-425 | the station's list shows consecutive trains from three before the first pending one, as many as remain up to fifteen |
| TrainMap.DepartedPrefix | docs/train_map.js:375-385 | on a sorted list the departed trains are exactly a prefix, and the first pending is the first after it |
| TrainMap.NextTrainShown | docs/train_map.js:366-425 | on a sorted list with a train still to come, that train is listed as next, and only trains before it are marked departed |
| TrainDetails.ScheduleFile | docs/train_details.js:73 | a given file name is used, otherwise the default schedule |
| TrainDetails.IncludedStations | docs/train_details.js:111-124 | the journey keeps exactly the stations having the train's entry |
| TrainDetails.IncludedInOrder | docs/train_details.js:111-124 | of two included stations the earlier comes first in travel order |
| TrainDetails.Journey | docs/train_details.js:109-124 | each journey stop is its station's entry for the train |
| TrainDetails.Open | docs/train_details.js:75-124 | the page reports missing details, a failed load, an unknown station or an unknown time each exactly in its case, and otherwise the first train with that time and its journey |
| TrainDetails.OpenFindsSource | docs/train_details.js:94-124 | the found journey passes through the requested station at the requested time |
| TrainDetails.OnTheLine | docs/train_details.js:101-106 | every line station is in the travel order of either direction |
| TrainDetails.JourneyOfCompleteTrain | docs/train_details.js:109-124 | for a complete train the details page's journey equals the map's rebuilt train |
| TrainDetails.CurrentStation | docs/train_details.js:149-158 | the current station is the last of the leading run of reached stops, or -1 |
| TrainDetails.FindCurrentStation | docs/train_details.js:149-158 | the loop computes that station |
| TrainDetails.Reached | docs/train_details.js:153 | a stop the exact comparison reaches is also reached by minute |
| TrainDetails.BadgeOf | docs/train_details.js:160-186 | departed exactly before the current stop, arrived exactly at a current terminus, expected after it, and starts-here exactly on the first stop when none is reached |
| TrainDetails.Timeline | docs/train_details.js:146-190 | one badge per stop; `TimelineShape` states their order |
| TrainDetails.TimelineShape | docs/train_details.js:160-190 | stops before the current one are departed, after it expected, it is the current location or arrived at the terminus, and before the start the origin says "starts here" |
| TrainDetails.ExactReachedLate | docs/train_details.js:153 | as written, a stop counts as reached only from the minute after its own |
| TrainDetails.MinuteReached | docs/train_details.js:153 | compared by minute, a stop counts as reached from its own minute on |
| TrainDetails.FirstSegment | docs/train_details.js:231-235 | the marker uses the first segment whose times enclose the clock |
| TrainDetails.Animate | docs/train_details.js:217-267 | animation fails exactly for an empty journey; no marker exactly when the clock is outside the journey's times or no segment encloses it; otherwise the marker is on the first enclosing segment with progress `(now - cur)/(next - cur)`, below one, and height interpolated between its two stations |
| TrainDetails.MarkerWhileRunning | docs/train_details.js:229-235 | on ascending times a marker is drawn from the first stop's time up to, not including, the terminus minute |
| TrainDetails.MarkerBetweenStations | docs/train_details.js:242-248 | the marker lies between its segment's two stations |
| TrainDetails.NoMarkerOnArrival | docs/train_details.js:229-235 | on a sorted journey, at the terminus arrival minute no segment holds the train and the marker disappears |

## Left out

- The page layout, DOM updates, the network, file I/O and printing. The config file reader (`read_config_file`) and the top-level `generate_full_timetable` only read files and print, so they are left out.
- `addDelayInfo` in docs/delay-handler.js only rewrites DOM nodes, so it is left out.
- The preset time buttons of docs/script.js are left out.
- The service workers, the admin panel components and the journey page of the Next.js app are not part of this model.
- The holiday fetch and its local cache chain are modelled as one `Option` parameter: `None` stands for every failure.
- The verified-times store is a set of times given as a parameter.
- Time zones, daylight saving and the engine-dependent `24:xx` output of `toLocaleTimeString` are left out. The clock is a second of the local day.
- Dates before year 1 are left out (`Calendar.Date.Valid`).
- JsNumber.FieldNumber: JavaScript `Number()` is modelled for digit fields (the empty field is 0) and `NaN` otherwise. White space, signs, decimal points, exponents, the `0x`, `0b` and `0o` prefixes and infinities are left out, because the timetable's fields are never of those forms.
- JsNumber.MinutesOfHMS: numbers are exact rationals, not IEEE doubles, so rounding of `/ 60` is not modelled.
- TrainDetails.Animate: the marker position is exact rational arithmetic, not IEEE doubles; the marker's DOM element, label and CSS are left out.
- Strings.PyIntOfDecimal: Python `int()` is modelled on ASCII digits with an optional sign and surrounding white space. Underscore separators and non-ASCII digits are left out.
- CustomClock.ParseIntOfDigits: `parseInt` is read in base 10. The `0x` prefix is left out.
- CustomClock.ParseInt: leading white space is Python's `str.isspace` set. JavaScript's `parseInt` also skips U+FEFF and does not skip U+001C to U+001F or U+0085; these characters do not occur in the time input.
- Delays.GetDelayMinutes: lookups of inherited object keys such as `toString` are left out; only the table's own stations are keys.
- TrainDetails.Open: the station and direction come from the URL and index plain objects. Inherited keys are left out: with `direction=constructor` the source finds `Object` and throws a TypeError inside the promise chain, while the model reports the station as not found.
- GenTrains.GenerateTrainTimes: requires `GenTrains.Terminates`. Only two distinct parsable ends with a fixed headway of zero or less are excluded. There the Python loop does not return a list: with a headway of 0 the list grows until `MemoryError`, and with a negative headway the time steps backwards until `MemoryError` or an `OverflowError` at `datetime.min`. Neither exception is reached in any practical time, so the model excludes the input instead of modelling them. `GenSchedule.SlotsRun` carries the same exclusion to the slot loop, which is excluded only when no earlier slot has already raised.
- Strings.Lower: folds ASCII letters only. Python's `str.lower()` also folds non-ASCII letters (U+212A KELVIN SIGN becomes `k`), so a headway field such as `offpea` followed by U+212A is read as offpeak by the source and not by the model.
- GenOffsets.ShippedWaitTimes: the concrete offsets of the shipped tables are not evaluated. Their dwell values are stated, and the offset rules are proved for every table.
- Python `datetime` ranges beyond one day are left out. Times are seconds of the day, wrapped with `% 86400` where the generator wraps.
- The Telegram bot's keyboard, message sending and file path are left out. A failing `datetime.strptime` that would raise is modelled as `None`.
- The JavaScript pages compare strings with `<`, which compares UTF-16 code units. The model's order compares characters by code point. The two differ only on surrogate pairs, which are left out. Python compares by code point, as the model does.
- Which script's `formatTimeWithDelay` is in force (the placeholder of docs/script.js or the rules of docs/delay-handler.js) depends on load order, so it is a parameter (`ScheduleView.DelayLabels`).
- Clock.Field: a `strptime` field is read as ASCII digits. Python's `\d` also matches every other Unicode decimal digit, and `int()` reads it, so `parse_time("0٨:00")` is 08:00 in the source and `None` in `GenParse.ParseTime`. For the same reason `Clock.FormatParseHMS` does not cover eight-character texts with such digits (`"0٨:00:00"` formats back as `"08:00:00"`).
- Calendar.ServiceFileOfDate: the file follows the date given to it. The page chooses `currentScheduleFile` at the first call and never again, so an open page keeps the load day's file after midnight. That cache is left out.
- GenParse.ParseTime: reads ASCII digits only; non-ASCII decimal digits that `strptime` accepts read as `None` (see `Clock.Field`).
- Clock.FormatParseHMS: stated for ASCII digit fields only (see `Clock.Field`).

## Findings

| source | as written | input that shows it | evidently intended | confidence | as-written member | corrected member |
|---|---|---|---|---|---|---|
| docs/script.js:505-512 | the clock `HH:MM` is compared with `===` to generated `HH:MM:SS` times, for the row labels and the banner (lines 447-453) | a train at "08:00:00" with the clock at 08:00: the row is not labelled leaving and no banner appears | label and announce by minute | not executed | ScheduleView.ExactLabelsNeverFire | ScheduleView.MinuteLabelsFire |
| docs/script.js:447-453 | the banner looks for `time === currentTime` and `time === oneMinuteLater` | any generated timetable at any clock: the banner is empty | announce the train due this minute or next | not executed | ScheduleView.ExactBannerSilent | ScheduleView.MinuteBanner |
| docs/train_details.js:153 | `journey[i].time <= currentTime` compares `HH:MM:SS` with `HH:MM` | stop at "08:00:00" with the clock at 08:00: "08:00:00" <= "08:00" is false, so the stop is not reached until 08:01 | a stop is reached from its own minute on | not executed | TrainDetails.ExactReachedLate | TrainDetails.MinuteReached |

=== FILE: bot.dfy ===
/** The Telegram bot's answer (main.py): for the chosen station, the next
    three times of each platform. The clock is read and truncated to
    `HH:MM`; every time of a platform's list gets the key "seconds until it"
    when it is strictly later, and infinity otherwise; the list is sorted by
    that key with Python's stable sort and cut to three. The timetable file
    and the clock are parameters. */
module Bot {
  import opened Wrappers
  import Clock
  import Timetable

  // ---------------------------------------------------------------------------
  // The sort key

  /** `(t - now).total_seconds()` or `float('inf')`. */
  datatype Key = Finite(seconds: int) | Infinite

  predicate KeyLess(a: Key, b: Key)
  {
    a.Finite? && (b.Infinite? || a.seconds < b.seconds)
  }

  predicate KeyLessEq(a: Key, b: Key)
  {
    b.Infinite? || (a.Finite? && a.seconds <= b.seconds)
  }

  /** The key of a list entry at minute `now`: its time is read with
      `strptime(x, '%H:%M')` (an entry that does not read is never keyed,
      since the sort fails first). */
  function KeyOf(now: nat, x: string): (k: Key)
    ensures k.Finite? <==> Clock.StrptimeHM(x).Some? && Clock.StrptimeHM(x).value > now
    ensures k.Finite? ==> k.seconds == (Clock.StrptimeHM(x).value - now) * 60 && k.seconds > 0
  {
    var t := Clock.StrptimeHM(x);
    if t.Some? && t.value > now then Finite((t.value - now) * 60) else Infinite
  }

  /** `input_time`: the clock at second `t` of the day, spelled `HH:MM` and
      read back, so its seconds are dropped. */
  function NowMinute(t: nat): (m: nat)
    requires t < Clock.SecondsPerDay
    ensures m == t / 60
  {
    Clock.ParseFormatHM(t / 60);
    Clock.StrptimeHM(Clock.FormatHM(t / 60)).value
  }

  /** The sort key of every entry at minute `now`. */
  function KeyAt(now: nat): (key: string -> Key)
    ensures forall x :: key(x) == KeyOf(now, x)
  {
    x => KeyOf(now, x)
  }

  // ---------------------------------------------------------------------------
  // Python's stable sort, for any key

  /** The list is ordered by key. */
  predicate SortedBy(xs: seq<string>, key: string -> Key)
  {
    forall i, j | 0 <= i < j < |xs| :: KeyLessEq(key(xs[i]), key(xs[j]))
  }

  /** The entries with key `k`, in list order. */
  function WithKey(xs: seq<string>, key: string -> Key, k: Key): (r: seq<string>)
    ensures |r| <= |xs|
  {
    if |xs| == 0 then []
    else (if key(xs[0]) == k then [xs[0]] else []) + WithKey(xs[1..], key, k)
  }

  /** `x` placed before the first entry whose key is not smaller. */
  function Insert(x: string, s: seq<string>, key: string -> Key): (r: seq<string>)
    ensures multiset(r) == multiset(s) + multiset{x}
    ensures |r| == |s| + 1
  {
    if |s| == 0 then [x]
    else if KeyLess(key(s[0]), key(x)) then
      assert s == [s[0]] + s[1..];
      [s[0]] + Insert(x, s[1..], key)
    else [x] + s
  }

  /** Inserting `x` adds it to its own key's entries, at their front, and
      leaves every other key's entries alone: the entries skipped have
      smaller keys. */
  lemma {:induction false} InsertWithKey(x: string, s: seq<string>, key: string -> Key, k: Key)
    ensures WithKey(Insert(x, s, key), key, k) == (if key(x) == k then [x] else []) + WithKey(s, key, k)
  {
    if |s| == 0 {
      assert [x][1..] == [];
    } else if KeyLess(key(s[0]), key(x)) {
      InsertWithKey(x, s[1..], key, k);
      InsertPast(x, s, key, k);
    } else {
      var r := Insert(x, s, key);
      assert r[0] == x && r[1..] == s;
    }
  }

  /** The step of `InsertWithKey` where `x` moves past the first entry,
      whose key is smaller and so differs from `x`'s. */
  lemma {:induction false} InsertPast(x: string, s: seq<string>, key: string -> Key, k: Key)
    requires |s| > 0 && KeyLess(key(s[0]), key(x))
    requires WithKey(Insert(x, s[1..], key), key, k) == (if key(x) == k then [x] else []) + WithKey(s[1..], key, k)
    ensures WithKey(Insert(x, s, key), key, k) == (if key(x) == k then [x] else []) + WithKey(s, key, k)
  {
    var r := Insert(x, s, key);
    var rest := Insert(x, s[1..], key);
    assert r[0] == s[0] && r[1..] == rest;
    assert WithKey(r, key, k) == (if key(s[0]) == k then [s[0]] else []) + WithKey(rest, key, k);
    assert WithKey(s, key, k) == (if key(s[0]) == k then [s[0]] else []) + WithKey(s[1..], key, k);
    if key(x) == k {
      assert key(s[0]) != k;
      assert WithKey(r, key, k) == WithKey(rest, key, k);
    } else {
      assert WithKey(rest, key, k) == WithKey(s[1..], key, k);
    }
  }

  /** Insertion keeps a sorted list sorted. */
  lemma {:induction false} InsertSorted(x: string, s: seq<string>, key: string -> Key)
    requires SortedBy(s, key)
    ensures SortedBy(Insert(x, s, key), key)
  {
    var r := Insert(x, s, key);
    if |s| > 0 && KeyLess(key(s[0]), key(x)) {
      var tail := s[1..];
      assert SortedBy(tail, key) by {
        forall i, j | 0 <= i < j < |tail|
          ensures KeyLessEq(key(tail[i]), key(tail[j]))
        {
          assert tail[i] == s[i + 1] && tail[j] == s[j + 1];
        }
      }
      InsertSorted(x, tail, key);
      var rest := Insert(x, tail, key);
      forall j | 0 <= j < |rest|
        ensures KeyLessEq(key(s[0]), key(rest[j]))
      {
        assert rest[j] in multiset(rest);
        if rest[j] != x {
          assert rest[j] in multiset(tail);
          var l :| 0 <= l < |tail| && tail[l] == rest[j];
          assert tail[l] == s[l + 1];
        }
      }
      assert r == [s[0]] + rest;
    } else if |s| > 0 {
      forall j | 0 <= j < |s|
        ensures KeyLessEq(key(x), key(s[j]))
      {
        assert KeyLessEq(key(s[0]), key(s[j])) || j == 0;
      }
      assert r == [x] + s;
    }
  }

  /** `sorted(xs, key=...)`: the first entry is inserted into the sorted
      rest, ahead of the entries with its key, so entries with equal keys
      keep their list order. */
  function SortBy(xs: seq<string>, key: string -> Key): (r: seq<string>)
    ensures multiset(r) == multiset(xs)
    ensures |r| == |xs|
    ensures forall k :: WithKey(r, key, k) == WithKey(xs, key, k)
  {
    if |xs| == 0 then []
    else
      var rest := SortBy(xs[1..], key);
      var r := Insert(xs[0], rest, key);
      assert xs == [xs[0]] + xs[1..];
      assert forall k :: WithKey(r, key, k) == WithKey(xs, key, k) by {
        forall k
          ensures WithKey(r, key, k) == WithKey(xs, key, k)
        {
          InsertWithKey(xs[0], rest, key, k);
        }
      }
      r
  }

  /** The sort orders by key. */
  lemma {:induction false} SortBySorted(xs: seq<string>, key: string -> Key)
    ensures SortedBy(SortBy(xs, key), key)
  {
    if |xs| > 0 {
      SortBySorted(xs[1..], key);
      InsertSorted(xs[0], SortBy(xs[1..], key), key);
    }
  }

  /** In a list sorted by key the entries with the infinite key are a
      suffix, holding exactly those entries. */
  lemma {:induction false} InfiniteSuffix(r: seq<string>, key: string -> Key)
    requires SortedBy(r, key)
    ensures var u := |r| - |WithKey(r, key, Infinite)|;
      0 <= u <= |r|
      && (forall i | 0 <= i < u :: key(r[i]).Finite?)
      && r[u..] == WithKey(r, key, Infinite)
  {
    if |r| > 0 {
      if key(r[0]).Infinite? {
        InfiniteHead(r, key);
      } else {
        SortedTail(r, key);
        InfiniteSuffix(r[1..], key);
        FiniteHead(r, key);
      }
    }
  }

  lemma {:induction false} SortedTail(r: seq<string>, key: string -> Key)
    requires |r| > 0 && SortedBy(r, key)
    ensures SortedBy(r[1..], key)
  {
    var tail := r[1..];
    forall i, j | 0 <= i < j < |tail|
      ensures KeyLessEq(key(tail[i]), key(tail[j]))
    {
      assert tail[i] == r[i + 1] && tail[j] == r[j + 1];
    }
  }

  /** A sorted list starting with an infinite key is all infinite keys. */
  lemma {:induction false} InfiniteHead(r: seq<string>, key: string -> Key)
    requires |r| > 0 && SortedBy(r, key) && key(r[0]).Infinite?
    ensures WithKey(r, key, Infinite) == r
  {
    forall j | 0 <= j < |r| ensures key(r[j]).Infinite? {
      if j > 0 {
        assert KeyLessEq(key(r[0]), key(r[j]));
      }
    }
    AllInfinite(r, key);
  }

  /** A finite key in front leaves the infinite-key entries of the rest. */
  lemma {:induction false} FiniteHead(r: seq<string>, key: string -> Key)
    requires |r| > 0 && key(r[0]).Finite?
    requires var tail, u := r[1..], |r| - 1 - |WithKey(r[1..], key, Infinite)|;
      0 <= u <= |tail|
      && (forall i | 0 <= i < u :: key(tail[i]).Finite?)
      && tail[u..] == WithKey(tail, key, Infinite)
    ensures var u := |r| - |WithKey(r, key, Infinite)|;
      0 <= u <= |r|
      && (forall i | 0 <= i < u :: key(r[i]).Finite?)
      && r[u..] == WithKey(r, key, Infinite)
  {
    var tail := r[1..];
    assert WithKey(r, key, Infinite) == WithKey(tail, key, Infinite);
    var u := |r| - |WithKey(r, key, Infinite)|;
    assert r[u..] == tail[u - 1..];
    forall i | 0 <= i < u ensures key(r[i]).Finite? {
      if i > 0 {
        assert r[i] == tail[i - 1];
      }
    }
  }

  /** A list whose every key is infinite is its own list of entries with
      the infinite key. */
  lemma {:induction false} AllInfinite(r: seq<string>, key: string -> Key)
    requires forall j | 0 <= j < |r| :: key(r[j]).Infinite?
    ensures WithKey(r, key, Infinite) == r
  {
    if |r| > 0 {
      assert forall j | 0 <= j < |r[1..]| :: r[1..][j] == r[j + 1];
      AllInfinite(r[1..], key);
    }
  }

  /** `sorted(...)[:3]`, or `None` when some entry does not read as
      `%H:%M` and `strptime` raises. */
  function NextThree(xs: seq<string>, now: nat): (r: Option<seq<string>>)
    ensures r.None? <==> exists i | 0 <= i < |xs| :: Clock.StrptimeHM(xs[i]).None?
    ensures r.Some? ==> |r.value| == (if |xs| < 3 then |xs| else 3)
    ensures r.Some? ==> r.value == SortBy(xs, KeyAt(now))[..|r.value|]
  {
    if exists i | 0 <= i < |xs| :: Clock.StrptimeHM(xs[i]).None? then None
    else
      var sorted := SortBy(xs, KeyAt(now));
      Some(if |sorted| < 3 then sorted else sorted[..3])
  }

  // ---------------------------------------------------------------------------
  // What the answer holds

  /** The upcoming entries: strictly later than now. */
  predicate Upcoming(now: nat, x: string)
  {
    KeyOf(now, x).Finite?
  }

  /** The entries that are not upcoming, in list order. */
  function NotUpcoming(xs: seq<string>, now: nat): (r: seq<string>)
  {
    WithKey(xs, KeyAt(now), Infinite)
  }

  /** The sorted list is the upcoming entries, soonest first, followed by
      the others in their original order: a time equal to now is not
      upcoming, and the stable sort keeps the others' order. */
  lemma {:induction false} UpcomingFirst(xs: seq<string>, now: nat)
    ensures var r := SortBy(xs, KeyAt(now));
      var u := |r| - |NotUpcoming(xs, now)|;
      0 <= u <= |r|
      && (forall i | 0 <= i < u :: Upcoming(now, r[i]))
      && (forall i, j | 0 <= i < j < u :: Clock.StrptimeHM(r[i]).value <= Clock.StrptimeHM(r[j]).value)
      && r[u..] == NotUpcoming(xs, now)
  {
    var r := SortBy(xs, KeyAt(now));
    SortBySorted(xs, KeyAt(now));
    InfiniteSuffix(r, KeyAt(now));
    var u := |r| - |WithKey(r, KeyAt(now), Infinite)|;
    forall i, j | 0 <= i < j < u
      ensures Clock.StrptimeHM(r[i]).value <= Clock.StrptimeHM(r[j]).value
    {
      assert KeyLessEq(KeyAt(now)(r[i]), KeyAt(now)(r[j]));
    }
  }

  /** So the answer is the up to three soonest upcoming times, topped up
      with non-upcoming times in list order when fewer than three are
      upcoming. */
  lemma {:induction false} NextThreeSpec(xs: seq<string>, now: nat)
    requires NextThree(xs, now).Some?
    ensures var r, rest := NextThree(xs, now).value, NotUpcoming(xs, now);
      var u := |xs| - |rest|;
      forall i | 0 <= i < |r| :: (i < u ==> Upcoming(now, r[i])) && (i >= u ==> r[i] == rest[i - u])
  {
    UpcomingFirst(xs, now);
    var sorted := SortBy(xs, KeyAt(now));
    var r := NextThree(xs, now).value;
    var u := |xs| - |NotUpcoming(xs, now)|;
    forall i | 0 <= i < |r|
      ensures (i < u ==> Upcoming(now, r[i])) && (i >= u ==> r[i] == NotUpcoming(xs, now)[i - u])
    {
      assert r[i] == sorted[i];
      if i >= u {
        assert sorted[u..][i - u] == sorted[i];
      }
    }
  }

  // ---------------------------------------------------------------------------
  // One answer

  /** The answer for a station at second `t`: platform 1 (towards
      Motijheel) and platform 2 (towards Uttara North). `started` says
      whether a `/start` has been handled in this process: the handler
      prints the global `user` that only `/start` binds, so before that it
      raises `NameError` and sends nothing. `None` then, and when the
      station or a direction is missing, or a time does not read. */
  function Reply(tt: Timetable.Table, started: bool, station: string, t: nat): (r: Option<(seq<string>, seq<string>)>)
    requires t < Clock.SecondsPerDay
    ensures !started ==> r.None?
    ensures r.Some? ==> station in tt && Timetable.Motijheel in tt[station] && Timetable.UttaraNorth in tt[station]
    ensures r.Some? ==> (Some(r.value.0) == NextThree(tt[station][Timetable.Motijheel], t / 60)
      && Some(r.value.1) == NextThree(tt[station][Timetable.UttaraNorth], t / 60))
    ensures (started && station in tt && Timetable.Motijheel in tt[station] && Timetable.UttaraNorth in tt[station]
      && NextThree(tt[station][Timetable.Motijheel], t / 60).Some?
      && NextThree(tt[station][Timetable.UttaraNorth], t / 60).Some?) ==> r.Some?
  {
    var now := NowMinute(t);
    if !started then None
    else if station !in tt || Timetable.UttaraNorth !in tt[station] || Timetable.Motijheel !in tt[station] then None
    else
      var two := NextThree(tt[station][Timetable.UttaraNorth], now);
      var one := NextThree(tt[station][Timetable.Motijheel], now);
      if two.None? || one.None? then None else Some((one.value, two.value))
  }
}

=== FILE: calendar.dfy ===
/** Which timetable file a viewer loads for a date (docs/script.js,
    docs/train_map.js, mrt-nextjs/src/app/page.tsx): the Friday file on
    Fridays, the Saturday file on Saturdays and public holidays, and the
    weekday file otherwise. Dates are proleptic Gregorian calendar dates;
    the day of the week is computed from them, with 0 for Sunday as
    JavaScript's `getDay()` counts. */
module Calendar {
  import opened Wrappers
  import opened Strings
  import Clock

  datatype Date = Date(year: nat, month: nat, day: nat)
  {
    predicate Valid()
    {
      year >= 1 && 1 <= month <= 12 && 1 <= day <= DaysIn(year, month)
    }
  }

  predicate Leap(y: nat)
  {
    y % 4 == 0 && (y % 100 != 0 || y % 400 == 0)
  }

  function DaysIn(y: nat, m: nat): (n: nat)
    requires 1 <= m <= 12
    ensures 28 <= n <= 31
  {
    if m == 2 then (if Leap(y) then 29 else 28)
    else if m == 4 || m == 6 || m == 9 || m == 11 then 30
    else 31
  }

  /** Days in the months of a common year before month `m`. */
  const CommonDaysBefore: seq<nat> := [0, 31, 59, 90, 120, 151, 181, 212, 243, 273, 304, 334]

  function DaysBeforeMonth(y: nat, m: nat): nat
    requires 1 <= m <= 12
  {
    CommonDaysBefore[m - 1] + (if m > 2 && Leap(y) then 1 else 0)
  }

  /** Days in the years before year `y`, from 1 January of year 1. */
  function DaysBeforeYear(y: nat): nat
    requires y >= 1
  {
    365 * (y - 1) + (y - 1) / 4 - (y - 1) / 100 + (y - 1) / 400
  }

  /** Days since 1 January of year 1, which was a Monday. */
  function DayNumber(d: Date): nat
    requires d.Valid()
  {
    DaysBeforeYear(d.year) + DaysBeforeMonth(d.year, d.month) + d.day - 1
  }

  /** `date.getDay()`: 0 for Sunday up to 6 for Saturday. */
  function DayOfWeek(d: Date): (w: nat)
    requires d.Valid()
    ensures w < 7
  {
    (DayNumber(d) + 1) % 7
  }

  /** The calendar day after `d`. */
  function NextDate(d: Date): (n: Date)
    requires d.Valid()
    ensures n.Valid()
  {
    if d.day < DaysIn(d.year, d.month) then Date(d.year, d.month, d.day + 1)
    else if d.month < 12 then Date(d.year, d.month + 1, 1)
    else Date(d.year + 1, 1, 1)
  }

  /** A year has 366 days when it is a leap year and 365 otherwise. */
  lemma {:induction false} YearLength(y: nat)
    requires y >= 1
    ensures DaysBeforeYear(y + 1) == DaysBeforeYear(y) + (if Leap(y) then 366 else 365)
  {
    MultipleStep4(y);
    MultipleStep100(y);
    MultipleStep400(y);
    DivisorChain(y);
    assert DaysBeforeYear(y + 1) - DaysBeforeYear(y)
        == 365 + (y / 4 - (y - 1) / 4) - (y / 100 - (y - 1) / 100) + (y / 400 - (y - 1) / 400);
  }

  /** A multiple of 400 is one of 100, and a multiple of 100 one of 4. */
  lemma {:induction false} DivisorChain(y: nat)
    ensures y % 400 == 0 ==> y % 100 == 0
    ensures y % 100 == 0 ==> y % 4 == 0
  {
    if y % 400 == 0 {
      assert y == 100 * (4 * (y / 400));
    }
    if y % 100 == 0 {
      assert y == 4 * (25 * (y / 100));
    }
  }

  /** Going from year `y - 1` to year `y` passes one more multiple of 4
      exactly when `y` is one; likewise for 100 and 400. */
  lemma {:induction false} MultipleStep4(y: nat)
    requires y >= 1
    ensures y / 4 - (y - 1) / 4 == (if y % 4 == 0 then 1 else 0)
  {
  }

  lemma {:induction false} MultipleStep100(y: nat)
    requires y >= 1
    ensures y / 100 - (y - 1) / 100 == (if y % 100 == 0 then 1 else 0)
  {
  }

  lemma {:induction false} MultipleStep400(y: nat)
    requires y >= 1
    ensures y / 400 - (y - 1) / 400 == (if y % 400 == 0 then 1 else 0)
  {
  }

  /** Each month starts where the one before it ends. */
  lemma {:induction false} MonthLength(y: nat, m: nat)
    requires 1 <= m < 12
    ensures DaysBeforeMonth(y, m + 1) == DaysBeforeMonth(y, m) + DaysIn(y, m)
  {
  }

  /** The days are numbered consecutively. */
  lemma {:induction false} NextDateNumber(d: Date)
    requires d.Valid()
    ensures DayNumber(NextDate(d)) == DayNumber(d) + 1
  {
    if d.day < DaysIn(d.year, d.month) {
    } else if d.month < 12 {
      MonthLength(d.year, d.month);
    } else {
      YearLength(d.year);
      assert DaysBeforeMonth(d.year, 12) + 31 == (if Leap(d.year) then 366 else 365);
    }
  }

  /** So the weekdays cycle: the day after a date falls on the next day of
      the week. */
  lemma {:induction false} NextDateWeekday(d: Date)
    requires d.Valid()
    ensures DayOfWeek(NextDate(d)) == (DayOfWeek(d) + 1) % 7
  {
    NextDateNumber(d);
    WeekStep(DayNumber(d) + 1);
  }

  lemma {:induction false} WeekStep(n: nat)
    ensures (n + 1) % 7 == (n % 7 + 1) % 7
  {
    var q, r := n / 7, n % 7;
    assert n + 1 == q * 7 + (r + 1);
    if r < 6 {
      assert (n + 1) % 7 == r + 1;
    } else {
      assert n + 1 == (q + 1) * 7;
    }
  }

  /** `${year}-${month}-${day}` with the month and day padded to two
      digits, as `isPublicHoliday` spells a date. */
  function FormattedDate(d: Date): (s: string)
    requires d.Valid()
    ensures |s| == |DecimalString(d.year)| + 6
  {
    DecimalString(d.year) + "-" + Clock.Pad2(d.month) + "-" + Clock.Pad2(d.day)
  }

  /** Different dates are spelled differently: the last six characters hold
      the month and the day, and what precedes them the year. */
  lemma {:induction false} FormattedDateInjective(a: Date, b: Date)
    requires a.Valid() && b.Valid() && FormattedDate(a) == FormattedDate(b)
    ensures a == b
  {
    var s := FormattedDate(a);
    var n := |s|;
    var ya, yb := DecimalString(a.year), DecimalString(b.year);
    assert |ya| == |yb|;
    assert s[..n - 6] == ya;
    assert FormattedDate(b)[..n - 6] == yb;
    assert s[n - 5..n - 3] == Clock.Pad2(a.month);
    assert FormattedDate(b)[n - 5..n - 3] == Clock.Pad2(b.month);
    assert s[n - 2..] == Clock.Pad2(a.day);
    assert FormattedDate(b)[n - 2..] == Clock.Pad2(b.day);
  }

  /** The date `isPublicHoliday` treats as a holiday whatever the holiday
      list says. */
  const FixedHoliday: Date := Date(2025, 4, 1)
  const FixedHolidayText: string := "2025-04-01"

  lemma {:induction false} FixedHolidaySpelling()
    ensures FixedHoliday.Valid()
    ensures FormattedDate(FixedHoliday) == FixedHolidayText
    ensures DayOfWeek(FixedHoliday) == 2
  {
    assert DecimalString(2025) == "2025" by {
      assert DecimalString(202) == "202" by {
        assert DecimalString(20) == "20";
      }
    }
  }

  /** Only 1 April 2025 is spelled "2025-04-01". */
  lemma {:induction false} OnlyFixedHolidaySpelling(d: Date)
    requires d.Valid() && FormattedDate(d) == FixedHolidayText
    ensures d == FixedHoliday
  {
    FixedHolidaySpelling();
    FormattedDateInjective(d, FixedHoliday);
  }

  /** `isPublicHoliday(date)`, with the holiday list it fetches (or finds
      in the local cache) as a parameter: `None` stands for every failure
      to obtain one, after which the function answers false. */
  function IsPublicHoliday(d: Date, holidays: Option<seq<string>>): (r: bool)
    requires d.Valid()
    ensures r ==> DayOfWeek(d) != 5
  {
    var f := FormattedDate(d);
    if f == FixedHolidayText then
      OnlyFixedHolidaySpelling(d);
      FixedHolidaySpelling();
      true
    else if holidays.None? then false
    else (f in holidays.value || f == FixedHolidayText) && DayOfWeek(d) != 5
  }

  /** A date is a holiday exactly when it is 1 April 2025, or when the list
      was obtained, names the date, and the date is not a Friday. */
  lemma {:induction false} IsPublicHolidaySpec(d: Date, holidays: Option<seq<string>>)
    requires d.Valid()
    ensures IsPublicHoliday(d, holidays)
      <==> (d == FixedHoliday
        || (holidays.Some? && FormattedDate(d) in holidays.value && DayOfWeek(d) != 5))
  {
    FixedHolidaySpelling();
    if FormattedDate(d) == FixedHolidayText {
      OnlyFixedHolidaySpelling(d);
    }
  }

  const WeekdayFile: string := "mrt-6.json"
  const FridayFile: string := "mrt-6-fri.json"
  const SaturdayFile: string := "mrt-6-sat.json"

  /** The file for a day of the week alone: the synchronous default of
      `getTrainTimesFile` in docs/script.js, and the whole rule in
      docs/train_map.js. */
  function DayFile(weekday: int): (f: string)
    ensures f == FridayFile <==> weekday == 5
    ensures f == SaturdayFile <==> weekday == 6
    ensures f == WeekdayFile <==> weekday != 5 && weekday != 6
  {
    if weekday == 5 then FridayFile
    else if weekday == 6 then SaturdayFile
    else WeekdayFile
  }

  /** `getTrainTimesFileAsync`: a holiday takes the Saturday file, any
      other day the file of its day of the week. */
  function ServiceFile(holiday: bool, weekday: int): (f: string)
    ensures holiday ==> f == SaturdayFile
    ensures !holiday ==> f == DayFile(weekday)
  {
    if holiday then SaturdayFile else DayFile(weekday)
  }

  /** The file docs/script.js settles on for a date: a Friday always keeps
      the Friday file, and the asynchronous answer replaces the synchronous
      default exactly on a holiday from Sunday to Thursday. */
  lemma {:induction false} ServiceFileOfDate(d: Date, holidays: Option<seq<string>>)
    requires d.Valid()
    ensures var f := ServiceFile(IsPublicHoliday(d, holidays), DayOfWeek(d));
      DayOfWeek(d) == 5 ==> f == FridayFile
    ensures var f := ServiceFile(IsPublicHoliday(d, holidays), DayOfWeek(d));
      f != DayFile(DayOfWeek(d)) <==> IsPublicHoliday(d, holidays) && DayOfWeek(d) < 5
  {
  }

  /** The Next.js page's file name: the day rule under `/data/`. */
  function PageFile(weekday: int): (f: string)
    ensures |f| > 6 && f[..6] == "/data/" && f[6..] == DayFile(weekday)
  {
    "/data/" + DayFile(weekday)
  }
}

=== FILE: clock.dfy ===
/** Clock times of day and their zero-padded text forms.

    The generator writes every time as `HH:MM:SS` (generate_timetable.py,
    `format_time`), while the browser formats "now" as `HH:MM` or `HH:MM:SS`
    with two-digit fields. The lemmas here say that for such padded text the
    string order is the numeric order, which is what lets the rest of the
    system compare times as strings. */
module Clock {
  import opened Wrappers
  import opened Strings
  import LexOrder

  const SecondsPerDay: nat := 86400
  const MinutesPerDay: nat := 1440

  /** `String(n).padStart(2, '0')` / `%02d` for `n < 100`. */
  function Pad2(n: nat): (s: string)
    requires n < 100
    ensures |s| == 2 && AllDigits(s) && DigitsValue(s) == n
  {
    var s := [DigitChar(n / 10), DigitChar(n % 10)];
    assert s[..1] == [DigitChar(n / 10)] && s[..1][..0] == [];
    assert DigitsValue(s[..1]) == n / 10;
    s
  }

  /** `strftime("%H:%M:%S")` of a second of the day. */
  function FormatHMS(t: nat): (s: string)
    requires t < SecondsPerDay
    ensures |s| == 8 && s[2] == ':' && s[5] == ':'
  {
    Pad2(t / 3600) + ":" + Pad2(t / 60 % 60) + ":" + Pad2(t % 60)
  }

  /** The second of the day `d` seconds after second `t`: adding a
      `timedelta` to a `datetime` and keeping only its time of day. */
  function After(t: nat, d: int): (r: nat)
    ensures r < SecondsPerDay
    ensures (t + d - r) % SecondsPerDay == 0
  {
    (t + d) % SecondsPerDay
  }

  /** A second of the day is its hours, minutes and seconds fields. */
  lemma {:induction false} SecondsOfFields(t: nat)
    ensures t == t / 3600 * 3600 + t / 60 % 60 * 60 + t % 60
  {
    assert t == t / 60 * 60 + t % 60;
    assert t / 60 == t / 60 / 60 * 60 + t / 60 % 60;
    assert t / 60 / 60 == t / 3600;
  }

  /** The `HH:MM` text of a minute of the day. */
  function FormatHM(m: nat): (s: string)
    requires m < MinutesPerDay
    ensures |s| == 5 && s[2] == ':'
  {
    Pad2(m / 60) + ":" + Pad2(m % 60)
  }

  // ---------------------------------------------------------------------------
  // String order agrees with time order

  /** Two padded fields compare like the numbers they show, whatever follows. */
  lemma {:induction false} Pad2Less(x: nat, y: nat, rx: string, ry: string)
    requires x < y < 100
    ensures LexOrder.Less(Pad2(x) + rx, Pad2(y) + ry)
  {
    var px := Pad2(x);
    var py := Pad2(y);
    if x / 10 < y / 10 {
      assert px + rx == [] + [px[0]] + ([px[1]] + rx);
      assert py + ry == [] + [py[0]] + ([py[1]] + ry);
      LexOrder.FirstDifference([], px[0], py[0], [px[1]] + rx, [py[1]] + ry);
    } else {
      assert px + rx == [px[0]] + [px[1]] + rx;
      assert py + ry == [px[0]] + [py[1]] + ry;
      LexOrder.FirstDifference([px[0]], px[1], py[1], rx, ry);
    }
  }

  lemma {:induction false} FormatHMSLess(a: nat, b: nat)
    requires a < b < SecondsPerDay
    ensures LexOrder.Less(FormatHMS(a), FormatHMS(b))
  {
    if a / 60 < b / 60 {
      HMSAsHM(a);
      HMSAsHM(b);
      FormatHMLess(a / 60, b / 60, ":" + Pad2(a % 60), ":" + Pad2(b % 60));
    } else {
      SameMinuteLess(a, b);
    }
  }

  /** `FormatHMS(t)` is the minute's text followed by the seconds field. */
  lemma {:induction false} HMSAsHM(t: nat)
    requires t < SecondsPerDay
    ensures FormatHMS(t) == FormatHM(t / 60) + (":" + Pad2(t % 60))
  {
    HMSExtendsHM(t);
  }

  /** Within one minute the seconds field decides. */
  lemma {:induction false} SameMinuteLess(a: nat, b: nat)
    requires a < b < SecondsPerDay && a / 60 == b / 60
    ensures LexOrder.Less(FormatHMS(a), FormatHMS(b))
  {
    HMSExtendsHM(a);
    HMSExtendsHM(b);
    var p := FormatHM(a / 60) + ":";
    assert a % 60 < b % 60;
    assert FormatHMS(a) == p + Pad2(a % 60);
    assert FormatHMS(b) == p + Pad2(b % 60);
    LexOrder.CommonPrefix(p, Pad2(a % 60), Pad2(b % 60));
    Pad2Less(a % 60, b % 60, [], []);
    assert Pad2(a % 60) + [] == Pad2(a % 60) && Pad2(b % 60) + [] == Pad2(b % 60);
  }

  /** Comparing two `HH:MM:SS` strings is comparing the times they show. */
  lemma {:induction false} FormatHMSOrder(a: nat, b: nat)
    requires a < SecondsPerDay && b < SecondsPerDay
    ensures LexOrder.Less(FormatHMS(a), FormatHMS(b)) <==> a < b
  {
    if a < b {
      FormatHMSLess(a, b);
    } else if a == b {
      LexOrder.Irreflexive(FormatHMS(a));
    } else {
      FormatHMSLess(b, a);
      LexOrder.Asymmetric(FormatHMS(b), FormatHMS(a));
    }
  }

  lemma {:induction false} FormatHMLess(a: nat, b: nat, ra: string, rb: string)
    requires a < b < MinutesPerDay
    ensures LexOrder.Less(FormatHM(a) + ra, FormatHM(b) + rb)
  {
    if a / 60 < b / 60 {
      EarlierHour(a, b, ra, rb);
    } else {
      SameHourLess(a, b, ra, rb);
    }
  }

  lemma {:induction false} EarlierHour(a: nat, b: nat, ra: string, rb: string)
    requires a < b < MinutesPerDay && a / 60 < b / 60
    ensures LexOrder.Less(FormatHM(a) + ra, FormatHM(b) + rb)
  {
    Pad2Less(a / 60, b / 60, ":" + Pad2(a % 60) + ra, ":" + Pad2(b % 60) + rb);
    assert FormatHM(a) + ra == Pad2(a / 60) + (":" + Pad2(a % 60) + ra);
    assert FormatHM(b) + rb == Pad2(b / 60) + (":" + Pad2(b % 60) + rb);
  }

  lemma {:induction false} SameHourLess(a: nat, b: nat, ra: string, rb: string)
    requires a < b < MinutesPerDay && a / 60 == b / 60
    ensures LexOrder.Less(FormatHM(a) + ra, FormatHM(b) + rb)
  {
    var p := Pad2(a / 60) + ":";
    assert a % 60 < b % 60;
    assert FormatHM(a) + ra == p + (Pad2(a % 60) + ra);
    assert FormatHM(b) + rb == p + (Pad2(b % 60) + rb);
    LexOrder.CommonPrefix(p, Pad2(a % 60) + ra, Pad2(b % 60) + rb);
    Pad2Less(a % 60, b % 60, ra, rb);
  }

  /** Comparing two `HH:MM` strings is comparing the minutes they show. */
  lemma {:induction false} FormatHMOrder(a: nat, b: nat)
    requires a < MinutesPerDay && b < MinutesPerDay
    ensures LexOrder.Less(FormatHM(a), FormatHM(b)) <==> a < b
  {
    if a < b {
      FormatHMLess(a, b, [], []);
      assert FormatHM(a) + [] == FormatHM(a) && FormatHM(b) + [] == FormatHM(b);
    } else if a == b {
      LexOrder.Irreflexive(FormatHM(a));
    } else {
      FormatHMLess(b, a, [], []);
      assert FormatHM(a) + [] == FormatHM(a) && FormatHM(b) + [] == FormatHM(b);
      LexOrder.Asymmetric(FormatHM(b), FormatHM(a));
    }
  }

  /** The `HH:MM:SS` text of a time begins with the `HH:MM` text of its minute. */
  lemma {:induction false} HMSExtendsHM(t: nat)
    requires t < SecondsPerDay
    ensures FormatHMS(t) == FormatHM(t / 60) + ":" + Pad2(t % 60)
  {
    assert t / 60 / 60 == t / 3600;
  }

  /** An `HH:MM:SS` string is before an `HH:MM` string exactly when its minute
      is earlier: the seconds never matter, and a time within the minute of
      `now` is never before it. */
  lemma {:induction false} SecondsVersusMinute(t: nat, m: nat)
    requires t < SecondsPerDay && m < MinutesPerDay
    ensures LexOrder.Less(FormatHMS(t), FormatHM(m)) <==> t / 60 < m
    ensures FormatHMS(t) != FormatHM(m)
  {
    var tail := ":" + Pad2(t % 60);
    HMSExtendsHM(t);
    assert FormatHMS(t) == FormatHM(t / 60) + tail;
    assert FormatHM(m) == FormatHM(m) + [];
    if t / 60 < m {
      FormatHMLess(t / 60, m, tail, []);
    } else if t / 60 == m {
      LexOrder.ProperPrefix(FormatHM(m), tail);
      LexOrder.Asymmetric(FormatHM(m), FormatHMS(t));
    } else {
      FormatHMLess(m, t / 60, [], tail);
      LexOrder.Asymmetric(FormatHM(m), FormatHMS(t));
    }
  }

  // ---------------------------------------------------------------------------
  // Reading times back: Python's strptime with %H, %M and %S

  /** One strptime numeric field: one or two ASCII digits, at most `max`. */
  function Field(s: string, max: nat): (r: Option<nat>)
    ensures r.Some? ==> r.value <= max
  {
    if 1 <= |s| <= 2 && AllDigits(s) && DigitsValue(s) <= max then Some(DigitsValue(s)) else None
  }

  /** `datetime.strptime(s, "%H:%M:%S")` as a second of the day; a seconds
      field of 60 or 61 passes the pattern but `datetime` refuses it. */
  function StrptimeHMS(s: string): (r: Option<nat>)
    ensures r.Some? ==> r.value < SecondsPerDay
  {
    var parts := Split(s, ':');
    if |parts| != 3 then None
    else match (Field(parts[0], 23), Field(parts[1], 59), Field(parts[2], 59))
      case (Some(h), Some(m), Some(sec)) => Some(h * 3600 + m * 60 + sec)
      case _ => None
  }

  /** `datetime.strptime(s, "%H:%M")` as a minute of the day. */
  function StrptimeHM(s: string): (r: Option<nat>)
    ensures r.Some? ==> r.value < MinutesPerDay
  {
    var parts := Split(s, ':');
    if |parts| != 2 then None
    else match (Field(parts[0], 23), Field(parts[1], 59))
      case (Some(h), Some(m)) => Some(h * 60 + m)
      case _ => None
  }

  /** The `%p` field: `AM` or `PM` in either case; `Some(true)` for PM. */
  function Meridiem(m: string): (pm: Option<bool>)
    ensures pm.Some? ==> |m| == 2 && LowerChar(m[1]) == 'm'
    ensures pm == Some(false) ==> LowerChar(m[0]) == 'a'
    ensures pm == Some(true) ==> LowerChar(m[0]) == 'p'
  {
    if |m| != 2 || LowerChar(m[1]) != 'm' then None
    else if LowerChar(m[0]) == 'a' then Some(false)
    else if LowerChar(m[0]) == 'p' then Some(true)
    else None
  }

  /** `datetime.strptime(s, "%I:%M %p")` as a minute of the day: an hour from
      1 to 12, a colon, a minute, at least one white-space character (the
      format's space matches any run of it), then the meridiem; 12 AM is
      midnight's hour and 12 PM noon's. */
  function StrptimeIMp(s: string): (r: Option<nat>)
    ensures r.Some? ==> r.value < MinutesPerDay
  {
    var parts := Split(s, ':');
    if |parts| != 2 || |parts[1]| < 2 then None
    else
      var rest := parts[1];
      var body := rest[..|rest| - 2];
      var e := SkipSpaceBack(body, 0, |body|);
      if e == |body| then None
      else match (Field(parts[0], 12), Field(body[..e], 59), Meridiem(rest[|rest| - 2..]))
        case (Some(h), Some(m), Some(pm)) =>
          if h == 0 then None else Some((h % 12 + (if pm then 12 else 0)) * 60 + m)
        case _ => None
  }

  /** The 24-hour branches of `parse_time`: `%H:%M:%S` first, then `%H:%M`. */
  function ParseClock(s: string): (r: Option<nat>)
    ensures r.Some? ==> r.value < SecondsPerDay
  {
    match StrptimeHMS(s)
    case Some(t) => Some(t)
    case None =>
      match StrptimeHM(s)
      case Some(m) => Some(m * 60)
      case None => None
  }

  lemma {:induction false} SplitHMS(t: nat)
    requires t < SecondsPerDay
    ensures Split(FormatHMS(t), ':') == [Pad2(t / 3600), Pad2(t / 60 % 60), Pad2(t % 60)]
  {
    var parts := [Pad2(t / 3600), Pad2(t / 60 % 60), Pad2(t % 60)];
    assert Join(parts, ':') == FormatHMS(t) by {
      assert Join(parts[2..], ':') == Pad2(t % 60);
      assert parts[1..][1..] == parts[2..];
    }
    SplitJoin(parts, ':');
  }

  lemma {:induction false} SplitHM(m: nat)
    requires m < MinutesPerDay
    ensures Split(FormatHM(m), ':') == [Pad2(m / 60), Pad2(m % 60)]
  {
    var parts := [Pad2(m / 60), Pad2(m % 60)];
    assert Join(parts, ':') == FormatHM(m) by {
      assert parts[1..] == [Pad2(m % 60)];
    }
    SplitJoin(parts, ':');
  }

  /** Reading back what the generator wrote gives the same time. */
  lemma {:induction false} ParseFormatHMS(t: nat)
    requires t < SecondsPerDay
    ensures ParseClock(FormatHMS(t)) == Some(t)
  {
    SplitHMS(t);
    SecondsOfFields(t);
    ReadHMSFields(FormatHMS(t), t / 3600, t / 60 % 60, t % 60, t);
  }

  /** Three padded in-range fields read as the second they name. */
  lemma {:induction false} ReadHMSFields(s: string, h: nat, m: nat, sec: nat, z: nat)
    requires h < 24 && m < 60 && sec < 60 && z == h * 3600 + m * 60 + sec
    requires Split(s, ':') == [Pad2(h), Pad2(m), Pad2(sec)]
    ensures StrptimeHMS(s) == Some(z) && ParseClock(s) == Some(z)
  {
    PadField(h, 23);
    PadField(m, 59);
    PadField(sec, 59);
  }

  /** A padded number reads back as itself in a field that allows it. */
  lemma {:induction false} PadField(x: nat, max: nat)
    requires x <= max && x < 100
    ensures Field(Pad2(x), max) == Some(x)
  {
  }

  /** An `HH:MM` string reads back as the start of its minute. */
  lemma {:induction false} ParseFormatHM(m: nat)
    requires m < MinutesPerDay
    ensures StrptimeHM(FormatHM(m)) == Some(m)
    ensures ParseClock(FormatHM(m)) == Some(m * 60)
  {
    SplitHM(m);
  }

  /** Text in the generator's own spelling: `HH:MM:SS` of the second it reads as. */
  predicate ClockText(s: string)
  {
    ParseClock(s).Some? && FormatHMS(ParseClock(s).value) == s
  }

  /** Everything the generator writes is in its own spelling. */
  lemma {:induction false} FormatIsClockText(t: nat)
    requires t < SecondsPerDay
    ensures ClockText(FormatHMS(t)) && ParseClock(FormatHMS(t)) == Some(t)
  {
    ParseFormatHMS(t);
  }

  /** `"h:MM AM"` and `"h:MM PM"` are refused by both 24-hour formats and read
      by the 12-hour one, with 12 AM as hour 0 and 12 PM as hour 12. */
  lemma {:induction false} ParseTwelveHour(hour: string, m: nat, marker: string)
    requires Field(hour, 12).Some? && Field(hour, 12).value >= 1 && m < 60 && Meridiem(marker).Some?
    ensures var s := hour + ":" + Pad2(m) + " " + marker;
      ParseClock(s).None? &&
      StrptimeIMp(s) == Some((Field(hour, 12).value % 12 + (if Meridiem(marker).value then 12 else 0)) * 60 + m)
  {
    TwelveHourSplit(hour, m, marker);
    TwelveHourRest(m, marker);
    ReadTwelveHourParts(hour + ":" + Pad2(m) + " " + marker, hour, Pad2(m) + " " + marker, m, marker);
  }

  lemma {:induction false} TwelveHourSplit(hour: string, m: nat, marker: string)
    requires Field(hour, 12).Some? && m < 60 && Meridiem(marker).Some?
    ensures Split(hour + ":" + Pad2(m) + " " + marker, ':') == [hour, Pad2(m) + " " + marker]
  {
    var rest := Pad2(m) + " " + marker;
    var s := hour + ":" + rest;
    assert ':' !in hour by { assert AllDigits(hour); }
    assert ':' !in rest by {
      assert LowerChar(marker[0]) != ':' && LowerChar(marker[1]) != ':';
      assert rest == [Pad2(m)[0], Pad2(m)[1], ' ', marker[0], marker[1]];
    }
    SplitAt(hour, ':', rest);
    assert s == hour + [':'] + rest;
    assert hour + ":" + Pad2(m) + " " + marker == s;
  }

  /** The part after the colon: a padded minute, one space and the meridiem. */
  lemma {:induction false} TwelveHourRest(m: nat, marker: string)
    requires m < 60 && Meridiem(marker).Some?
    ensures var rest := Pad2(m) + " " + marker;
      |rest| == 5 && rest[3..] == marker
      && SkipSpaceBack(rest[..3], 0, 3) == 2 && Field(rest[..3][..2], 59) == Some(m)
  {
    var rest := Pad2(m) + " " + marker;
    var body := rest[..3];
    assert body == Pad2(m) + " ";
    assert SkipSpaceBack(body, 0, 3) == 2 by {
      assert IsSpace(body[2]) && !IsSpace(body[1]);
      assert SkipSpaceBack(body, 0, 2) == 2;
    }
    assert body[..2] == Pad2(m);
  }

  lemma {:induction false} ReadTwelveHourParts(s: string, hour: string, rest: string, m: nat, marker: string)
    requires Field(hour, 12).Some? && Field(hour, 12).value >= 1 && m < 60 && Meridiem(marker).Some?
    requires Split(s, ':') == [hour, rest]
    requires |rest| == 5 && rest[3..] == marker
    requires SkipSpaceBack(rest[..3], 0, 3) == 2 && Field(rest[..3][..2], 59) == Some(m)
    ensures ParseClock(s).None?
    ensures StrptimeIMp(s) == Some((Field(hour, 12).value % 12 + (if Meridiem(marker).value then 12 else 0)) * 60 + m)
  {
    assert Field(rest, 59).None?;
  }

  /** Every time `ParseClock` accepts has a canonical spelling it also
      accepts: parsing is onto the whole day and the format is its inverse. */
  lemma {:induction false} FormatParseHMS(s: string)
    requires StrptimeHMS(s).Some?
    ensures FormatHMS(StrptimeHMS(s).value) == s <==> (|s| == 8)
  {
    var parts := Split(s, ':');
    HMSTextOfFields(s);
    if |s| == 8 {
      assert |parts[0]| == 2 && |parts[1]| == 2 && |parts[2]| == 2;
      Pad2Unique(parts[0]);
      Pad2Unique(parts[1]);
      Pad2Unique(parts[2]);
    }
  }

  /** Text `strptime("%H:%M:%S")` accepts is its three fields around two
      colons, and the second it reads as has those fields' values. */
  lemma {:induction false} HMSTextOfFields(s: string)
    requires StrptimeHMS(s).Some?
    ensures var parts, t := Split(s, ':'), StrptimeHMS(s).value;
      |parts| == 3 && s == parts[0] + ":" + parts[1] + ":" + parts[2]
      && t / 3600 == DigitsValue(parts[0]) && t / 60 % 60 == DigitsValue(parts[1]) && t % 60 == DigitsValue(parts[2])
  {
    var parts := Split(s, ':');
    var h, m, sec := Field(parts[0], 23).value, Field(parts[1], 59).value, Field(parts[2], 59).value;
    FieldsOfSeconds(h, m, sec, StrptimeHMS(s).value);
    JoinSplit(s, ':');
    JoinThree(parts, ':');
  }

  lemma {:induction false} FieldsOfSeconds(h: nat, m: nat, sec: nat, t: nat)
    requires m < 60 && sec < 60 && t == h * 3600 + m * 60 + sec
    ensures t / 3600 == h && t / 60 % 60 == m && t % 60 == sec
  {
    assert t == (h * 60 + m) * 60 + sec;
    assert t / 60 == h * 60 + m;
  }

  lemma {:induction false} JoinThree(parts: seq<string>, sep: char)
    requires |parts| == 3
    ensures Join(parts, sep) == parts[0] + [sep] + parts[1] + [sep] + parts[2]
  {
    assert parts[1..][1..] == parts[2..];
    assert Join(parts[2..], sep) == parts[2];
    assert Join(parts[1..], sep) == parts[1] + [sep] + parts[2];
  }

  /** A two-digit string is the padded form of its value. */
  lemma {:induction false} Pad2Unique(s: string)
    requires |s| == 2 && AllDigits(s)
    ensures DigitsValue(s) < 100 && Pad2(DigitsValue(s)) == s
  {
    assert s[..1] == [s[0]] && s[..1][..0] == [];
    assert DigitsValue(s[..1]) == DigitValue(s[0]);
    var v := DigitsValue(s);
    assert v == DigitValue(s[0]) * 10 + DigitValue(s[1]);
    assert v / 10 == DigitValue(s[0]) && v % 10 == DigitValue(s[1]);
    assert DigitChar(DigitValue(s[0])) == s[0];
    assert DigitChar(DigitValue(s[1])) == s[1];
  }
}

=== FILE: custom_clock.dfy ===
/** The clock override of the viewers. In docs/script.js an administrator
    can set a custom time of day, which the one-second tick then advances
    by 1000 ms, can pause the tick (freezing the clock) and can reset to
    the system clock. The Next.js page (mrt-nextjs/src/app/page.tsx) keeps
    an offset from the system clock instead. Instants are milliseconds of
    local time; the system clock's reading is a parameter. */
module CustomClock {
  import opened Wrappers
  import opened Strings
  import Clock

  const MsPerDay: int := 86_400_000

  // ---------------------------------------------------------------------------
  // Reading the entered text

  /** The end of the run of decimal digits starting at `i`. */
  function DigitRun(s: string, i: nat): (j: nat)
    requires i <= |s|
    ensures i <= j <= |s| && AllDigits(s[i..j])
    ensures j < |s| ==> !IsDigit(s[j])
    decreases |s| - i
  {
    if i < |s| && IsDigit(s[i]) then
      var j := DigitRun(s, i + 1);
      assert s[i..j] == [s[i]] + s[i + 1..j];
      j
    else i
  }

  /** JavaScript's `parseInt(s)` in base 10: leading white space, an
      optional sign, then the longest run of digits; `None` is `NaN`, when
      there is no digit. */
  function ParseInt(s: string): (r: Option<int>)
    ensures (forall i | 0 <= i < |s| :: !IsDigit(s[i])) ==> r.None?
    ensures r.Some? && r.value < 0 ==> '-' in s
  {
    var i := SkipSpaceFrom(s, 0);
    var neg := i < |s| && s[i] == '-';
    var k := if i < |s| && (s[i] == '-' || s[i] == '+') then i + 1 else i;
    var j := DigitRun(s, k);
    if j == k then None
    else
      var v: int := DigitsValue(s[k..j]);
      Some(if neg then -v else v)
  }

  /** A digit string followed by anything that is not a digit reads as its
      value: `parseInt` stops at the first non-digit. */
  lemma {:induction false} ParseIntOfDigits(d: string, rest: string)
    requires |d| > 0 && AllDigits(d)
    requires |rest| == 0 || !IsDigit(rest[0])
    ensures ParseInt(d + rest) == Some(DigitsValue(d))
  {
    var s := d + rest;
    assert !IsSpace(s[0]) && s[0] != '-' && s[0] != '+';
    assert SkipSpaceFrom(s, 0) == 0;
    DigitRunOf(s, 0, |d|);
    assert s[..|d|] == d;
  }

  lemma {:induction false} DigitRunOf(s: string, i: nat, n: nat)
    requires i <= n <= |s| && AllDigits(s[i..n]) && (n == |s| || !IsDigit(s[n]))
    ensures DigitRun(s, i) == n
    decreases n - i
  {
    if i < n {
      assert IsDigit(s[i..n][0]);
      assert s[i + 1..n] == s[i..n][1..];
      DigitRunOf(s, i + 1, n);
    }
  }

  /** `parseInt(part) || 0`, with a missing part (`undefined`) read as 0. */
  function FieldOr0(parts: seq<string>, i: nat): (v: int)
    ensures i >= |parts| ==> v == 0
  {
    if i >= |parts| then 0
    else match ParseInt(parts[i])
      case None => 0
      case Some(n) => n
  }

  /** `date.setHours(h, m, s)`: the same day and millisecond, with the hour,
      minute and second replaced; values outside their ranges carry into
      the neighbouring days as JavaScript's `Date` does. */
  function SetHours(now: int, h: int, m: int, s: int): (r: int)
    ensures r % 1000 == now % 1000
  {
    now - now % MsPerDay + h * 3_600_000 + m * 60_000 + s * 1000 + now % 1000
  }

  /** Within range, `setHours` keeps the day and the milliseconds and sets
      the time of day. */
  lemma {:induction false} SetHoursInRange(now: int, h: int, m: int, s: int)
    requires 0 <= h < 24 && 0 <= m < 60 && 0 <= s < 60
    ensures SetHours(now, h, m, s) / MsPerDay == now / MsPerDay
    ensures SetHours(now, h, m, s) % MsPerDay == h * 3_600_000 + m * 60_000 + s * 1000 + now % 1000
  {
    var tod := h * 3_600_000 + m * 60_000 + s * 1000 + now % 1000;
    assert 0 <= tod < MsPerDay;
    var q := now / MsPerDay;
    assert now - now % MsPerDay == q * MsPerDay;
    assert SetHours(now, h, m, s) == q * MsPerDay + tod;
  }

  // ---------------------------------------------------------------------------
  // The override of docs/script.js

  /** `customTime` (`None` for `null`) and `isPaused`. */
  datatype State = State(custom: Option<int>, paused: bool)

  /** `getCurrentTime()`: the custom time when one is set, the system clock
      otherwise. */
  function CurrentTime(st: State, system: int): (t: int)
    ensures st.custom.Some? ==> t == st.custom.value
    ensures st.custom.None? ==> t == system
  {
    if st.custom.Some? then st.custom.value else system
  }

  /** What one call of `updateClock` shows (`None` while paused, when it
      returns at once) and the state it leaves. */
  datatype Tick = Tick(shown: Option<int>, next: State)

  /** `updateClock()`: shows the current time and, when a custom time is
      set, moves it one second on. */
  function UpdateClock(st: State, system: int): (k: Tick)
    ensures st.paused ==> k.shown.None? && k.next == st
    ensures !st.paused ==> k.shown == Some(CurrentTime(st, system)) && !k.next.paused
    ensures !st.paused && st.custom.Some? ==> k.next.custom == Some(st.custom.value + 1000)
    ensures st.custom.None? ==> k.next == st
  {
    if st.paused then Tick(None, st)
    else if st.custom.Some? then
      var now := st.custom.value;
      Tick(Some(now), st.(custom := Some(now + 1000)))
    else Tick(Some(system), st)
  }

  /** The set-time button: text without a colon is refused (an alert) and
      changes nothing; otherwise each of the first three colon-separated
      fields is read with `parseInt(...) || 0` and put into today's date. */
  function SetCustomTime(st: State, text: string, system: int): (r: State)
    ensures ':' !in text ==> r == st
    ensures r.paused == st.paused
    ensures ':' in text ==> r.custom.Some?
  {
    if ':' !in text then st
    else
      var parts := Split(text, ':');
      st.(custom := Some(SetHours(system, FieldOr0(parts, 0), FieldOr0(parts, 1), FieldOr0(parts, 2))))
  }

  /** Entering a padded `HH:MM:SS` time sets the custom clock to that second
      of today, keeping the system clock's milliseconds. */
  lemma {:induction false} SetClockText(st: State, t: nat, system: int)
    requires t < Clock.SecondsPerDay
    ensures var r := SetCustomTime(st, Clock.FormatHMS(t), system);
      r.custom.Some? && r.custom.value / MsPerDay == system / MsPerDay
      && r.custom.value % MsPerDay == t * 1000 + system % 1000
  {
    var text := Clock.FormatHMS(t);
    assert text[2] == ':';
    Clock.SplitHMS(t);
    var parts := Split(text, ':');
    PadReads(t / 3600);
    PadReads(t / 60 % 60);
    PadReads(t % 60);
    Clock.SecondsOfFields(t);
    SetHoursInRange(system, t / 3600, t / 60 % 60, t % 60);
  }

  /** Entering a padded `HH:MM` time sets the start of that minute. */
  lemma {:induction false} SetMinuteText(st: State, m: nat, system: int)
    requires m < Clock.MinutesPerDay
    ensures var r := SetCustomTime(st, Clock.FormatHM(m), system);
      r.custom.Some? && r.custom.value / MsPerDay == system / MsPerDay
      && r.custom.value % MsPerDay == m * 60_000 + system % 1000
  {
    var text := Clock.FormatHM(m);
    assert text[2] == ':';
    Clock.SplitHM(m);
    PadReads(m / 60);
    PadReads(m % 60);
    SetHoursInRange(system, m / 60, m % 60, 0);
  }

  lemma {:induction false} PadReads(n: nat)
    requires n < 100
    ensures ParseInt(Clock.Pad2(n)) == Some(n)
  {
    ParseIntOfDigits(Clock.Pad2(n), []);
    assert Clock.Pad2(n) + [] == Clock.Pad2(n);
  }

  /** The reset button: back to the system clock. */
  function ResetTime(st: State): (r: State)
    ensures r.custom.None? && r.paused == st.paused
    ensures forall system :: CurrentTime(r, system) == system
  {
    st.(custom := None)
  }

  /** The pause button: toggles the pause, and on resuming updates the clock
      at once. */
  function TogglePause(st: State, system: int): (r: State)
    ensures r.paused == !st.paused
    ensures !st.paused ==> r == st.(paused := true)
  {
    var flipped := st.(paused := !st.paused);
    if flipped.paused then flipped else UpdateClock(flipped, system).next
  }

  /** Pausing and resuming costs the custom clock exactly the one second of
      the update on resuming. */
  lemma {:induction false} PauseResume(st: State, system: int)
    requires !st.paused && st.custom.Some?
    ensures TogglePause(TogglePause(st, system), system) == st.(custom := Some(st.custom.value + 1000))
  {
  }

  /** `updateClock` driven by the interval, once per system reading in
      `systemTimes`; returns what each tick showed and the final state. */
  method RunClock(st: State, systemTimes: seq<int>) returns (shown: seq<Option<int>>, last: State)
    ensures |shown| == |systemTimes|
    ensures st.paused ==> last == st && forall i | 0 <= i < |shown| :: shown[i].None?
    ensures !st.paused && st.custom.Some? ==>
      last == st.(custom := Some(st.custom.value + 1000 * |systemTimes|))
      && forall i | 0 <= i < |shown| :: shown[i] == Some(st.custom.value + 1000 * i)
    ensures !st.paused && st.custom.None? ==>
      last == st && forall i | 0 <= i < |shown| :: shown[i] == Some(systemTimes[i])
  {
    shown := [];
    last := st;
    var i := 0;
    while i < |systemTimes|
      invariant 0 <= i <= |systemTimes| && |shown| == i
      invariant st.paused ==> last == st && forall j | 0 <= j < i :: shown[j].None?
      invariant !st.paused && st.custom.Some? ==>
        last == st.(custom := Some(st.custom.value + 1000 * i))
        && forall j | 0 <= j < i :: shown[j] == Some(st.custom.value + 1000 * j)
      invariant !st.paused && st.custom.None? ==>
        last == st && forall j | 0 <= j < i :: shown[j] == Some(systemTimes[j])
    {
      var k := UpdateClock(last, systemTimes[i]);
      shown := shown + [k.shown];
      last := k.next;
      i := i + 1;
    }
  }

  // ---------------------------------------------------------------------------
  // The offset clock of the Next.js page

  /** `handleTimeChange(newTime)` at system time `now`: the offset from the
      system clock, or none for `null`. */
  function HandleTimeChange(newTime: Option<int>, now: int): (offset: Option<int>)
    ensures newTime.None? <==> offset.None?
  {
    if newTime.None? then None else Some(newTime.value - now)
  }

  /** The tick's `currentTime`: the system clock moved by the offset. */
  function OffsetTime(offset: Option<int>, system: int): int
  {
    if offset.Some? then system + offset.value else system
  }

  /** A custom time set at `now` reads as itself then and advances with the
      system clock afterwards; clearing it returns to the system clock. */
  lemma {:induction false} OffsetAdvances(newTime: Option<int>, now: int, later: int)
    ensures newTime.Some? ==> OffsetTime(HandleTimeChange(newTime, now), later) == newTime.value + (later - now)
    ensures newTime.None? ==> OffsetTime(HandleTimeChange(newTime, now), later) == later
  {
  }
}

=== FILE: delays.dfy ===
/** The delay rules of the web viewer (docs/delay-handler.js): on working
    days, trains towards Uttara North run late in the afternoon peak and
    trains towards Motijheel in the morning peak, by a number of minutes
    that depends on the station. The day of the week (`getDay()`, 0 for
    Sunday) is a parameter rather than the clock's. */
module Delays {
  import opened Strings
  import Clock
  import JsNumber
  import Timetable

  /** The afternoon window of `applyDelays` and `isDelayTime`, in minutes
      of the day: 15:30 to 18:20, both ends included. */
  const AfternoonStart: int := 15 * 60 + 30
  const AfternoonEnd: int := 18 * 60 + 20

  /** The morning window of `isWithinMorningPeakHours`: 08:30 to 10:30. */
  const MorningStart: int := 8 * 60 + 30
  const MorningEnd: int := 10 * 60 + 30

  /** `isDelayApplicable`: every day but Friday (5) and Saturday (6). */
  function DelayApplicable(day: int): (b: bool)
    ensures 0 <= day < 7 ==> (b <==> day <= 4)
  {
    day != 5 && day != 6
  }

  /** `lo <= hours * 60 + minutes <= hi` with JavaScript's comparisons, so a
      time whose fields read as `NaN` lies in no window. */
  predicate InWindow(time: string, lo: int, hi: int)
  {
    var m := JsNumber.TimeToMinutes(time);
    JsNumber.Le(JsNumber.Fin(lo as real), m) && JsNumber.Le(m, JsNumber.Fin(hi as real))
  }

  /** `isDelayTime`, and the window test inside `applyDelays`. */
  function IsDelayTime(time: string): (b: bool)
    ensures b ==> JsNumber.TimeToMinutes(time).Fin?
    ensures b ==> AfternoonStart as real <= JsNumber.TimeToMinutes(time).v <= AfternoonEnd as real
  {
    InWindow(time, AfternoonStart, AfternoonEnd)
  }

  /** `isWithinMorningPeakHours`. */
  function IsWithinMorningPeakHours(time: string): (b: bool)
    ensures b ==> JsNumber.TimeToMinutes(time).Fin?
    ensures b ==> MorningStart as real <= JsNumber.TimeToMinutes(time).v <= MorningEnd as real
  {
    InWindow(time, MorningStart, MorningEnd)
  }

  /** For a time in the generator's `HH:MM:SS` spelling, the windows are
      the stated minutes, both ends included; the seconds do not count. */
  lemma {:induction false} WindowsOfClockText(t: nat)
    requires t < Clock.SecondsPerDay
    ensures IsDelayTime(Clock.FormatHMS(t)) <==> AfternoonStart <= t / 60 <= AfternoonEnd
    ensures IsWithinMorningPeakHours(Clock.FormatHMS(t)) <==> MorningStart <= t / 60 <= MorningEnd
  {
    JsNumber.MinutesOfHMS(t);
  }

  /** The same windows for `HH:MM` text. */
  lemma {:induction false} WindowsOfMinuteText(m: nat)
    requires m < Clock.MinutesPerDay
    ensures IsDelayTime(Clock.FormatHM(m)) <==> AfternoonStart <= m <= AfternoonEnd
    ensures IsWithinMorningPeakHours(Clock.FormatHM(m)) <==> MorningStart <= m <= MorningEnd
  {
    JsNumber.MinutesOfHM(m);
  }

  /** The three station groups of `applyDelays`. */
  const OneMinuteLate: seq<string> := ["Dhaka University", "Shahbag"]
  const TwoMinutesLate: seq<string> := ["Karwan Bazar", "Farmgate", "Bijoy Sarani"]
  const ThreeMinutesLate: seq<string> := [
    "Agargoan", "Sewrapara", "Kazipara", "Mirpur 10", "Mirpur 11", "Pallabi",
    "Uttara South", "Uttara Center", "Uttara North"
  ]

  /** `applyDelays(time, station)` on day `day`: the afternoon delay of a
      station, in minutes. */
  function ApplyDelays(day: int, time: string, station: string): (r: nat)
    ensures r <= 3
    ensures r > 0 ==> DelayApplicable(day) && IsDelayTime(time)
    ensures station == Timetable.Motijheel || station == "Bangladesh Secretariat" ==> r == 0
  {
    if !DelayApplicable(day) then 0
    else if IsDelayTime(time) then GroupDelay(station)
    else 0
  }

  /** The delay of the first of the three groups that lists the station. */
  function GroupDelay(station: string): (r: nat)
    ensures r <= 3
  {
    if station in OneMinuteLate then 1
    else if station in TwoMinutesLate then 2
    else if station in ThreeMinutesLate then 3
    else 0
  }

  /** The `delayMap` object of `getDelayMinutes`. */
  const DelayMap: map<string, nat> := map[
    "Dhaka University" := 1, "Shahbag" := 1,
    "Karwan Bazar" := 2, "Farmgate" := 2, "Bijoy Sarani" := 2,
    "Agargoan" := 3, "Sewrapara" := 3, "Kazipara" := 3, "Mirpur 10" := 3, "Mirpur 11" := 3,
    "Pallabi" := 3, "Uttara South" := 3, "Uttara Center" := 3, "Uttara North" := 3
  ]

  /** `getDelayMinutes(station)`: `delayMap[station] || 0`. */
  function GetDelayMinutes(station: string): (r: nat)
    ensures r <= 3
    ensures r > 0 <==> station in DelayMap
  {
    if station in DelayMap then DelayMap[station] else 0
  }

  /** The station groups of `applyDelays` and the table of
      `getDelayMinutes` agree: inside the window on a working day the two
      give every station the same delay, and outside it `applyDelays`
      gives none. */
  lemma {:induction false} ApplyDelaysMatchesTable(day: int, time: string, station: string)
    ensures ApplyDelays(day, time, station)
         == if DelayApplicable(day) && IsDelayTime(time) then GetDelayMinutes(station) else 0
  {
    GroupsMatchTable(station);
  }

  /** Every group member has its group's minutes in the table, and a
      station of no group has no entry. */
  lemma {:induction false} GroupsMatchTable(station: string)
    ensures GroupDelay(station) == GetDelayMinutes(station)
  {
    if station in OneMinuteLate {
      assert station == "Dhaka University" || station == "Shahbag";
    } else if station in TwoMinutesLate {
      assert station == "Karwan Bazar" || station == "Farmgate" || station == "Bijoy Sarani";
    } else if station in ThreeMinutesLate {
      assert station in DelayMap && DelayMap[station] == 3;
    } else {
      assert station !in DelayMap;
    }
  }

  /** The `+Nm` label text for a delay. */
  function DelaySpan(delay: nat): (r: string)
    ensures |r| > 0
  {
    "<span class=\"delay-text\">+" + DecimalString(delay) + "m</span>"
  }

  /** `addDelayDisplay(time, station)`: a label exactly when there is a
      delay, and the empty string otherwise. */
  function AddDelayDisplay(day: int, time: string, station: string): (r: string)
    ensures r == "" <==> ApplyDelays(day, time, station) == 0
    ensures r != "" ==> r == DelaySpan(ApplyDelays(day, time, station))
  {
    var delay := ApplyDelays(day, time, station);
    if delay != 0 then DelaySpan(delay) else ""
  }

  /** The station groups of `getMorningDelay`. */
  const MorningOneMinute: seq<string> := ["Mirpur 11", "Mirpur 10"]
  const MorningTwoMinutes: seq<string> := ["Karwan Bazar", "Farmgate", "Bijoy Sarani", "Agargoan"]
  const MorningThreeMinutes: seq<string> := ["Shahbag", "Dhaka University", "Bangladesh Secretariat", "Motijheel"]

  /** `getMorningDelay(station, direction)`: only trains towards Motijheel
      are late in the morning. */
  function GetMorningDelay(station: string, direction: string): (r: nat)
    ensures r <= 3
    ensures direction != Timetable.Motijheel ==> r == 0
    ensures r > 0 <==> (direction == Timetable.Motijheel
      && (station in MorningOneMinute || station in MorningTwoMinutes || station in MorningThreeMinutes))
  {
    if direction != Timetable.Motijheel then 0
    else if station in MorningOneMinute then 1
    else if station in MorningTwoMinutes then 2
    else if station in MorningThreeMinutes then 3
    else 0
  }

  /** The ` [+Nm]` suffix `formatTimeWithDelay` appends. */
  function Suffix(delay: nat): (r: string)
    ensures |r| >= 5 && r[..3] == " [+"
  {
    " [+" + DecimalString(delay) + "m]"
  }

  /** `formatTimeWithDelay(time, stationName, direction)` of
      docs/delay-handler.js on day `day`. */
  function FormatTimeWithDelay(day: int, time: string, station: string, direction: string): (r: string)
    ensures !DelayApplicable(day) ==> r == time
    ensures direction != Timetable.Motijheel && direction != Timetable.UttaraNorth ==> r == time
  {
    if !DelayApplicable(day) then time
    else
      var morning := GetMorningDelay(station, direction);
      if direction == Timetable.Motijheel && IsWithinMorningPeakHours(time) && morning > 0 then
        time + Suffix(morning)
      else if direction != Timetable.UttaraNorth then time
      else
        var delay := ApplyDelays(day, time, station);
        if delay > 0 then time + Suffix(delay) else time
  }

  /** What the suffix says, per direction: towards Motijheel it is the
      morning delay inside the morning window, towards Uttara North the
      afternoon delay of the station table; it is absent exactly when that
      delay is 0. */
  lemma {:induction false} FormatTimeWithDelaySpec(day: int, time: string, station: string, direction: string)
    ensures var r := FormatTimeWithDelay(day, time, station, direction);
      direction == Timetable.Motijheel ==>
        var d := if DelayApplicable(day) && IsWithinMorningPeakHours(time) then GetMorningDelay(station, direction) else 0;
        r == if d > 0 then time + Suffix(d) else time
    ensures var r := FormatTimeWithDelay(day, time, station, direction);
      direction == Timetable.UttaraNorth ==>
        var d := if DelayApplicable(day) && IsDelayTime(time) then GetDelayMinutes(station) else 0;
        r == if d > 0 then time + Suffix(d) else time
  {
    ApplyDelaysMatchesTable(day, time, station);
  }

  /** The result always starts with the time itself, followed by nothing
      or by a suffix naming one to three minutes. */
  lemma {:induction false} FormatTimeWithDelayShape(day: int, time: string, station: string, direction: string)
    ensures var r := FormatTimeWithDelay(day, time, station, direction);
      r == time || exists n | 1 <= n <= 3 :: r == time + Suffix(n)
  {
    var r := FormatTimeWithDelay(day, time, station, direction);
    if r != time {
      var morning := GetMorningDelay(station, direction);
      if direction == Timetable.Motijheel && IsWithinMorningPeakHours(time) && morning > 0 {
        assert r == time + Suffix(morning);
      } else {
        assert r == time + Suffix(ApplyDelays(day, time, station));
      }
    }
  }
}

=== FILE: gen_offsets.dfy ===
/** Station dwell times and cumulative arrival offsets in the timetable
    generator (generate_timetable.py): `get_wait_time` and
    `compute_station_offsets`, with the journey and dwell tables the
    generator is configured with. */
module GenOffsets {
  import opened Wrappers
  import opened GenParse
  import Timetable

  /** A dwell setting: a category name looked up in the category table, or a
      number of seconds. */
  datatype WaitSetting = Category(name: string) | Seconds(n: int)

  /** `WAIT_CATEGORIES`, `DEFAULT_WAIT`, `STATION_WAIT_OVERRIDES` and
      `PERIOD_WAIT_OVERRIDES`. */
  datatype WaitConfig = WaitConfig(
    categories: map<string, int>,
    defaultCategory: string,
    stationOverrides: map<string, WaitSetting>,
    periodOverrides: map<Period, map<string, WaitSetting>>)

  /** The dwell configuration generate_timetable.py ships with. */
  const Configured: WaitConfig := WaitConfig(
    map["low" := 30, "medium" := 45, "high" := 60],
    "medium",
    map[],
    map[
      RushPeriod := map[
        "Kazipara" := Category("high"), "Sewrapara" := Category("high"),
        "Agargoan" := Category("high")],
      OffpeakPeriod := map[
        "Uttara Center" := Category("low"), "Uttara South" := Category("low"),
        "Mirpur 11" := Category("low"), "Mirpur 10" := Category("medium"),
        "Kazipara" := Category("low"), "Sewrapara" := Category("low")],
      CustomPeriod := map[
        "Uttara Center" := Category("low"), "Uttara South" := Category("low"),
        "Mirpur 11" := Category("low"), "Mirpur 10" := Category("low"),
        "Kazipara" := Category("low"), "Sewrapara" := Category("low")]])

  /** A setting's seconds; an unknown category name is a KeyError. */
  function Resolve(cfg: WaitConfig, v: WaitSetting): (r: Option<int>)
    ensures v.Seconds? ==> r == Some(v.n)
    ensures v.Category? ==> (r.Some? <==> v.name in cfg.categories)
    ensures v.Category? && r.Some? ==> r.value == cfg.categories[v.name]
  {
    match v
    case Seconds(n) => Some(n)
    case Category(c) => if c in cfg.categories then Some(cfg.categories[c]) else None
  }

  /** `get_wait_time(station, period_type)`: the period's override for the
      station, else the station's override, else the default category. */
  function WaitTime(cfg: WaitConfig, station: string, p: Period): (r: Option<int>)
    ensures p in cfg.periodOverrides && station in cfg.periodOverrides[p] ==>
      r == Resolve(cfg, cfg.periodOverrides[p][station])
    ensures !(p in cfg.periodOverrides && station in cfg.periodOverrides[p]) && station in cfg.stationOverrides ==>
      r == Resolve(cfg, cfg.stationOverrides[station])
    ensures r.None? ==>
      cfg.defaultCategory !in cfg.categories
      || (p in cfg.periodOverrides && station in cfg.periodOverrides[p] && cfg.periodOverrides[p][station].Category?)
      || (station in cfg.stationOverrides && cfg.stationOverrides[station].Category?)
  {
    if p in cfg.periodOverrides && station in cfg.periodOverrides[p] then
      Resolve(cfg, cfg.periodOverrides[p][station])
    else if station in cfg.stationOverrides then
      Resolve(cfg, cfg.stationOverrides[station])
    else if cfg.defaultCategory in cfg.categories then
      Some(cfg.categories[cfg.defaultCategory])
    else None
  }

  /** A period override takes precedence over everything else: the station
      overrides and the default are not consulted. */
  lemma {:induction false} PeriodOverrideWins(cfg: WaitConfig, other: WaitConfig, station: string, p: Period)
    requires p in cfg.periodOverrides && station in cfg.periodOverrides[p]
    requires other.periodOverrides == cfg.periodOverrides && other.categories == cfg.categories
    ensures WaitTime(cfg, station, p) == WaitTime(other, station, p)
    ensures cfg.periodOverrides[p][station].Seconds? ==>
      WaitTime(cfg, station, p) == Some(cfg.periodOverrides[p][station].n)
  {
  }

  /** Without overrides for the station, the default category decides. */
  lemma {:induction false} DefaultApplies(cfg: WaitConfig, station: string, p: Period)
    requires !(p in cfg.periodOverrides && station in cfg.periodOverrides[p])
    requires station !in cfg.stationOverrides
    ensures WaitTime(cfg, station, p).Some? <==> cfg.defaultCategory in cfg.categories
    ensures WaitTime(cfg, station, p).Some? ==>
      WaitTime(cfg, station, p).value == cfg.categories[cfg.defaultCategory]
  {
  }

  /** The shipped dwell times written out station by station: long stops at
      Kazipara, Sewrapara and Agargoan in the rush; quick stops in the north
      outside the rush; 45 s everywhere else. */
  function ShippedDwell(station: string, p: Period): (s: int)
    ensures s == 30 || s == 45 || s == 60
  {
    match p
    case RushPeriod =>
      if station in {"Kazipara", "Sewrapara", "Agargoan"} then 60 else 45
    case OffpeakPeriod =>
      if station in {"Uttara Center", "Uttara South", "Mirpur 11", "Kazipara", "Sewrapara"} then 30 else 45
    case CustomPeriod =>
      if station in {"Uttara Center", "Uttara South", "Mirpur 11", "Mirpur 10", "Kazipara", "Sewrapara"} then 30 else 45
  }

  /** `get_wait_time` never fails with the shipped configuration and agrees
      with the written-out table for every station and period. */
  lemma {:induction false} ShippedWaitTimes(station: string, p: Period)
    ensures WaitTime(Configured, station, p) == Some(ShippedDwell(station, p))
  {
  }

  // ---------------------------------------------------------------------------
  // Cumulative offsets

  /** One journey table: a station and the `M:SS` travel time from the
      previous station. */
  type Journey = seq<(string, string)>

  function Names(j: Journey): (r: seq<string>)
    ensures |r| == |j| && forall k | 0 <= k < |j| :: r[k] == j[k].0
  {
    seq(|j|, k requires 0 <= k < |j| => j[k].0)
  }

  /** `JOURNEY_TIMES_TO_MOTIJHEEL`: from Uttara North to Motijheel, each
      row with its travel time from the row above. */
  const ToMotijheel: Journey := [
    ("Uttara North", "0:00"), ("Uttara Center", "1:40"), ("Uttara South", "1:50"),
    ("Pallabi", "2:50"), ("Mirpur 11", "1:10"), ("Mirpur 10", "1:30"),
    ("Kazipara", "1:20"), ("Sewrapara", "1:20"), ("Agargoan", "1:40"),
    ("Bijoy Sarani", "1:50"), ("Farmgate", "1:50"), ("Karwan Bazar", "1:50"),
    ("Shahbag", "2:00"), ("Dhaka University", "2:00"), ("Bangladesh Secretariat", "3:00"),
    ("Motijheel", "3:00")
  ]

  /** `JOURNEY_TIMES_TO_UTTARA`: the same line run from Motijheel. */
  const ToUttara: Journey := [
    ("Motijheel", "0:00"), ("Bangladesh Secretariat", "3:00"), ("Dhaka University", "3:00"),
    ("Shahbag", "2:00"), ("Karwan Bazar", "2:00"), ("Farmgate", "1:50"),
    ("Bijoy Sarani", "1:50"), ("Agargoan", "1:50"), ("Sewrapara", "1:40"),
    ("Kazipara", "1:20"), ("Mirpur 10", "1:20"), ("Mirpur 11", "1:30"),
    ("Pallabi", "1:10"), ("Uttara South", "2:50"), ("Uttara Center", "1:50"),
    ("Uttara North", "1:40")
  ]

  /** The table to Motijheel lists the line's stations in line order; the
      generator takes its station list from it. */
  lemma {:induction false} JourneyStations()
    ensures Names(ToMotijheel) == Timetable.StationsOrder
  {
    var n := Names(ToMotijheel);
    assert |n| == |Timetable.StationsOrder|;
    assert forall k | 0 <= k < |n| :: n[k] == ToMotijheel[k].0;
  }

  /** The table to Uttara North lists the line's stations in reverse. */
  lemma {:induction false} JourneyStationsReversed()
    ensures |Names(ToUttara)| == |Timetable.StationsOrder|
    ensures forall k | 0 <= k < |ToUttara| :: Names(ToUttara)[k] == Timetable.StationsOrder[|ToUttara| - 1 - k]
  {
  }

  /** Every segment between two neighbouring stations takes as long in
      either direction. */
  lemma {:induction false} JourneySymmetric()
    ensures |ToUttara| == |ToMotijheel|
    ensures forall k | 0 < k < |ToUttara| :: ToUttara[k].1 == ToMotijheel[|ToMotijheel| - k].1
  {
  }

  function Sum(xs: seq<int>): int
  {
    if |xs| == 0 then 0 else Sum(xs[..|xs| - 1]) + xs[|xs| - 1]
  }

  /** The first `i` values read from a table, in order; `None` once one of
      them failed to read. */
  function Collect(xs: seq<Option<int>>, i: nat): (r: Option<seq<int>>)
    requires i <= |xs|
    ensures r.Some? ==> |r.value| == i
  {
    if i == 0 then Some([])
    else
      var prior := Collect(xs, i - 1);
      if prior.Some? && xs[i - 1].Some? then Some(prior.value + [xs[i - 1].value]) else None
  }

  /** Collecting succeeds exactly when every value read, and then keeps
      them in order. */
  lemma {:induction false} CollectSpec(xs: seq<Option<int>>, i: nat)
    requires i <= |xs|
    ensures Collect(xs, i).Some? <==> forall k | 0 <= k < i :: xs[k].Some?
    ensures Collect(xs, i).Some? ==> forall k | 0 <= k < i :: xs[k] == Some(Collect(xs, i).value[k])
  {
    if i > 0 {
      CollectSpec(xs, i - 1);
    }
  }

  /** A failure is never recovered from. */
  lemma {:induction false} CollectFail(xs: seq<Option<int>>, a: nat, b: nat)
    requires a <= b <= |xs| && Collect(xs, a).None?
    ensures Collect(xs, b).None?
    decreases b - a
  {
    if a < b {
      CollectFail(xs, a, b - 1);
    }
  }

  /** `parse_duration` of every row's travel time. */
  function Travel(j: Journey): (r: seq<Option<int>>)
    ensures |r| == |j|
  {
    if |j| == 0 then [] else Travel(j[..|j| - 1]) + [ParseDuration(j[|j| - 1].1)]
  }

  lemma {:induction false} TravelAt(j: Journey, i: nat)
    requires i < |j|
    ensures Travel(j)[i] == ParseDuration(j[i].1)
  {
    if i < |j| - 1 {
      TravelAt(j[..|j| - 1], i);
    }
  }

  /** The travel times of the whole table, or `None` when one of them does
      not parse (`parse_duration` raises). */
  function Durations(j: Journey): Option<seq<int>>
  {
    Collect(Travel(j), |j|)
  }

  /** The number of intermediate stations among the first `i` of `n`. */
  function Stops(i: nat, n: nat): (c: nat)
    requires i <= n
    ensures c <= i && (c == 0 || c <= n - 2)
  {
    if i <= 1 then 0 else if i < n then i - 1 else n - 2
  }

  /** `get_wait_time` at every intermediate station, in table order. */
  function Waits(cfg: WaitConfig, j: Journey, p: Period): (r: seq<Option<int>>)
    ensures |r| == Stops(|j|, |j|)
  {
    WaitsAt(cfg, j, p, Stops(|j|, |j|))
  }

  /** `get_wait_time` at stations `1..c`. */
  function WaitsAt(cfg: WaitConfig, j: Journey, p: Period, c: nat): (r: seq<Option<int>>)
    requires c == 0 || c < |j|
    ensures |r| == c
  {
    if c == 0 then [] else WaitsAt(cfg, j, p, c - 1) + [WaitTime(cfg, j[c].0, p)]
  }

  lemma {:induction false} WaitsAtIndex(cfg: WaitConfig, j: Journey, p: Period, c: nat, k: nat)
    requires (c == 0 || c < |j|) && k < c
    ensures WaitsAt(cfg, j, p, c)[k] == WaitTime(cfg, j[k + 1].0, p)
  {
    if k < c - 1 {
      WaitsAtIndex(cfg, j, p, c - 1, k);
    }
  }

  /** The dwell time at every intermediate station (all but the first and
      the last), or `None` when one of them has none (`get_wait_time`
      raises). */
  function Dwells(cfg: WaitConfig, j: Journey, p: Period): Option<seq<int>>
  {
    Collect(Waits(cfg, j, p), Stops(|j|, |j|))
  }

  /** The offset of station `i` from the departure at the origin: every
      travel time up to and including station `i`, and the dwell at every
      station strictly between the origin and station `i`. */
  function Offset(d: seq<int>, w: seq<int>, i: nat): int
    requires i < |d| && Before(i) <= |w|
  {
    Sum(d[..i + 1]) + Sum(w[..Before(i)])
  }

  /** The number of intermediate stations before station `i`. */
  function Before(i: nat): nat
  {
    if i == 0 then 0 else i - 1
  }

  /** The offset recurrence: the origin's offset is its own travel time,
      and each next station adds the dwell at the station before it (none
      at the origin) and its own travel time. */
  lemma {:induction false} OffsetStep(d: seq<int>, w: seq<int>, i: nat)
    requires i + 1 < |d| && Before(i + 1) <= |w|
    ensures Offset(d, w, 0) == d[0]
    ensures Offset(d, w, i + 1) == Offset(d, w, i) + (if i == 0 then 0 else w[i - 1]) + d[i + 1]
  {
    assert d[..1] == [] + [d[0]];
    SumAppend([], d[0]);
    assert d[..i + 2] == d[..i + 1] + [d[i + 1]];
    SumAppend(d[..i + 1], d[i + 1]);
    if i > 0 {
      assert w[..i] == w[..i - 1] + [w[i - 1]];
      SumAppend(w[..i - 1], w[i - 1]);
    }
  }

  /** With no negative travel or dwell time, a station further down the
      table is never reached earlier. */
  lemma {:induction false} OffsetMonotone(d: seq<int>, w: seq<int>, a: nat, b: nat)
    requires a <= b < |d| && Before(b) <= |w|
    requires forall k | 0 <= k < |d| :: d[k] >= 0
    requires forall k | 0 <= k < |w| :: w[k] >= 0
    ensures Offset(d, w, a) <= Offset(d, w, b)
    decreases b - a
  {
    if a < b {
      OffsetStep(d, w, b - 1);
      OffsetMonotone(d, w, a, b - 1);
    }
  }

  /** The last position of `x` in `xs`. */
  function LastIndex(xs: seq<string>, x: string): (k: nat)
    requires x in xs
    ensures k < |xs| && xs[k] == x
    ensures forall m | k < m < |xs| :: xs[m] != x
  {
    if xs[|xs| - 1] == x then |xs| - 1 else LastIndex(xs[..|xs| - 1], x)
  }

  /** What `compute_station_offsets` returns, as one definition: each
      station maps to the offset of its last row in the table. */
  function StationOffsets(cfg: WaitConfig, j: Journey, p: Period): (r: Option<map<string, int>>)
    ensures r.Some? <==> Durations(j).Some? && Dwells(cfg, j, p).Some?
  {
    match (Durations(j), Dwells(cfg, j, p))
    case (Some(d), Some(w)) => Some(OffsetMap(Names(j), d, w))
    case _ => None
  }

  /** Each name with the offset of its last row. */
  function OffsetMap(names: seq<string>, d: seq<int>, w: seq<int>): (m: map<string, int>)
    requires |d| == |names| && |names| <= |w| + 2
    ensures m.Keys == set x | x in names
  {
    map x | x in names :: Offset(d, w, LastIndex(names, x))
  }

  lemma {:induction false} SumAppend(xs: seq<int>, x: int)
    ensures Sum(xs + [x]) == Sum(xs) + x
  {
    assert (xs + [x])[..|xs|] == xs;
  }

  lemma {:induction false} LastIndexExtend(xs: seq<string>, y: string, x: string)
    requires x in xs && x != y
    ensures x in xs + [y] && LastIndex(xs + [y], x) == LastIndex(xs, x)
  {
    assert (xs + [y])[..|xs|] == xs;
  }

  /** `offsets` holds, for the rows `names` seen so far, the offset of each
      name's last row. */
  ghost predicate Tracks(offsets: map<string, int>, names: seq<string>, ds: seq<int>, ws: seq<int>)
  {
    |ds| == |names| && |names| <= |ws| + 2
    && (forall x :: x in offsets <==> x in names)
    && forall x | x in offsets && x in names :: offsets[x] == Offset(ds, ws, LastIndex(names, x))
  }

  /** Arriving at the next row records the running total under its name. */
  lemma {:induction false} TracksArrive(offsets: map<string, int>, names: seq<string>, ds: seq<int>, ws: seq<int>, y: string, x: int)
    requires Tracks(offsets, names, ds, ws) && |ws| == Before(|names|)
    ensures Tracks(offsets[y := Sum(ds) + x + Sum(ws)], names + [y], ds + [x], ws)
  {
    var o := offsets[y := Sum(ds) + x + Sum(ws)];
    var ns := names + [y];
    assert forall z :: z in o <==> z in ns by {
      assert forall z :: z in ns <==> z in names || z == y;
    }
    forall z | z in o && z in ns
      ensures o[z] == Offset(ds + [x], ws, LastIndex(ns, z))
    {
      if z == y {
        OffsetOfNew(names, ds, ws, y, x);
      } else {
        OffsetOfOld(names, ds, ws, y, x, z);
      }
    }
  }

  /** The row just added is its name's last row, at the running total. */
  lemma {:induction false} OffsetOfNew(names: seq<string>, ds: seq<int>, ws: seq<int>, y: string, x: int)
    requires |ds| == |names| && |ws| == Before(|names|)
    ensures y in names + [y] && Offset(ds + [x], ws, LastIndex(names + [y], y)) == Sum(ds) + x + Sum(ws)
  {
    var ds' := ds + [x];
    assert LastIndex(names + [y], y) == |names|;
    assert ds'[..|names| + 1] == ds';
    assert ws[..Before(|names|)] == ws;
    SumAppend(ds, x);
  }

  /** Another name keeps its last row and so its offset. */
  lemma {:induction false} OffsetOfOld(names: seq<string>, ds: seq<int>, ws: seq<int>, y: string, x: int, z: string)
    requires |ds| == |names| && |names| <= |ws| + 2 && z in names && z != y
    ensures z in names + [y]
    ensures Offset(ds + [x], ws, LastIndex(names + [y], z)) == Offset(ds, ws, LastIndex(names, z))
  {
    LastIndexExtend(names, y, z);
    var k := LastIndex(names, z);
    assert (ds + [x])[..k + 1] == ds[..k + 1];
  }

  /** Dwelling at an intermediate station does not change recorded offsets. */
  lemma {:induction false} TracksDwell(offsets: map<string, int>, names: seq<string>, ds: seq<int>, ws: seq<int>, w: int)
    requires Tracks(offsets, names, ds, ws)
    ensures Tracks(offsets, names, ds, ws + [w])
  {
    forall z | z in offsets && z in names
      ensures offsets[z] == Offset(ds, ws + [w], LastIndex(names, z))
    {
      var k := LastIndex(names, z);
      assert (ws + [w])[..Before(k)] == ws[..Before(k)];
    }
  }

  /** Once every row is in, the tracked map is the one-definition answer. */
  lemma {:induction false} TracksComplete(offsets: map<string, int>, names: seq<string>, ds: seq<int>, ws: seq<int>)
    requires Tracks(offsets, names, ds, ws)
    ensures offsets == OffsetMap(names, ds, ws)
  {
  }

  /** The loop state of `compute_station_offsets` after reading `n` rows
      and `c` dwell times. */
  ghost predicate State(cfg: WaitConfig, j: Journey, p: Period, n: nat, c: nat,
                        offsets: map<string, int>, cumulative: int, ds: seq<int>, ws: seq<int>)
  {
    n <= |j| && c <= |Waits(cfg, j, p)|
    && Collect(Travel(j), n) == Some(ds) && Collect(Waits(cfg, j, p), c) == Some(ws)
    && cumulative == Sum(ds) + Sum(ws)
    && Tracks(offsets, Names(j)[..n], ds, ws)
  }

  /** Arriving at row `n` records the running total plus its travel time. */
  lemma {:induction false} Arrive(cfg: WaitConfig, j: Journey, p: Period, n: nat, c: nat,
               offsets: map<string, int>, cumulative: int, ds: seq<int>, ws: seq<int>, x: int)
    requires State(cfg, j, p, n, c, offsets, cumulative, ds, ws)
    requires n < |j| && Travel(j)[n] == Some(x) && c == Before(n)
    ensures State(cfg, j, p, n + 1, c, offsets[j[n].0 := cumulative + x], cumulative + x, ds + [x], ws)
  {
    var names := Names(j)[..n];
    assert Names(j)[..n + 1] == names + [j[n].0];
    assert Collect(Travel(j), n + 1) == Some(ds + [x]);
    TracksArrive(offsets, names, ds, ws, j[n].0, x);
    SumAppend(ds, x);
  }

  /** Dwelling adds the next dwell time to the running total. */
  lemma {:induction false} Dwell(cfg: WaitConfig, j: Journey, p: Period, n: nat, c: nat,
              offsets: map<string, int>, cumulative: int, ds: seq<int>, ws: seq<int>, w: int)
    requires State(cfg, j, p, n, c, offsets, cumulative, ds, ws)
    requires c < |Waits(cfg, j, p)| && Waits(cfg, j, p)[c] == Some(w)
    ensures State(cfg, j, p, n, c + 1, offsets, cumulative + w, ds, ws + [w])
  {
    TracksDwell(offsets, Names(j)[..n], ds, ws, w);
    SumAppend(ws, w);
  }

  /** A row whose travel time does not parse makes the whole call fail. */
  lemma {:induction false} TravelFails(cfg: WaitConfig, j: Journey, p: Period, i: nat)
    requires i < |j| && Travel(j)[i].None?
    ensures StationOffsets(cfg, j, p).None?
  {
    CollectSpec(Travel(j), |j|);
  }

  /** An intermediate station without a dwell time makes the whole call fail. */
  lemma {:induction false} DwellFails(cfg: WaitConfig, j: Journey, p: Period, i: nat)
    requires 0 < i < |j| - 1 && Waits(cfg, j, p)[i - 1].None?
    ensures StationOffsets(cfg, j, p).None?
  {
    CollectSpec(Waits(cfg, j, p), Stops(|j|, |j|));
  }

  /** With every row in, the tracked map is the answer. */
  lemma {:induction false} OffsetsDone(cfg: WaitConfig, j: Journey, p: Period, offsets: map<string, int>, cumulative: int, ds: seq<int>, ws: seq<int>)
    requires State(cfg, j, p, |j|, Stops(|j|, |j|), offsets, cumulative, ds, ws)
    ensures StationOffsets(cfg, j, p) == Some(offsets)
  {
    assert Names(j)[..|j|] == Names(j);
    TracksComplete(offsets, Names(j), ds, ws);
  }

  /** `compute_station_offsets` from row `i` on, given each row's station
      name, its travel time and the dwell time of every intermediate
      station, as read, and the map and running total built from the rows
      before it: each row adds its travel time and records the running
      total under its station name (a later row for the same name
      overwrites an earlier one), and every row away from both ends then
      adds its station's dwell time. */
  function Walk(names: seq<string>, travel: seq<Option<int>>, waits: seq<Option<int>>, i: nat,
                offsets: map<string, int>, cumulative: int): Option<map<string, int>>
    requires |travel| == |names| && |waits| == Stops(|names|, |names|) && i <= |names|
    decreases |names| - i
  {
    if i == |names| then Some(offsets)
    else
      var journey := travel[i];
      if journey.None? then None
      else
        var total := cumulative + journey.value;
        var recorded := offsets[names[i] := total];
        if 0 < i < |names| - 1 then
          var wait := waits[i - 1];
          if wait.None? then None else Walk(names, travel, waits, i + 1, recorded, total + wait.value)
        else
          Walk(names, travel, waits, i + 1, recorded, total)
  }

  /** A row at either end of the table only adds its travel time. */
  lemma {:induction false} WalkEnd(names: seq<string>, travel: seq<Option<int>>, waits: seq<Option<int>>, i: nat,
                                   offsets: map<string, int>, cumulative: int, y: string, x: int)
    requires |travel| == |names| && |waits| == Stops(|names|, |names|)
    requires i < |names| && names[i] == y && travel[i] == Some(x) && !(0 < i < |names| - 1)
    ensures Walk(names, travel, waits, i, offsets, cumulative)
         == Walk(names, travel, waits, i + 1, offsets[y := cumulative + x], cumulative + x)
  {
  }

  /** A row away from both ends adds its travel time and then its dwell
      time. */
  lemma {:induction false} WalkStop(names: seq<string>, travel: seq<Option<int>>, waits: seq<Option<int>>, i: nat,
                                    offsets: map<string, int>, cumulative: int, y: string, x: int, w: int)
    requires |travel| == |names| && |waits| == Stops(|names|, |names|)
    requires 0 < i < |names| - 1 && names[i] == y && travel[i] == Some(x) && waits[i - 1] == Some(w)
    ensures Walk(names, travel, waits, i, offsets, cumulative)
         == Walk(names, travel, waits, i + 1, offsets[y := cumulative + x], cumulative + x + w)
  {
  }

  /** The walk from any consistent state ends in the one-definition answer. */
  lemma {:induction false} WalkFrom(cfg: WaitConfig, j: Journey, p: Period, i: nat, c: nat,
                                    offsets: map<string, int>, cumulative: int, ds: seq<int>, ws: seq<int>)
    requires i <= |j| && c == Stops(i, |j|)
    requires State(cfg, j, p, i, c, offsets, cumulative, ds, ws)
    ensures Walk(Names(j), Travel(j), Waits(cfg, j, p), i, offsets, cumulative) == StationOffsets(cfg, j, p)
    decreases |j| - i, 1
  {
    if i == |j| {
      OffsetsDone(cfg, j, p, offsets, cumulative, ds, ws);
    } else if Travel(j)[i].None? {
      TravelFails(cfg, j, p, i);
    } else if !(0 < i < |j| - 1) {
      ArriveThenWalk(cfg, j, p, i, c, offsets, cumulative, ds, ws, Travel(j)[i].value);
    } else if Waits(cfg, j, p)[i - 1].None? {
      DwellFails(cfg, j, p, i);
    } else {
      DwellThenWalk(cfg, j, p, i, c, offsets, cumulative, ds, ws, Travel(j)[i].value, Waits(cfg, j, p)[i - 1].value);
    }
  }

  /** At an end row no dwell time has been read past the ones before it. */
  lemma {:induction false} EndStops(i: nat, n: nat)
    requires i < n && !(0 < i < n - 1)
    ensures Stops(i, n) == Before(i) == Stops(i + 1, n)
  {
  }

  /** An intermediate row reads one more dwell time. */
  lemma {:induction false} MidStops(i: nat, n: nat)
    requires 0 < i < n - 1
    ensures Stops(i, n) == Before(i) && Stops(i + 1, n) == Stops(i, n) + 1
  {
  }

  /** The walk from an end row. */
  lemma {:induction false} ArriveThenWalk(cfg: WaitConfig, j: Journey, p: Period, i: nat, c: nat,
                                          offsets: map<string, int>, cumulative: int, ds: seq<int>, ws: seq<int>, x: int)
    requires i < |j| && c == Stops(i, |j|) && !(0 < i < |j| - 1) && Travel(j)[i] == Some(x)
    requires State(cfg, j, p, i, c, offsets, cumulative, ds, ws)
    ensures Walk(Names(j), Travel(j), Waits(cfg, j, p), i, offsets, cumulative) == StationOffsets(cfg, j, p)
    decreases |j| - i, 0
  {
    var recorded := offsets[j[i].0 := cumulative + x];
    EndStops(i, |j|);
    assert Names(j)[i] == j[i].0;
    Arrive(cfg, j, p, i, c, offsets, cumulative, ds, ws, x);
    WalkEnd(Names(j), Travel(j), Waits(cfg, j, p), i, offsets, cumulative, j[i].0, x);
    WalkFrom(cfg, j, p, i + 1, c, recorded, cumulative + x, ds + [x], ws);
  }

  /** The walk from an intermediate row. */
  lemma {:induction false} DwellThenWalk(cfg: WaitConfig, j: Journey, p: Period, i: nat, c: nat,
                                         offsets: map<string, int>, cumulative: int, ds: seq<int>, ws: seq<int>, x: int, w: int)
    requires 0 < i < |j| - 1 && c == Stops(i, |j|) && Travel(j)[i] == Some(x) && Waits(cfg, j, p)[i - 1] == Some(w)
    requires State(cfg, j, p, i, c, offsets, cumulative, ds, ws)
    ensures Walk(Names(j), Travel(j), Waits(cfg, j, p), i, offsets, cumulative) == StationOffsets(cfg, j, p)
    decreases |j| - i, 0
  {
    var recorded := offsets[j[i].0 := cumulative + x];
    MidStops(i, |j|);
    assert Names(j)[i] == j[i].0;
    Arrive(cfg, j, p, i, c, offsets, cumulative, ds, ws, x);
    Dwell(cfg, j, p, i + 1, c, recorded, cumulative + x, ds + [x], ws, w);
    WalkStop(Names(j), Travel(j), Waits(cfg, j, p), i, offsets, cumulative, j[i].0, x, w);
    WalkFrom(cfg, j, p, i + 1, c + 1, recorded, cumulative + x + w, ds + [x], ws + [w]);
  }

  /** `compute_station_offsets`: the walk over every row from an empty map
      and a zero running total. */
  function ComputeStationOffsets(cfg: WaitConfig, j: Journey, p: Period): (r: Option<map<string, int>>)
    ensures r == StationOffsets(cfg, j, p)
  {
    WalkFrom(cfg, j, p, 0, 0, map[], 0, [], []);
    Walk(Names(j), Travel(j), Waits(cfg, j, p), 0, map[], 0)
  }
}

=== FILE: gen_parse.dfy ===
/** Text parsing in the timetable generator (generate_timetable.py):
    `parse_duration`, `parse_headway`, `parse_slots` and `parse_time`. An
    exception the generator would raise is `None`. */
module GenParse {
  import opened Wrappers
  import opened Strings
  import Clock

  /** A headway: the alternating rush pattern or a fixed number of seconds. */
  datatype Headway = Rush | Every(seconds: int)

  /** The period type a slot's stations take their dwell times from. */
  datatype Period = RushPeriod | OffpeakPeriod | CustomPeriod

  const OffpeakHeadway: int := 480

  /** `parse_duration`: `"M:SS"` to seconds. Fewer than two fields raise
      IndexError; a field `int()` refuses raises ValueError. */
  function ParseDuration(s: string): (r: Option<int>)
    ensures var parts := Split(Strip(s), ':');
      r.Some? <==> |parts| >= 2 && PyInt(parts[0]).Some? && PyInt(parts[1]).Some?
  {
    DurationOfFields(Split(Strip(s), ':'))
  }

  /** `int(parts[0]) * 60 + int(parts[1])`; fields after the second are ignored. */
  function DurationOfFields(parts: seq<string>): (r: Option<int>)
    ensures |parts| < 2 ==> r.None?
    ensures |parts| >= 2 && r.Some? ==> PyInt(parts[0]).Some? && PyInt(parts[1]).Some?
  {
    if |parts| < 2 then None
    else
      var m := PyInt(parts[0]);
      var sec := PyInt(parts[1]);
      if m.Some? && sec.Some? then Some(m.value * 60 + sec.value) else None
  }

  /** `str(m) + ":" + "%02d" % sec`, the form the journey tables are written in. */
  function MinSec(m: nat, sec: nat): (s: string)
    requires sec < 60
  {
    DecimalString(m) + ":" + Clock.Pad2(sec)
  }

  lemma {:induction false} SplitMinSec(m: nat, sec: nat)
    requires sec < 60
    ensures Split(MinSec(m, sec), ':') == [DecimalString(m), Clock.Pad2(sec)]
  {
    SplitAt(DecimalString(m), ':', Clock.Pad2(sec));
  }

  lemma {:induction false} StripMinSec(m: nat, sec: nat)
    requires sec < 60
    ensures Strip(MinSec(m, sec)) == MinSec(m, sec)
  {
    var s := MinSec(m, sec);
    assert s[0] == DecimalString(m)[0] && s[|s| - 1] == Clock.Pad2(sec)[1];
    StripClean(s);
  }

  /** `parse_duration("M:SS")` is exactly `60*M + SS`. */
  lemma {:induction false} DurationOfReadFields(parts: seq<string>, a: int, b: int)
    requires |parts| >= 2 && PyInt(parts[0]) == Some(a) && PyInt(parts[1]) == Some(b)
    ensures DurationOfFields(parts) == Some(a * 60 + b)
  {
  }

  lemma {:induction false} ParseDurationMinSec(m: nat, sec: nat)
    requires sec < 60
    ensures ParseDuration(MinSec(m, sec)) == Some(m * 60 + sec)
  {
    var s := MinSec(m, sec);
    var parts := [DecimalString(m), Clock.Pad2(sec)];
    StripMinSec(m, sec);
    SplitMinSec(m, sec);
    PyIntOfDecimal(m);
    PyIntOfDigits(Clock.Pad2(sec));
    DurationOfReadFields(parts, m, sec);
  }

  /** `parse_headway`: trimmed and lower-cased, `"rush"` is the rush pattern,
      `"offpeak"` is 8:00, `"M:SS"` is `60*M + SS` and a plain `"N"` is N
      minutes. */
  function ParseHeadway(s: string): (r: Option<Headway>)
    ensures r == Some(Rush) <==> Lower(Strip(s)) == "rush"
    ensures Lower(Strip(s)) == "offpeak" ==> r == Some(Every(OffpeakHeadway))
  {
    Keyword(Lower(Strip(s)))
  }

  /** `parse_headway` after its `strip().lower()`. */
  function Keyword(h: string): (r: Option<Headway>)
    ensures h == "rush" ==> r == Some(Rush)
    ensures h == "offpeak" ==> r == Some(Every(OffpeakHeadway))
    ensures r == Some(Rush) ==> h == "rush"
  {
    if h == "rush" then Some(Rush)
    else if h == "offpeak" then Some(Every(OffpeakHeadway))
    else if ':' in h then MinSecFields(Split(h, ':'))
    else Minutes(PyInt(h))
  }

  /** `int(parts[0]) * 60 + int(parts[1])`. */
  function MinSecFields(parts: seq<string>): (r: Option<Headway>)
    requires |parts| >= 1
    ensures r.Some? ==> r.value.Every?
  {
    if |parts| < 2 then None
    else
      var m := PyInt(parts[0]);
      var sec := PyInt(parts[1]);
      if m.Some? && sec.Some? then Some(Every(m.value * 60 + sec.value)) else None
  }

  /** `int(h) * 60`. */
  function Minutes(n: Option<int>): (r: Option<Headway>)
    ensures r.Some? ==> r.value.Every?
  {
    if n.Some? then Some(Every(n.value * 60)) else None
  }

  /** The period type `parse_slots` records beside a headway text. */
  function PeriodOf(s: string): Period
  {
    var h := Lower(Strip(s));
    if h == "rush" then RushPeriod else if h == "offpeak" then OffpeakPeriod else CustomPeriod
  }

  /** The period tag agrees with the parsed headway: rush period exactly for
      the rush pattern, off-peak only with the 8:00 headway. */
  lemma {:induction false} PeriodMatchesHeadway(s: string)
    requires ParseHeadway(s).Some?
    ensures PeriodOf(s) == RushPeriod <==> ParseHeadway(s) == Some(Rush)
    ensures PeriodOf(s) == OffpeakPeriod ==> ParseHeadway(s) == Some(Every(OffpeakHeadway))
    ensures PeriodOf(s) == CustomPeriod ==> ParseHeadway(s).value.Every?
  {
  }

  /** Numeric text (digits, signs, colons) has nothing to lower-case. */
  lemma {:induction false} LowerNumeric(s: string)
    requires forall i | 0 <= i < |s| :: IsDigit(s[i]) || s[i] == ':' || s[i] == '-'
    ensures Lower(s) == s
  {
  }

  lemma {:induction false} NotKeyword(h: string)
    requires |h| > 0 && h[0] != 'r' && h[0] != 'o'
    ensures h != "rush" && h != "offpeak"
  {
    assert "rush"[0] == 'r' && "offpeak"[0] == 'o';
  }

  lemma {:induction false} KeywordDigits(h: string)
    requires |h| > 0 && AllDigits(h)
    ensures Keyword(h) == Some(Every(DigitsValue(h) * 60))
  {
    NotKeyword(h);
    PyIntOfDigits(h);
  }

  lemma {:induction false} MinSecOfReadFields(parts: seq<string>, m: int, sec: int, z: int)
    requires |parts| >= 2 && PyInt(parts[0]) == Some(m) && PyInt(parts[1]) == Some(sec)
    requires z == m * 60 + sec
    ensures MinSecFields(parts) == Some(Every(z))
  {
  }

  lemma {:induction false} KeywordMinSec(a: string, b: string, x: int, y: int, z: int)
    requires |a| > 0 && a[0] != 'r' && a[0] != 'o' && ':' !in a && ':' !in b
    requires PyInt(a) == Some(x) && PyInt(b) == Some(y) && z == x * 60 + y
    ensures Keyword(a + ":" + b) == Some(Every(z))
  {
    var h := a + ":" + b;
    assert h[0] == a[0];
    NotKeyword(h);
    assert h[|a|] == ':';
    SplitAt(a, ':', b);
    var parts := Split(h, ':');
    assert parts == [a, b];
    MinSecOfReadFields(parts, x, y, z);
  }

  /** A plain number of minutes, as the config writes it. */
  lemma {:induction false} ParseHeadwayMinutes(n: nat)
    ensures ParseHeadway(DecimalString(n)) == Some(Every(n * 60))
  {
    var s := DecimalString(n);
    StripOfDigits(s);
    LowerNumeric(s);
    KeywordDigits(s);
  }

  /** The headway column `generate_schedule` prints for a fixed headway
      (generate_timetable.py:373-376): floor division and a two-digit
      remainder, so a negative headway prints as e.g. `-1:30`. */
  function HeadwayDisplay(h: Headway): string
  {
    match h
    case Rush => "rush (6:00/5:30)"
    case Every(x) => IntString(x / 60) + ":" + Clock.Pad2(x % 60)
  }

  /** Numeric text: digits and minus signs only. */
  predicate Numeric(s: string)
  {
    forall i | 0 <= i < |s| :: IsDigit(s[i]) || s[i] == '-'
  }

  /** `parse_headway("A:B")` for two numeric fields reads `60*A + B`. */
  lemma {:induction false} ParseHeadwayFields(a: string, b: string, x: int, y: int, z: int)
    requires |a| > 0 && |b| > 0 && Numeric(a) && Numeric(b)
    requires PyInt(a) == Some(x) && PyInt(b) == Some(y) && z == x * 60 + y
    ensures ParseHeadway(a + ":" + b) == Some(Every(z))
  {
    NumericFieldsClean(a, b);
    assert ':' !in a && ':' !in b;
    KeywordMinSec(a, b, x, y, z);
  }

  /** Two numeric fields joined by a colon have nothing to strip or
      lower-case. */
  lemma {:induction false} NumericFieldsClean(a: string, b: string)
    requires |a| > 0 && |b| > 0 && Numeric(a) && Numeric(b)
    ensures Lower(Strip(a + ":" + b)) == a + ":" + b
  {
    var s := a + ":" + b;
    assert s[0] == a[0] && s[|s| - 1] == b[|b| - 1];
    assert !IsSpace(s[0]) && !IsSpace(s[|s| - 1]);
    StripClean(s);
    assert forall i | 0 <= i < |s| :: IsDigit(s[i]) || s[i] == ':' || s[i] == '-' by {
      forall i | 0 <= i < |s| ensures IsDigit(s[i]) || s[i] == ':' || s[i] == '-' {
        if i < |a| { assert s[i] == a[i]; }
        else if i > |a| { assert s[i] == b[i - |a| - 1]; }
      }
    }
    LowerNumeric(s);
  }

  /** A fixed headway, printed and read back, is unchanged: the display
      column is a faithful record of what the slot was parsed as. */
  lemma {:induction false} HeadwayDisplayRoundTrip(x: int)
    ensures ParseHeadway(HeadwayDisplay(Every(x))) == Some(Every(x))
  {
    var a, b := IntString(x / 60), Clock.Pad2(x % 60);
    assert PyInt(a) == Some(x / 60) by { PyIntOfIntString(x / 60); }
    assert PyInt(b) == Some(x % 60) by { PyIntOfDigits(b); }
    assert Numeric(a) && Numeric(b);
    ParseHeadwayFields(a, b, x / 60, x % 60, x);
  }

  /** `"M:SS"` headways, as the config writes them, read as `z = 60*M + SS`
      seconds. */
  lemma {:induction false} ParseHeadwayMinSec(m: nat, sec: nat, z: int)
    requires sec < 60 && z == m * 60 + sec
    ensures ParseHeadway(MinSec(m, sec)) == Some(Every(z))
  {
    DecimalFieldRead(m);
    PyIntOfDigits(Clock.Pad2(sec));
    ParseHeadwayFields(DecimalString(m), Clock.Pad2(sec), m, sec, z);
  }

  lemma {:induction false} DecimalFieldRead(m: nat)
    ensures |DecimalString(m)| > 0 && Numeric(DecimalString(m))
    ensures PyInt(DecimalString(m)) == Some(m)
  {
    PyIntOfDecimal(m);
  }

  // ---------------------------------------------------------------------------
  // Slots

  /** One `START | END | HEADWAY` line of a config section. */
  datatype Slot = Slot(start: string, end: string, headway: Headway, period: Period)

  /** A stripped line that is blank, a `#` comment or a code fence. */
  predicate SkippedLine(l: string)
  {
    |l| == 0 || StartsWith(l, "#") || StartsWith(l, "```")
  }

  /** What one config line contributes: blank lines, `#` comments and code
      fences are skipped, lines without exactly three `|` fields are ignored,
      and a headway that fails to parse skips the line with a warning. */
  function ParseSlotLine(line: string): (r: Option<Slot>)
    ensures r.Some? ==> |Split(Strip(line), '|')| == 3
    ensures r.Some? ==> ParseHeadway(Split(Strip(line), '|')[2]) == Some(r.value.headway)
    ensures var l := Strip(line); var f := Split(l, '|');
      r.Some? <==> !SkippedLine(l) && |f| == 3 && ParseHeadway(f[2]).Some?
    ensures var f := Split(Strip(line), '|');
      r.Some? ==> r.value == Slot(Strip(f[0]), Strip(f[1]), ParseHeadway(f[2]).value, PeriodOf(f[2]))
  {
    var l := Strip(line);
    if SkippedLine(l) then None
    else
      var raw := Split(l, '|');
      if |raw| != 3 then None
      else
        var parts := [Strip(raw[0]), Strip(raw[1]), Strip(raw[2])];
        match ParseHeadway(parts[2])
        case Some(h) =>
          StripParseHeadway(raw[2]);
          Some(Slot(parts[0], parts[1], h, PeriodOf(parts[2])))
        case None =>
          StripParseHeadway(raw[2]);
          None
  }

  /** Stripping the field first does not change its headway. */
  lemma {:induction false} StripParseHeadway(s: string)
    ensures ParseHeadway(Strip(s)) == ParseHeadway(s)
    ensures PeriodOf(Strip(s)) == PeriodOf(s)
  {
    StripIdempotent(s);
  }

  lemma {:induction false} StripIdempotent(s: string)
    ensures Strip(Strip(s)) == Strip(s)
  {
    var t := Strip(s);
    if |t| > 0 {
      StripClean(t);
    }
  }

  /** `parse_slots` over the lines of a section, in order. */
  function SlotsOfLines(lines: seq<string>): (r: seq<Slot>)
    ensures |r| <= |lines|
    ensures forall k | 0 <= k < |r| :: exists i | 0 <= i < |lines| :: ParseSlotLine(lines[i]) == Some(r[k])
  {
    if |lines| == 0 then []
    else
      var rest := SlotsOfLines(lines[1..]);
      assert forall k | 0 <= k < |rest| :: exists i | 0 <= i < |lines| :: ParseSlotLine(lines[i]) == Some(rest[k]) by {
        forall k | 0 <= k < |rest| ensures exists i | 0 <= i < |lines| :: ParseSlotLine(lines[i]) == Some(rest[k]) {
          var i :| 0 <= i < |lines[1..]| && ParseSlotLine(lines[1..][i]) == Some(rest[k]);
          assert ParseSlotLine(lines[i + 1]) == Some(rest[k]);
        }
      }
      match ParseSlotLine(lines[0])
      case Some(slot) => [slot] + rest
      case None => rest
  }

  /** `parse_slots(section_text)`. */
  function ParseSlots(text: string): (r: seq<Slot>)
    ensures |r| <= |Split(Strip(text), '\n')|
    ensures forall k | 0 <= k < |r| :: (r[k].period == RushPeriod <==> r[k].headway == Rush)
    ensures var lines := Split(Strip(text), '\n');
      forall i | 0 <= i < |lines| && ParseSlotLine(lines[i]).Some? :: ParseSlotLine(lines[i]).value in r
  {
    var lines := Split(Strip(text), '\n');
    SlotsConsistent(lines);
    forall i | 0 <= i < |lines| && ParseSlotLine(lines[i]).Some?
      ensures ParseSlotLine(lines[i]).value in SlotsOfLines(lines)
    {
      SlotOfLine(lines, i);
    }
    SlotsOfLines(lines)
  }

  /** The slot of an accepted line is in the result, after exactly the
      slots of the lines before it. */
  lemma {:induction false} SlotOfLine(lines: seq<string>, i: nat)
    requires i < |lines| && ParseSlotLine(lines[i]).Some?
    ensures var k := |SlotsOfLines(lines[..i])|;
      k < |SlotsOfLines(lines)| && SlotsOfLines(lines)[k] == ParseSlotLine(lines[i]).value
  {
    var pre, post := lines[..i], lines[i..];
    assert lines == pre + post;
    SlotsOfLinesAppend(pre, post);
    assert post[0] == lines[i];
    var slot := ParseSlotLine(lines[i]).value;
    assert SlotsOfLines(post) == [slot] + SlotsOfLines(post[1..]);
    assert SlotsOfLines(lines) == SlotsOfLines(pre) + ([slot] + SlotsOfLines(post[1..]));
  }

  /** Every line that parses contributes its slot, and the slots keep the
      order of their lines. */
  lemma {:induction false} SlotsOfLinesAppend(a: seq<string>, b: seq<string>)
    ensures SlotsOfLines(a + b) == SlotsOfLines(a) + SlotsOfLines(b)
    decreases |a|
  {
    if |a| == 0 {
      assert a + b == b;
    } else {
      assert (a + b)[0] == a[0];
      assert (a + b)[1..] == a[1..] + b;
      SlotsOfLinesAppend(a[1..], b);
    }
  }

  /** Every slot parse_slots returns has a period consistent with its headway. */
  lemma {:induction false} SlotsConsistent(lines: seq<string>)
    ensures forall k | 0 <= k < |SlotsOfLines(lines)| ::
      (SlotsOfLines(lines)[k].period == RushPeriod <==> SlotsOfLines(lines)[k].headway == Rush)
    decreases |lines|
  {
    if |lines| > 0 {
      SlotsConsistent(lines[1..]);
      var l := Strip(lines[0]);
      var raw := Split(l, '|');
      if !SkippedLine(l) && |raw| == 3 && ParseHeadway(Strip(raw[2])).Some? {
        PeriodMatchesHeadway(Strip(raw[2]));
      }
    }
  }

  // ---------------------------------------------------------------------------
  // parse_time

  function UpperChar(c: char): char
  {
    if 'a' <= c <= 'z' then (c as int - 32) as char else c
  }

  /** `'AM' in s.upper() or 'PM' in s.upper()`. */
  predicate HasAmPm(s: string)
  {
    exists i | 0 <= i < |s| - 1 :: (UpperChar(s[i]) == 'A' || UpperChar(s[i]) == 'P') && UpperChar(s[i + 1]) == 'M'
  }

  /** The colon `parse_time` inserts into `"730"` and `"0730"` before parsing. */
  function InsertColon(t: string): (r: string)
    ensures ':' !in t && |t| == 3 ==> r == t[..1] + ":" + t[1..]
    ensures ':' !in t && |t| == 4 ==> r == t[..2] + ":" + t[2..]
    ensures (':' in t || (|t| != 3 && |t| != 4)) ==> r == t
    ensures ':' !in t && (|t| == 3 || |t| == 4) ==>
      |r| == |t| + 1 && r[|t| - 2] == ':' && r[..|t| - 2] + r[|t| - 1..] == t
  {
    if ':' in t then t
    else if |t| == 3 then t[..1] + ":" + t[1..]
    else if |t| == 4 then t[..2] + ":" + t[2..]
    else t
  }

  /** The colon `parse_time` inserts into text with AM or PM and no colon:
      the first word gets its colon as in `InsertColon` and the second word is
      kept after one space; any further words are dropped. With fewer than two
      words (`"730PM"`) the source's `split()[1]` raises, which is `None`. */
  function AmPmColon(t: string): (r: Option<string>)
    ensures r.None? <==> |Words(t)| < 2
    ensures r.Some? && |Words(t)[0]| != 3 && |Words(t)[0]| != 4 ==> r.value == t
    ensures ':' !in t && |Words(t)| >= 2 && (|Words(t)[0]| == 3 || |Words(t)[0]| == 4) ==>
      r == Some(InsertColon(Words(t)[0]) + " " + Words(t)[1])
  {
    var words := Words(t);
    if |words| < 2 then None
    else
      var part, marker := words[0], words[1];
      if |part| == 3 then Some(part[..1] + ":" + part[1..] + " " + marker)
      else if |part| == 4 then Some(part[..2] + ":" + part[2..] + " " + marker)
      else Some(t)
  }

  /** The text `parse_time` hands to strptime once it has stripped it and
      inserted a missing colon. */
  function PrepareTime(t: string): (r: Option<string>)
    ensures ':' in t ==> r == Some(t)
    ensures ':' !in t && !HasAmPm(t) ==> r == Some(InsertColon(t))
    ensures ':' !in t && HasAmPm(t) ==> r == AmPmColon(t)
    ensures ':' !in t && !HasAmPm(t) && (|t| == 3 || |t| == 4) ==>
      r.Some? && |r.value| == |t| + 1 && r.value[|t| - 2] == ':' && r.value[..|t| - 2] + r.value[|t| - 1..] == t
    ensures ':' !in t && HasAmPm(t) ==> (r.Some? <==> |Words(t)| >= 2)
  {
    if ':' in t then Some(t)
    else if HasAmPm(t) then AmPmColon(t)
    else Some(InsertColon(t))
  }

  /** `parse_time` as a second of the day: `%H:%M:%S`, then `%H:%M`, then
      `%I:%M %p`; `None` where the source raises. */
  function ParseTime(s: string): (r: Option<nat>)
    ensures r.Some? ==> r.value < Clock.SecondsPerDay
  {
    match PrepareTime(Strip(s))
    case None => None
    case Some(u) =>
      match Clock.ParseClock(u)
      case Some(t) => Some(t)
      case None =>
        match Clock.StrptimeIMp(u)
        case Some(m) => Some(m * 60)
        case None => None
  }

  lemma {:induction false} NoAmPmInDigitsAndColons(s: string)
    requires forall i | 0 <= i < |s| :: IsDigit(s[i]) || s[i] == ':'
    ensures !HasAmPm(s)
  {
  }

  /** `"730"` reads as 7:30. */
  lemma {:induction false} ParseTimeThreeDigits(h: nat, m: nat)
    requires h < 10 && m < 60
    ensures !HasAmPm([DigitChar(h)] + Clock.Pad2(m))
    ensures ParseTime([DigitChar(h)] + Clock.Pad2(m)) == Some((h * 60 + m) * 60)
  {
    ThreeDigitsPrepared(h, m);
    OneDigitHour(h, m);
    ParseTimeOfHM([DigitChar(h)] + Clock.Pad2(m), [DigitChar(h)] + ":" + Clock.Pad2(m), h, m);
  }

  lemma {:induction false} ThreeDigitsPrepared(h: nat, m: nat)
    requires h < 10 && m < 60
    ensures !HasAmPm([DigitChar(h)] + Clock.Pad2(m))
    ensures PrepareTime(Strip([DigitChar(h)] + Clock.Pad2(m))) == Some([DigitChar(h)] + ":" + Clock.Pad2(m))
  {
    var s := [DigitChar(h)] + Clock.Pad2(m);
    assert AllDigits(s);
    StripOfDigits(s);
    NoAmPmInDigitsAndColons(s);
    assert ':' !in s;
    assert s[..1] == [DigitChar(h)] && s[1..] == Clock.Pad2(m);
  }

  /** `"7:30"` splits into an hour field 7 and a minute field 30. */
  lemma {:induction false} OneDigitHour(h: nat, m: nat)
    requires h < 10 && m < 60
    ensures Split([DigitChar(h)] + ":" + Clock.Pad2(m), ':') == [[DigitChar(h)], Clock.Pad2(m)]
    ensures Clock.Field([DigitChar(h)], 23) == Some(h) && Clock.Field(Clock.Pad2(m), 59) == Some(m)
  {
    SplitAt([DigitChar(h)], ':', Clock.Pad2(m));
    assert Clock.Pad2(m) == Split(Clock.Pad2(m), ':')[0];
    assert DigitsValue([DigitChar(h)]) == h by {
      assert [DigitChar(h)][..0] == [];
    }
  }

  /** Text that, prepared, is an `H:MM` or `HH:MM` time reads as that
      minute's first second. */
  lemma {:induction false} ParseTimeOfHM(s: string, u: string, h: nat, m: nat)
    requires PrepareTime(Strip(s)) == Some(u) && |Split(u, ':')| == 2
    requires Clock.Field(Split(u, ':')[0], 23) == Some(h) && Clock.Field(Split(u, ':')[1], 59) == Some(m)
    ensures ParseTime(s) == Some((h * 60 + m) * 60)
  {
  }

  /** `"0730"` reads as 07:30. */
  lemma {:induction false} ParseTimeFourDigits(h: nat, m: nat)
    requires h < 24 && m < 60
    ensures !HasAmPm(Clock.Pad2(h) + Clock.Pad2(m))
    ensures ParseTime(Clock.Pad2(h) + Clock.Pad2(m)) == Some((h * 60 + m) * 60)
  {
    FourDigitsPrepared(h, m);
    ParseTimeOfMinute(Clock.Pad2(h) + Clock.Pad2(m), h * 60 + m);
  }

  lemma {:induction false} FourDigitsPrepared(h: nat, m: nat)
    requires h < 24 && m < 60
    ensures !HasAmPm(Clock.Pad2(h) + Clock.Pad2(m))
    ensures PrepareTime(Strip(Clock.Pad2(h) + Clock.Pad2(m))) == Some(Clock.FormatHM(h * 60 + m))
  {
    var s := Clock.Pad2(h) + Clock.Pad2(m);
    assert AllDigits(s);
    StripOfDigits(s);
    NoAmPmInDigitsAndColons(s);
    assert ':' !in s;
    assert InsertColon(s) == Clock.FormatHM(h * 60 + m) by {
      assert s[..2] == Clock.Pad2(h) && s[2..] == Clock.Pad2(m);
      assert (h * 60 + m) / 60 == h && (h * 60 + m) % 60 == m;
    }
  }

  /** Text that, prepared, is minute `n` spelled `HH:MM` reads as that
      minute's first second. */
  lemma {:induction false} ParseTimeOfMinute(s: string, n: nat)
    requires n < Clock.MinutesPerDay && PrepareTime(Strip(s)) == Some(Clock.FormatHM(n))
    ensures ParseTime(s) == Some(n * 60)
  {
    Clock.ParseFormatHM(n);
  }

  /** `parse_time(format_time(t)) == t`: the generator can re-read its own
      departure strings, so its arithmetic can be modelled in seconds. */
  lemma {:induction false} ParseTimeFormatHMS(t: nat)
    requires t < Clock.SecondsPerDay
    ensures !HasAmPm(Strip(Clock.FormatHMS(t)))
    ensures ParseTime(Clock.FormatHMS(t)) == Some(t)
  {
    var s := Clock.FormatHMS(t);
    assert s[0] == Clock.Pad2(t / 3600)[0] && s[7] == Clock.Pad2(t % 60)[1];
    StripClean(s);
    assert forall i | 0 <= i < |s| :: IsDigit(s[i]) || s[i] == ':' by {
      assert s == Clock.Pad2(t / 3600) + ":" + Clock.Pad2(t / 60 % 60) + ":" + Clock.Pad2(t % 60);
    }
    NoAmPmInDigitsAndColons(s);
    assert s[2] == ':';
    Clock.ParseFormatHMS(t);
  }

  /** `"7:30 PM"` and `"12:05 am"` read through the 12-hour format. */
  lemma {:induction false} ParseTimeTwelveHour(hour: string, m: nat, marker: string)
    requires Clock.Field(hour, 12).Some? && Clock.Field(hour, 12).value >= 1 && m < 60
    requires Clock.Meridiem(marker).Some?
    ensures ParseTime(hour + ":" + Clock.Pad2(m) + " " + marker)
         == Some(((Clock.Field(hour, 12).value % 12 + (if Clock.Meridiem(marker).value then 12 else 0)) * 60 + m) * 60)
  {
    var s := hour + ":" + Clock.Pad2(m) + " " + marker;
    assert s[0] == hour[0] && s[|s| - 1] == marker[1];
    assert !IsSpace(marker[1]) by { assert LowerChar(marker[1]) == 'm'; }
    StripClean(s);
    assert s[|hour|] == ':';
    Clock.ParseTwelveHour(hour, m, marker);
  }

  /** Without the colon (`"730 PM"`, `"0730 pm"`) the same time is read: the
      inserted colon restores the 12-hour text. */
  lemma {:induction false} ParseTimeTwelveHourNoColon(hour: string, m: nat, marker: string)
    requires Clock.Field(hour, 12).Some? && Clock.Field(hour, 12).value >= 1 && m < 60
    requires Clock.Meridiem(marker).Some?
    ensures ParseTime(hour + Clock.Pad2(m) + " " + marker) == ParseTime(hour + ":" + Clock.Pad2(m) + " " + marker)
  {
    var s := hour + Clock.Pad2(m) + " " + marker;
    var u := hour + ":" + Clock.Pad2(m) + " " + marker;
    assert PrepareTime(Strip(s)) == Some(u) by {
      NoColonStripped(hour, m, marker);
      NoColonPrepared(hour, m, marker);
    }
    assert PrepareTime(Strip(u)) == Some(u) by {
      assert !IsSpace(marker[1]) by { assert LowerChar(marker[1]) == 'm'; }
      assert u[0] == hour[0] && u[|u| - 1] == marker[1];
      StripClean(u);
      assert u[|hour|] == ':';
    }
    SamePrepared(s, u);
  }

  /** Texts prepared alike parse alike. */
  lemma {:induction false} SamePrepared(s: string, u: string)
    requires PrepareTime(Strip(s)) == PrepareTime(Strip(u))
    ensures ParseTime(s) == ParseTime(u)
  {
  }

  lemma {:induction false} NoColonStripped(hour: string, m: nat, marker: string)
    requires Clock.Field(hour, 12).Some? && m < 60
    requires Clock.Meridiem(marker).Some?
    ensures Strip(hour + Clock.Pad2(m) + " " + marker) == hour + Clock.Pad2(m) + " " + marker
  {
    var part := hour + Clock.Pad2(m);
    var s := part + " " + marker;
    assert AllDigits(part);
    assert !IsSpace(marker[1]) by { assert LowerChar(marker[1]) == 'm'; }
    assert s[0] == part[0] && s[|s| - 1] == marker[1];
    StripClean(s);
  }

  /** `"730 PM"` has AM or PM and no colon, so the colon is inserted into its
      first word. */
  lemma {:induction false} NoColonPrepared(hour: string, m: nat, marker: string)
    requires Clock.Field(hour, 12).Some? && m < 60
    requires Clock.Meridiem(marker).Some?
    ensures PrepareTime(hour + Clock.Pad2(m) + " " + marker) == Some(hour + ":" + Clock.Pad2(m) + " " + marker)
  {
    var part := hour + Clock.Pad2(m);
    var s := part + " " + marker;
    assert AllDigits(part);
    assert ':' !in s by {
      assert ':' !in part by {
        forall k | 0 <= k < |part| ensures part[k] != ':' { assert IsDigit(part[k]); }
      }
      assert ':' !in marker by {
        assert marker == [marker[0], marker[1]];
        assert LowerChar(marker[0]) != ':' && LowerChar(marker[1]) != ':';
      }
      assert s == part + (" " + marker);
    }
    assert HasAmPm(s) by {
      var i := |part| + 1;
      assert s[i] == marker[0] && s[i + 1] == marker[1];
      assert LowerChar(marker[0]) in "ap" && LowerChar(marker[1]) == 'm';
      assert UpperChar(s[i]) == 'A' || UpperChar(s[i]) == 'P';
    }
    NoColonWords(hour, m, marker);
  }

  lemma {:induction false} NoColonWords(hour: string, m: nat, marker: string)
    requires Clock.Field(hour, 12).Some? && m < 60
    requires Clock.Meridiem(marker).Some?
    ensures AmPmColon(hour + Clock.Pad2(m) + " " + marker) == Some(hour + ":" + Clock.Pad2(m) + " " + marker)
  {
    var part := hour + Clock.Pad2(m);
    assert AllDigits(part);
    assert !IsSpace(marker[0]) && !IsSpace(marker[1]) by {
      assert LowerChar(marker[0]) in "ap" && LowerChar(marker[1]) == 'm';
    }
    WordsOfTwo(part, " ", marker);
    if |hour| == 1 {
      assert part[..1] == hour && part[1..] == Clock.Pad2(m);
    } else {
      assert part[..2] == hour && part[2..] == Clock.Pad2(m);
    }
  }
}

=== FILE: gen_schedule.dfy ===
/** The timetable of one schedule (generate_timetable.py, `generate_schedule`):
    each platform's departures from its timing slots, de-duplicated keeping
    the first period seen and sorted, then every station's column of arrival
    times, index-aligned with the departures. */
module GenSchedule {
  import opened Wrappers
  import opened GenParse
  import opened GenTrains
  import opened GenOffsets
  import Clock
  import LexOrder
  import Timetable

  /** A departure text with the period of the slot that produced it. */
  type Tagged = (string, Period)

  /** `generate_train_times` raises on the slot: an end does not parse. */
  predicate SlotFails(slot: Slot)
  {
    ParseTime(slot.start).None? || ParseTime(slot.end).None?
  }

  /** Some slot of the list raises. */
  predicate AnyFails(slots: seq<Slot>)
  {
    exists i | 0 <= i < |slots| :: SlotFails(slots[i])
  }

  /** The slot loop stops: every slot's call returns, unless an earlier slot
      has already raised and ended the loop. */
  predicate SlotsRun(slots: seq<Slot>)
  {
    forall i | 0 <= i < |slots| ::
      Terminates(slots[i].start, slots[i].end, slots[i].headway) || exists j | 0 <= j < i :: SlotFails(slots[j])
  }

  /** `generate_schedule` stops: the Motijheel-bound slots run first, and the
      Uttara-North-bound ones only when none of those raised. */
  predicate ScheduleRuns(slotsMotijheel: seq<Slot>, slotsUttara: seq<Slot>)
  {
    SlotsRun(slotsMotijheel) && (AnyFails(slotsMotijheel) || SlotsRun(slotsUttara))
  }

  /** The tagged departures of one slot; `None` when its start or end does
      not parse. */
  function SlotTrains(slot: Slot): (r: Option<seq<Tagged>>)
    requires Terminates(slot.start, slot.end, slot.headway)
    ensures r.Some? <==> GenerateTrainTimes(slot.start, slot.end, slot.headway).Some?
    ensures r.Some? ==> forall x | x in r.value :: Clock.ClockText(x.0) && x.1 == slot.period
  {
    var ts := GenerateTrainTimes(slot.start, slot.end, slot.headway);
    if ts.Some? then Some(Tag(ts.value, slot.period)) else None
  }

  /** Each time paired with the slot's period. */
  function Tag(ts: seq<string>, p: Period): (r: seq<Tagged>)
    ensures |r| == |ts| && forall k | 0 <= k < |r| :: r[k].0 == ts[k] && r[k].1 == p
    ensures forall x | x in r :: x.0 in ts && x.1 == p
  {
    seq(|ts|, k requires 0 <= k < |ts| => (ts[k], p))
  }

  /** The parts one after another; `None` as soon as one part is `None`. */
  function Flatten(parts: seq<Option<seq<Tagged>>>): (r: Option<seq<Tagged>>)
    ensures r.Some? <==> forall i | 0 <= i < |parts| :: parts[i].Some?
    ensures r.Some? ==> forall x | x in r.value :: exists i | 0 <= i < |parts| :: parts[i].Some? && x in parts[i].value
    decreases |parts|
  {
    if |parts| == 0 then Some([])
    else
      var init := parts[..|parts| - 1];
      assert forall i | 0 <= i < |init| :: init[i] == parts[i];
      var before := Flatten(init);
      var last := parts[|parts| - 1];
      if before.Some? && last.Some? then Some(before.value + last.value) else None
  }

  /** Part `i` sits in the flattened list right after the parts before it. */
  lemma {:induction false} FlattenAt(parts: seq<Option<seq<Tagged>>>, i: nat)
    requires Flatten(parts).Some? && i < |parts|
    ensures Flatten(parts[..i]).Some? && parts[i].Some?
    ensures var n := |Flatten(parts[..i]).value|;
      n + |parts[i].value| <= |Flatten(parts).value|
      && Flatten(parts).value[n..n + |parts[i].value|] == parts[i].value
    decreases |parts|
  {
    var init := parts[..|parts| - 1];
    assert forall j | 0 <= j < |init| :: init[j] == parts[j];
    if i < |parts| - 1 {
      FlattenAt(init, i);
      assert init[..i] == parts[..i] && init[i] == parts[i];
    } else {
      assert init == parts[..i];
    }
  }

  /** `all_trains`: the departures of every slot, slot by slot, each tagged
      with its slot's period; `None` when some slot's start or end does not
      parse, since the loop raises there. */
  function AllTrains(slots: seq<Slot>): (r: Option<seq<Tagged>>)
    requires SlotsRun(slots)
    ensures r.Some? <==> !AnyFails(slots)
    ensures r.Some? ==> forall k | 0 <= k < |r.value| :: Clock.ClockText(r.value[k].0)
  {
    if AnyFails(slots) then None
    else
      assert forall i | 0 <= i < |slots| :: Terminates(slots[i].start, slots[i].end, slots[i].headway);
      var parts := seq(|slots|, i requires 0 <= i < |slots| => SlotTrains(slots[i]));
      assert forall i | 0 <= i < |parts| :: parts[i].Some? by {
        forall i | 0 <= i < |parts| ensures parts[i].Some? {
          GenerateTrainTimesSpec(slots[i].start, slots[i].end, slots[i].headway);
        }
      }
      var r := Flatten(parts);
      assert r.Some? ==> forall k | 0 <= k < |r.value| :: Clock.ClockText(r.value[k].0) by {
        if r.Some? {
          forall k | 0 <= k < |r.value| ensures Clock.ClockText(r.value[k].0) {
            assert r.value[k] in r.value;
            var i :| 0 <= i < |parts| && parts[i].Some? && r.value[k] in parts[i].value;
          }
        }
      }
      r
  }

  // ---------------------------------------------------------------------------
  // De-duplication: `seen[t] = p` only for a `t` not seen before

  /** The `seen` dictionary after the loop over `xs`. */
  function FirstSeen(xs: seq<Tagged>): (m: map<string, Period>)
    ensures m.Keys == set k | 0 <= k < |xs| :: xs[k].0
    decreases |xs|
  {
    if |xs| == 0 then map[]
    else
      var m := FirstSeen(xs[..|xs| - 1]);
      var last := xs[|xs| - 1];
      assert forall k | 0 <= k < |xs| - 1 :: xs[..|xs| - 1][k] == xs[k];
      if last.0 in m then m else m[last.0 := last.1]
  }

  /** A text keeps the period of its first occurrence. */
  lemma {:induction false} FirstSeenFirst(xs: seq<Tagged>, i: nat)
    requires i < |xs| && forall j | 0 <= j < i :: xs[j].0 != xs[i].0
    ensures FirstSeen(xs)[xs[i].0] == xs[i].1
    decreases |xs|
  {
    var init := xs[..|xs| - 1];
    if i < |xs| - 1 {
      assert forall j | 0 <= j < i :: init[j] == xs[j];
      FirstSeenFirst(init, i);
    } else {
      assert forall k | 0 <= k < |init| :: init[k].0 != xs[i].0 by {
        forall k | 0 <= k < |init| ensures init[k].0 != xs[i].0 {
          assert init[k] == xs[k];
        }
      }
    }
  }

  // ---------------------------------------------------------------------------
  // Sorting: `sorted(seen.items())` for keys in the generator's spelling

  /** The seconds from `t` to the end of the day that satisfy `present`, in
      increasing order. */
  function SecondsFrom(present: nat -> bool, t: nat): (r: seq<nat>)
    requires t <= Clock.SecondsPerDay
    ensures forall k | 0 <= k < |r| :: t <= r[k] < Clock.SecondsPerDay && present(r[k])
    ensures forall k | 0 < k < |r| :: r[k - 1] < r[k]
    ensures forall s | t <= s < Clock.SecondsPerDay && present(s) :: s in r
    decreases Clock.SecondsPerDay - t
  {
    if t == Clock.SecondsPerDay then []
    else
      var rest := SecondsFrom(present, t + 1);
      if present(t) then [t] + rest else rest
  }

  /** The seconds of the day whose `HH:MM:SS` text is a key of `m`, in
      increasing order. */
  function KeySeconds(m: map<string, Period>): (r: seq<nat>)
    ensures forall k | 0 <= k < |r| :: r[k] < Clock.SecondsPerDay && Clock.FormatHMS(r[k]) in m
    ensures forall k | 0 < k < |r| :: r[k - 1] < r[k]
    ensures forall s: nat | s < Clock.SecondsPerDay && Clock.FormatHMS(s) in m :: s in r
  {
    var present := (s: nat) => s < Clock.SecondsPerDay && Clock.FormatHMS(s) in m;
    SecondsFrom(present, 0)
  }

  /** `sorted(seen.items())`: the items in increasing order of their text,
      which for `HH:MM:SS` keys is the order of the seconds they name. */
  function SortedItems(m: map<string, Period>): (r: seq<Tagged>)
    ensures forall k | 0 <= k < |r| :: r[k].0 in m && r[k].1 == m[r[k].0]
  {
    var secs := KeySeconds(m);
    seq(|secs|, k requires 0 <= k < |secs| => (Clock.FormatHMS(secs[k]), m[Clock.FormatHMS(secs[k])]))
  }

  /** The items are in strictly increasing text order, so no text repeats. */
  lemma {:induction false} SortedItemsIncrease(m: map<string, Period>)
    ensures forall i, j | 0 <= i < j < |SortedItems(m)| :: LexOrder.Less(SortedItems(m)[i].0, SortedItems(m)[j].0)
  {
    var secs := KeySeconds(m);
    var r := SortedItems(m);
    forall i, j | 0 <= i < j < |r|
      ensures LexOrder.Less(r[i].0, r[j].0)
    {
      IncreasingFar(secs, i, j);
      Clock.FormatHMSOrder(secs[i], secs[j]);
    }
  }

  /** Every key in the generator's spelling is among the items. */
  lemma {:induction false} SortedItemsComplete(m: map<string, Period>, x: string)
    requires x in m && Clock.ClockText(x)
    ensures exists k | 0 <= k < |SortedItems(m)| :: SortedItems(m)[k].0 == x
  {
    var secs := KeySeconds(m);
    var t := Clock.ParseClock(x).value;
    assert Clock.FormatHMS(t) in m;
    assert t in secs;
    var k :| 0 <= k < |secs| && secs[k] == t;
    assert SortedItems(m)[k].0 == x;
  }

  /** A sequence that increases step by step increases between any two positions. */
  lemma {:induction false} IncreasingFar(s: seq<nat>, i: nat, j: nat)
    requires forall k | 0 < k < |s| :: s[k - 1] < s[k]
    requires i < j < |s|
    ensures s[i] < s[j]
    decreases j - i
  {
    if i + 1 < j {
      IncreasingFar(s, i + 1, j);
    }
  }

  /** One platform's departure list: `all_trains` with repeats removed
      (keeping the first period) and sorted. */
  function Platform(slots: seq<Slot>): (r: Option<seq<Tagged>>)
    requires SlotsRun(slots)
    ensures r.Some? <==> AllTrains(slots).Some?
  {
    var xs := AllTrains(slots);
    if xs.Some? then Some(SortedItems(FirstSeen(xs.value))) else None
  }

  /** The platform list is in strictly increasing text order, hence free of
      repeats. */
  lemma {:induction false} PlatformIncreases(slots: seq<Slot>)
    requires SlotsRun(slots) && Platform(slots).Some?
    ensures var r := Platform(slots).value;
      forall i, j | 0 <= i < j < |r| :: LexOrder.Less(r[i].0, r[j].0)
  {
    SortedItemsIncrease(FirstSeen(AllTrains(slots).value));
  }

  /** The platform list holds exactly the texts the slots produced. */
  lemma {:induction false} PlatformTexts(slots: seq<Slot>)
    requires SlotsRun(slots) && Platform(slots).Some?
    ensures var r, xs := Platform(slots).value, AllTrains(slots).value;
      (set k | 0 <= k < |r| :: r[k].0) == (set k | 0 <= k < |xs| :: xs[k].0)
  {
    var xs := AllTrains(slots).value;
    var m := FirstSeen(xs);
    var r := Platform(slots).value;
    assert r == SortedItems(m);
    forall x | x in m ensures exists k | 0 <= k < |r| :: r[k].0 == x {
      var i :| 0 <= i < |xs| && xs[i].0 == x;
      assert Clock.ClockText(xs[i].0);
      SortedItemsComplete(m, x);
    }
  }

  /** Each text of the platform list keeps the period of its first
      occurrence in `all_trains`. */
  lemma {:induction false} PlatformFirstPeriod(slots: seq<Slot>, k: nat, i: nat)
    requires SlotsRun(slots) && Platform(slots).Some?
    requires k < |Platform(slots).value| && i < |AllTrains(slots).value|
    requires AllTrains(slots).value[i].0 == Platform(slots).value[k].0
    requires forall j | 0 <= j < i :: AllTrains(slots).value[j].0 != AllTrains(slots).value[i].0
    ensures Platform(slots).value[k].1 == AllTrains(slots).value[i].1
  {
    var xs := AllTrains(slots).value;
    assert Platform(slots).value == SortedItems(FirstSeen(xs));
    FirstSeenFirst(xs, i);
  }

  // ---------------------------------------------------------------------------
  // Station columns

  /** `offsets_by_period` for one direction: the offsets of the rush,
      off-peak and custom periods, `None` when any of them fails. Each is
      what `ComputeStationOffsets` returns. */
  function PeriodOffsets(cfg: WaitConfig, j: Journey): (r: Option<map<Period, map<string, int>>>)
    ensures r.Some? <==> StationOffsets(cfg, j, RushPeriod).Some? && StationOffsets(cfg, j, OffpeakPeriod).Some?
                         && StationOffsets(cfg, j, CustomPeriod).Some?
    ensures r.Some? ==> r.value.Keys == {RushPeriod, OffpeakPeriod, CustomPeriod}
    ensures r.Some? ==>
      r.value[RushPeriod] == StationOffsets(cfg, j, RushPeriod).value
      && r.value[OffpeakPeriod] == StationOffsets(cfg, j, OffpeakPeriod).value
      && r.value[CustomPeriod] == StationOffsets(cfg, j, CustomPeriod).value
  {
    ByPeriod(StationOffsets(cfg, j, RushPeriod), StationOffsets(cfg, j, OffpeakPeriod),
             StationOffsets(cfg, j, CustomPeriod))
  }

  /** The dictionary of the three periods' offsets, `None` when one is
      missing. */
  function ByPeriod(rush: Option<map<string, int>>, offpeak: Option<map<string, int>>,
                    custom: Option<map<string, int>>): (r: Option<map<Period, map<string, int>>>)
    ensures r.Some? <==> rush.Some? && offpeak.Some? && custom.Some?
    ensures r.Some? ==> r.value.Keys == {RushPeriod, OffpeakPeriod, CustomPeriod}
    ensures r.Some? ==>
      r.value[RushPeriod] == rush.value && r.value[OffpeakPeriod] == offpeak.value
      && r.value[CustomPeriod] == custom.value
  {
    if rush.Some? && offpeak.Some? && custom.Some? then
      Some(map[RushPeriod := rush.value, OffpeakPeriod := offpeak.value, CustomPeriod := custom.value])
    else None
  }

  /** Each period's entry of the offsets is that period's offsets. */
  lemma {:induction false} PeriodOffsetsAt(cfg: WaitConfig, j: Journey, p: Period)
    requires PeriodOffsets(cfg, j).Some?
    ensures StationOffsets(cfg, j, p).Some? && p in PeriodOffsets(cfg, j).value
    ensures PeriodOffsets(cfg, j).value[p] == StationOffsets(cfg, j, p).value
  {
  }

  /** A departure as `parse_time` reads it, with its period. */
  type Reading = (Option<nat>, Period)

  /** Each departure of a platform list read back with `parse_time`. */
  function Readings(trains: seq<Tagged>): (r: seq<Reading>)
    ensures |r| == |trains| && forall k | 0 <= k < |trains| :: r[k].1 == trains[k].1
  {
    seq(|trains|, k requires 0 <= k < |trains| => (ParseTime(trains[k].0), trains[k].1))
  }

  /** One arrival as a second of the day: the departure plus the station's
      offset for the departure's period, modulo a day (a `datetime` plus a
      `timedelta`, printed without the date). `None` where the source
      raises: a missing period or station key, or a departure that does not
      parse. */
  function Arrival(d: Reading, offsets: map<Period, map<string, int>>, station: string): (r: Option<int>)
    ensures r.Some? <==> d.0.Some? && d.1 in offsets && station in offsets[d.1]
    ensures r.Some? ==> 0 <= r.value < Clock.SecondsPerDay
  {
    if d.0.Some? && d.1 in offsets && station in offsets[d.1] then
      Some(Clock.After(d.0.value, offsets[d.1][station]))
    else None
  }

  /** The arrival seconds of a station for every departure, in order. */
  function ArrivalSeconds(ds: seq<Reading>, offsets: map<Period, map<string, int>>, station: string): (r: Option<seq<int>>)
    ensures r.Some? <==> forall k | 0 <= k < |ds| :: Arrival(ds[k], offsets, station).Some?
    ensures r.Some? ==>
      |r.value| == |ds| && forall k | 0 <= k < |ds| :: Some(r.value[k]) == Arrival(ds[k], offsets, station)
    decreases |ds|
  {
    if |ds| == 0 then Some([])
    else
      var init := ds[..|ds| - 1];
      assert forall k | 0 <= k < |init| :: init[k] == ds[k];
      var c := ArrivalSeconds(init, offsets, station);
      var a := Arrival(ds[|ds| - 1], offsets, station);
      if c.Some? && a.Some? then Some(c.value + [a.value]) else None
  }

  /** A station's column for one direction: each arrival written as
      `HH:MM:SS`, index-aligned with the departures. */
  function Column(ds: seq<Reading>, offsets: map<Period, map<string, int>>, station: string): (r: Option<seq<string>>)
    ensures r.Some? <==> ArrivalSeconds(ds, offsets, station).Some?
    ensures r.Some? ==> |r.value| == |ds|
  {
    var t := ArrivalSeconds(ds, offsets, station);
    if t.Some? then
      Some(seq(|t.value|, k requires 0 <= k < |t.value| => Clock.FormatHMS(t.value[k])))
    else None
  }

  /** Entry `k` of a column is the time of day the station's offset for
      that departure's period after departure `k`. */
  lemma {:induction false} ColumnReadsBack(ds: seq<Reading>, offsets: map<Period, map<string, int>>, station: string, k: nat)
    requires Column(ds, offsets, station).Some? && k < |ds|
    ensures ds[k].0.Some? && ds[k].1 in offsets && station in offsets[ds[k].1]
    ensures Column(ds, offsets, station).value[k]
         == Clock.FormatHMS(Clock.After(ds[k].0.value, offsets[ds[k].1][station]))
  {
    var t := ArrivalSeconds(ds, offsets, station).value;
    assert Some(t[k]) == Arrival(ds[k], offsets, station);
  }

  /** Both columns of a station exist. */
  predicate HasColumns(toMotijheel: seq<Reading>, toUttara: seq<Reading>,
                       offsetsM: map<Period, map<string, int>>, offsetsU: map<Period, map<string, int>>, s: string)
  {
    Column(toMotijheel, offsetsM, s).Some? && Column(toUttara, offsetsU, s).Some?
  }

  /** `complete_timetable` for the stations `names`: each station maps to
      its two columns, keyed by the terminus the trains run to; `None` when
      any column fails, whichever station the loop would have failed at. */
  function Build(names: seq<string>, toMotijheel: seq<Reading>, toUttara: seq<Reading>,
                 offsetsM: map<Period, map<string, int>>, offsetsU: map<Period, map<string, int>>): (r: Option<Timetable.Table>)
    ensures r.Some? <==> forall s | s in names :: HasColumns(toMotijheel, toUttara, offsetsM, offsetsU, s)
    ensures r.Some? ==> r.value.Keys == set s | s in names
  {
    if forall s | s in names :: HasColumns(toMotijheel, toUttara, offsetsM, offsetsU, s) then
      Some(map s | s in names :: map[Timetable.Motijheel := Column(toMotijheel, offsetsM, s).value,
                                     Timetable.UttaraNorth := Column(toUttara, offsetsU, s).value])
    else None
  }

  /** `generate_schedule`: the timetable one schedule's slots produce;
      `None` where the source raises. */
  function GenerateSchedule(cfg: WaitConfig, slotsMotijheel: seq<Slot>, slotsUttara: seq<Slot>): (r: Option<Timetable.Table>)
    requires ScheduleRuns(slotsMotijheel, slotsUttara)
    ensures r.Some? ==> !AnyFails(slotsMotijheel) && !AnyFails(slotsUttara)
  {
    var pm := Platform(slotsMotijheel);
    if pm.None? then None
    else
      var pu := Platform(slotsUttara);
      var om, ou := PeriodOffsets(cfg, ToMotijheel), PeriodOffsets(cfg, ToUttara);
      if pu.Some? && om.Some? && ou.Some? then
        Build(Names(ToMotijheel), Readings(pm.value), Readings(pu.value), om.value, ou.value)
      else None
  }
  /** A first Motijheel-bound slot whose time does not parse raises before
      any other slot runs: the schedule is `None` whatever the later slots
      of either platform are, even ones whose loop would never end. */
  lemma {:induction false} FirstSlotRaises(cfg: WaitConfig, slotsMotijheel: seq<Slot>, slotsUttara: seq<Slot>)
    requires |slotsMotijheel| > 0 && SlotFails(slotsMotijheel[0])
    ensures ScheduleRuns(slotsMotijheel, slotsUttara)
    ensures GenerateSchedule(cfg, slotsMotijheel, slotsUttara).None?
  {
    assert AnyFails(slotsMotijheel);
  }

  // ---------------------------------------------------------------------------
  // Properties of the whole timetable

  /** `parse_time` reads the generator's own spelling as `%H:%M:%S` does. */
  lemma {:induction false} ParseTimeClockText(x: string)
    requires Clock.ClockText(x)
    ensures ParseTime(x) == Clock.ParseClock(x)
  {
    ParseTimeFormatHMS(Clock.ParseClock(x).value);
  }

  /** Both journey tables name the same stations: the line's. */
  lemma {:induction false} SameStations(s: string)
    ensures s in Names(ToMotijheel) <==> s in Timetable.StationsOrder
    ensures s in Names(ToUttara) <==> s in Timetable.StationsOrder
  {
    JourneyStations();
    JourneyStationsReversed();
    ReversedMembers(Names(ToUttara), Timetable.StationsOrder, s);
  }

  /** A list and its reverse have the same members. */
  lemma {:induction false} ReversedMembers(a: seq<string>, b: seq<string>, s: string)
    requires |a| == |b| && forall k | 0 <= k < |a| :: a[k] == b[|a| - 1 - k]
    ensures s in a <==> s in b
  {
    var n := |a|;
    if s in b {
      var k :| 0 <= k < n && b[k] == s;
      assert a[n - 1 - k] == s;
    }
    if s in a {
      var k :| 0 <= k < n && a[k] == s;
    }
  }

  /** The stations of the Motijheel-bound journey, as a set, are the line's. */
  lemma {:induction false} JourneyNames()
    ensures (set x | x in Names(ToMotijheel)) == (set x | x in Timetable.StationsOrder)
  {
    JourneyStations();
  }

  /** Every departure of a platform list reads back, so its column exists for
      every station of a journey whose offsets all exist. */
  lemma {:induction false} ColumnExists(trains: seq<Tagged>, cfg: WaitConfig, j: Journey, station: string)
    requires forall k | 0 <= k < |trains| :: Clock.ClockText(trains[k].0)
    requires PeriodOffsets(cfg, j).Some? && station in Names(j)
    ensures Column(Readings(trains), PeriodOffsets(cfg, j).value, station).Some?
  {
    var offsets := PeriodOffsets(cfg, j).value;
    var ds := Readings(trains);
    forall k | 0 <= k < |ds|
      ensures Arrival(ds[k], offsets, station).Some?
    {
      ParseTimeClockText(trains[k].0);
      PeriodOffsetsAt(cfg, j, ds[k].1);
    }
  }

  /** The platform list's texts are in the generator's spelling. */
  lemma {:induction false} PlatformClockTexts(slots: seq<Slot>)
    requires SlotsRun(slots) && Platform(slots).Some?
    ensures forall k | 0 <= k < |Platform(slots).value| :: Clock.ClockText(Platform(slots).value[k].0)
  {
    var r := Platform(slots).value;
    var xs := AllTrains(slots).value;
    PlatformTexts(slots);
    forall k | 0 <= k < |r| ensures Clock.ClockText(r[k].0) {
      assert r[k].0 in (set k | 0 <= k < |r| :: r[k].0);
    }
  }

  /** Every row `Build` makes has the two direction columns, each as long as
      its direction's departure list. */
  lemma {:induction false} BuildShape(names: seq<string>, toMotijheel: seq<Reading>, toUttara: seq<Reading>,
                                      offsetsM: map<Period, map<string, int>>, offsetsU: map<Period, map<string, int>>)
    requires Build(names, toMotijheel, toUttara, offsetsM, offsetsU).Some?
    ensures var tt := Build(names, toMotijheel, toUttara, offsetsM, offsetsU).value;
      forall s | s in tt ::
        tt[s].Keys == {Timetable.Motijheel, Timetable.UttaraNorth}
        && |tt[s][Timetable.Motijheel]| == |toMotijheel|
        && |tt[s][Timetable.UttaraNorth]| == |toUttara|
  {
    var tt := Build(names, toMotijheel, toUttara, offsetsM, offsetsU).value;
    forall s | s in tt
      ensures tt[s].Keys == {Timetable.Motijheel, Timetable.UttaraNorth}
      ensures |tt[s][Timetable.Motijheel]| == |toMotijheel|
      ensures |tt[s][Timetable.UttaraNorth]| == |toUttara|
    {
      assert HasColumns(toMotijheel, toUttara, offsetsM, offsetsU, s);
    }
  }

  /** Row `s` of `Build` holds the two columns computed for `s`. */
  lemma {:induction false} BuildRow(names: seq<string>, toMotijheel: seq<Reading>, toUttara: seq<Reading>,
                                    offsetsM: map<Period, map<string, int>>, offsetsU: map<Period, map<string, int>>, s: string)
    requires Build(names, toMotijheel, toUttara, offsetsM, offsetsU).Some? && s in names
    ensures HasColumns(toMotijheel, toUttara, offsetsM, offsetsU, s)
    ensures var tt := Build(names, toMotijheel, toUttara, offsetsM, offsetsU).value;
      tt[s][Timetable.Motijheel] == Column(toMotijheel, offsetsM, s).value
      && tt[s][Timetable.UttaraNorth] == Column(toUttara, offsetsU, s).value
  {
  }

  /** A departure in the generator's spelling reads back as `%H:%M:%S`
      reads it. */
  lemma {:induction false} ReadingAt(trains: seq<Tagged>, k: nat)
    requires k < |trains| && Clock.ClockText(trains[k].0)
    ensures Readings(trains)[k].0 == Clock.ParseClock(trains[k].0)
  {
    ParseTimeClockText(trains[k].0);
  }

  /** Once both platforms and all offsets exist, so does every station's
      pair of columns. */
  lemma {:induction false} ScheduleExists(cfg: WaitConfig, slotsMotijheel: seq<Slot>, slotsUttara: seq<Slot>)
    requires ScheduleRuns(slotsMotijheel, slotsUttara)
    requires Platform(slotsMotijheel).Some? && Platform(slotsUttara).Some?
    requires PeriodOffsets(cfg, ToMotijheel).Some? && PeriodOffsets(cfg, ToUttara).Some?
    ensures GenerateSchedule(cfg, slotsMotijheel, slotsUttara).Some?
  {
    var pm, pu := Platform(slotsMotijheel).value, Platform(slotsUttara).value;
    var om, ou := PeriodOffsets(cfg, ToMotijheel).value, PeriodOffsets(cfg, ToUttara).value;
    PlatformClockTexts(slotsMotijheel);
    PlatformClockTexts(slotsUttara);
    forall s | s in Names(ToMotijheel)
      ensures HasColumns(Readings(pm), Readings(pu), om, ou, s)
    {
      SameStations(s);
      ColumnExists(pm, cfg, ToMotijheel, s);
      ColumnExists(pu, cfg, ToUttara, s);
    }
  }

  /** `generate_schedule` fails only where `generate_train_times` or
      `compute_station_offsets` raise: once every platform and every period's
      offsets exist, every dictionary lookup and every `parse_time` of a
      departure succeeds. */
  lemma {:induction false} ScheduleDefined(cfg: WaitConfig, slotsMotijheel: seq<Slot>, slotsUttara: seq<Slot>)
    requires ScheduleRuns(slotsMotijheel, slotsUttara)
    ensures GenerateSchedule(cfg, slotsMotijheel, slotsUttara).Some? <==>
      !AnyFails(slotsMotijheel) && !AnyFails(slotsUttara)
      && PeriodOffsets(cfg, ToMotijheel).Some? && PeriodOffsets(cfg, ToUttara).Some?
  {
    if !AnyFails(slotsMotijheel) && !AnyFails(slotsUttara)
      && PeriodOffsets(cfg, ToMotijheel).Some? && PeriodOffsets(cfg, ToUttara).Some?
    {
      ScheduleExists(cfg, slotsMotijheel, slotsUttara);
    }
  }

  /** The timetable has a row for each station of the line, with the two
      direction columns, each as long as its platform's departure list:
      train `k` of a direction is entry `k` of every station's list. */
  lemma {:induction false} ScheduleShape(cfg: WaitConfig, slotsMotijheel: seq<Slot>, slotsUttara: seq<Slot>)
    requires ScheduleRuns(slotsMotijheel, slotsUttara)
    requires GenerateSchedule(cfg, slotsMotijheel, slotsUttara).Some?
    ensures Platform(slotsMotijheel).Some? && Platform(slotsUttara).Some?
    ensures var tt := GenerateSchedule(cfg, slotsMotijheel, slotsUttara).value;
      tt.Keys == (set x | x in Timetable.StationsOrder)
      && forall s | s in tt ::
        tt[s].Keys == {Timetable.Motijheel, Timetable.UttaraNorth}
        && |tt[s][Timetable.Motijheel]| == |Platform(slotsMotijheel).value|
        && |tt[s][Timetable.UttaraNorth]| == |Platform(slotsUttara).value|
  {
    var pm, pu := Platform(slotsMotijheel).value, Platform(slotsUttara).value;
    var om, ou := PeriodOffsets(cfg, ToMotijheel).value, PeriodOffsets(cfg, ToUttara).value;
    BuildShape(Names(ToMotijheel), Readings(pm), Readings(pu), om, ou);
    JourneyNames();
  }

  /** Entry `k` of a station's Motijheel-bound column is
      `format_time` of the time of day the station's offset for the
      departure's period after departure `k` from Uttara North. */
  lemma {:induction false} ScheduleEntryToMotijheel(cfg: WaitConfig, slotsMotijheel: seq<Slot>, slotsUttara: seq<Slot>, s: string, k: nat)
    requires ScheduleRuns(slotsMotijheel, slotsUttara)
    requires GenerateSchedule(cfg, slotsMotijheel, slotsUttara).Some?
    requires s in Timetable.StationsOrder
    requires Platform(slotsMotijheel).Some? && k < |Platform(slotsMotijheel).value|
    ensures var pm := Platform(slotsMotijheel).value;
      Clock.ClockText(pm[k].0) && StationOffsets(cfg, ToMotijheel, pm[k].1).Some?
      && s in StationOffsets(cfg, ToMotijheel, pm[k].1).value
    ensures var tt, pm := GenerateSchedule(cfg, slotsMotijheel, slotsUttara).value, Platform(slotsMotijheel).value;
      s in tt && Timetable.Motijheel in tt[s] && k < |tt[s][Timetable.Motijheel]|
      && tt[s][Timetable.Motijheel][k]
         == Clock.FormatHMS(Clock.After(Clock.ParseClock(pm[k].0).value, StationOffsets(cfg, ToMotijheel, pm[k].1).value[s]))
  {
    var pm, pu := Platform(slotsMotijheel).value, Platform(slotsUttara).value;
    var om, ou := PeriodOffsets(cfg, ToMotijheel).value, PeriodOffsets(cfg, ToUttara).value;
    SameStations(s);
    BuildRow(Names(ToMotijheel), Readings(pm), Readings(pu), om, ou, s);
    PlatformClockTexts(slotsMotijheel);
    ReadingAt(pm, k);
    PeriodOffsetsAt(cfg, ToMotijheel, pm[k].1);
    ColumnReadsBack(Readings(pm), om, s, k);
  }

  /** Entry `k` of a station's Uttara-North-bound column is
      `format_time` of the time of day the station's offset for the
      departure's period after departure `k` from Motijheel. */
  lemma {:induction false} ScheduleEntryToUttara(cfg: WaitConfig, slotsMotijheel: seq<Slot>, slotsUttara: seq<Slot>, s: string, k: nat)
    requires ScheduleRuns(slotsMotijheel, slotsUttara)
    requires GenerateSchedule(cfg, slotsMotijheel, slotsUttara).Some?
    requires s in Timetable.StationsOrder
    requires Platform(slotsUttara).Some? && k < |Platform(slotsUttara).value|
    ensures var pu := Platform(slotsUttara).value;
      Clock.ClockText(pu[k].0) && StationOffsets(cfg, ToUttara, pu[k].1).Some?
      && s in StationOffsets(cfg, ToUttara, pu[k].1).value
    ensures var tt, pu := GenerateSchedule(cfg, slotsMotijheel, slotsUttara).value, Platform(slotsUttara).value;
      s in tt && Timetable.UttaraNorth in tt[s] && k < |tt[s][Timetable.UttaraNorth]|
      && tt[s][Timetable.UttaraNorth][k]
         == Clock.FormatHMS(Clock.After(Clock.ParseClock(pu[k].0).value, StationOffsets(cfg, ToUttara, pu[k].1).value[s]))
  {
    var pm, pu := Platform(slotsMotijheel).value, Platform(slotsUttara).value;
    var om, ou := PeriodOffsets(cfg, ToMotijheel).value, PeriodOffsets(cfg, ToUttara).value;
    SameStations(s);
    BuildRow(Names(ToMotijheel), Readings(pm), Readings(pu), om, ou, s);
    PlatformClockTexts(slotsUttara);
    ReadingAt(pu, k);
    PeriodOffsetsAt(cfg, ToUttara, pu[k].1);
    ColumnReadsBack(Readings(pu), ou, s, k);
  }
}

=== FILE: gen_trains.dfy ===
/** Departure times of one timing slot in the timetable generator
    (generate_timetable.py, `generate_train_times`): trains leave from the
    slot's start up to, but not including, its end, one headway apart; a
    rush headway alternates between 6:00 and 5:30, starting with 6:00. */
module GenTrains {
  import opened Wrappers
  import opened Strings
  import opened GenParse
  import Clock

  /** `RUSH_HEADWAYS`: the alternating rush gaps, in seconds. */
  const RushHeadways: seq<int> := [360, 330]

  /** A headway the generator's loop moves forward with: the rush pattern or
      a positive number of seconds. */
  predicate Advances(h: Headway)
  {
    h.Every? ==> h.seconds > 0
  }

  /** The gap after a departure: the rush gap the toggle points at, or the
      fixed headway. */
  function Interval(h: Headway, toggle: nat): (s: int)
    requires toggle < 2 && Advances(h)
    ensures s > 0
    ensures h.Rush? ==> s == RushHeadways[toggle]
    ensures h.Every? ==> s == h.seconds
  {
    if h.Rush? then RushHeadways[toggle] else h.seconds
  }

  /** The toggle after a departure: it flips under the rush pattern only. */
  function NextToggle(h: Headway, toggle: nat): (t: nat)
    requires toggle < 2
    ensures t < 2
    ensures h.Rush? ==> t == 1 - toggle
    ensures h.Every? ==> t == toggle
  {
    if h.Rush? then 1 - toggle else toggle
  }

  /** The departures of the loop from `cur` while it is before `end`, as
      seconds counted from the start day's midnight (no wrap-around yet). */
  function Departures(cur: int, end: int, h: Headway, toggle: nat): (d: seq<int>)
    requires toggle < 2 && Advances(h)
    ensures |d| == 0 <==> cur >= end
    ensures |d| > 0 ==> d[0] == cur
    ensures forall k | 0 <= k < |d| :: cur <= d[k] < end
    ensures forall k | 0 < k < |d| :: d[k - 1] < d[k]
    decreases end - cur
  {
    if cur >= end then []
    else [cur] + Departures(cur + Interval(h, toggle), end, h, NextToggle(h, toggle))
  }

  /** The number of departures a fixed headway `x` fits into `len`
      seconds: the loop runs while the elapsed time is below `len`. */
  function Fits(len: int, x: int): (n: nat)
    requires x > 0
  {
    if len > 0 then (len - 1) / x + 1 else 0
  }

  lemma {:induction false} MulAtLeast(a: int, x: int)
    requires a >= 1 && x > 0
    ensures a * x >= x
    decreases a
  {
    if a > 1 {
      MulAtLeast(a - 1, x);
      assert a * x == (a - 1) * x + x;
    }
  }

  /** Euclidean division has one quotient. */
  lemma {:induction false} DivUnique(n: int, x: int, q: int, r: int)
    requires x > 0 && 0 <= r < x && n == q * x + r
    ensures n / x == q
  {
    var q', r' := n / x, n % x;
    assert (q - q') * x == r' - r;
    if q > q' {
      MulAtLeast(q - q', x);
    } else if q < q' {
      MulAtLeast(q' - q, x);
    }
  }

  /** One more headway in the slot is one more departure. */
  lemma {:induction false} FitsStep(len: int, x: int)
    requires x > 0 && len > 0
    ensures Fits(len, x) == Fits(len - x, x) + 1
  {
    if len - x > 0 {
      var q, r := (len - x - 1) / x, (len - x - 1) % x;
      assert len - 1 == (q + 1) * x + r;
      DivUnique(len - 1, x, q + 1, r);
    } else {
      DivUnique(len - 1, x, 0, len - 1);
    }
  }

  /** A fixed headway: departure `k` leaves `k` headways after the first,
      and there are as many departures as headways fit, rounded up. */
  lemma {:induction false} DeparturesEvery(cur: int, end: int, x: int, toggle: nat)
    requires toggle < 2 && x > 0
    ensures |Departures(cur, end, Every(x), toggle)| == Fits(end - cur, x)
    ensures forall k | 0 <= k < |Departures(cur, end, Every(x), toggle)| ::
      Departures(cur, end, Every(x), toggle)[k] == cur + k * x
    decreases end - cur
  {
    if cur < end {
      var d := Departures(cur, end, Every(x), toggle);
      var rest := Departures(cur + x, end, Every(x), toggle);
      DeparturesEvery(cur + x, end, x, toggle);
      assert d == [cur] + rest;
      FitsStep(end - cur, x);
      assert end - (cur + x) == end - cur - x;
      forall k | 0 < k < |d|
        ensures d[k] == cur + k * x
      {
        assert d[k] == rest[k - 1] == cur + x + (k - 1) * x;
        assert x + (k - 1) * x == k * x;
      }
    }
  }

  /** The rush pattern: the gaps alternate, the first one being the one the
      toggle starts at (6:00 for a fresh slot). */
  lemma {:induction false} DeparturesRush(cur: int, end: int, toggle: nat)
    requires toggle < 2
    ensures forall k | 0 < k < |Departures(cur, end, Rush, toggle)| ::
      Departures(cur, end, Rush, toggle)[k] - Departures(cur, end, Rush, toggle)[k - 1]
        == RushHeadways[(toggle + k - 1) % 2]
    decreases end - cur
  {
    if cur < end {
      var next := cur + RushHeadways[toggle];
      var rest := Departures(next, end, Rush, 1 - toggle);
      DeparturesRush(next, end, 1 - toggle);
      assert Departures(cur, end, Rush, toggle) == [cur] + rest;
      RushGapsCons(cur, rest, toggle);
    }
  }

  /** Putting a departure one rush gap before a list of alternating gaps
      that starts with the other gap keeps the gaps alternating. */
  lemma {:induction false} RushGapsCons(cur: int, rest: seq<int>, toggle: nat)
    requires toggle < 2
    requires |rest| > 0 ==> rest[0] == cur + RushHeadways[toggle]
    requires forall k | 0 < k < |rest| :: rest[k] - rest[k - 1] == RushHeadways[(1 - toggle + k - 1) % 2]
    ensures var d := [cur] + rest;
      forall k | 0 < k < |d| :: d[k] - d[k - 1] == RushHeadways[(toggle + k - 1) % 2]
  {
    var d := [cur] + rest;
    forall k | 0 < k < |d|
      ensures d[k] - d[k - 1] == RushHeadways[(toggle + k - 1) % 2]
    {
      if k > 1 {
        assert d[k] - d[k - 1] == rest[k - 1] - rest[k - 2];
        assert (1 - toggle + k - 2) % 2 == (toggle + k - 1) % 2;
      }
    }
  }

  /** A multiple of `x` less one `x` is still a multiple of `x`. */
  lemma {:induction false} MultipleStep(n: int, x: int)
    requires x > 0 && n > 0 && n % x == 0
    ensures n >= x && (n - x) % x == 0
  {
    var q := n / x;
    assert n == q * x;
    assert q >= 1;
    DivUnique(n - x, x, q - 1, 0);
  }

  /** Consecutive slots with a fixed headway that divides the first slot's
      length line up without a duplicate or a gap: the departures of `a..c`
      are those of `a..b` followed by those of `b..c`. */
  lemma {:induction false} DeparturesJoin(a: int, b: int, c: int, x: int, toggle: nat)
    requires toggle < 2 && x > 0 && a <= b <= c && (b - a) % x == 0
    ensures Departures(a, c, Every(x), toggle)
         == Departures(a, b, Every(x), toggle) + Departures(b, c, Every(x), toggle)
    decreases b - a
  {
    if a < b {
      MultipleStep(b - a, x);
      assert b - (a + x) == b - a - x;
      DeparturesJoin(a + x, b, c, x, toggle);
    }
  }

  /** The slot's departures as seconds of the day: one train when start and
      end coincide; otherwise an end at or before the start is read as the
      next day's, and each departure is shown modulo a day. */
  function TrainSeconds(start: nat, end: nat, h: Headway): (r: seq<int>)
    requires start < Clock.SecondsPerDay && end < Clock.SecondsPerDay && (start == end || Advances(h))
    ensures |r| > 0 && r[0] == start
    ensures start == end ==> r == [start]
    ensures forall k | 0 <= k < |r| :: 0 <= r[k] < Clock.SecondsPerDay
  {
    if start == end then [start]
    else
      var stop := if end <= start then end + Clock.SecondsPerDay else end;
      var d := Departures(start, stop, h, 0);
      seq(|d|, k requires 0 <= k < |d| => d[k] % Clock.SecondsPerDay)
  }

  /** With a fixed headway, departure `k` is `k` headways after the start,
      on the clock, and the count is the number of headways that fit
      before the end (across midnight when the end is not after the
      start), rounded up. */
  lemma {:induction false} TrainSecondsEvery(start: nat, end: nat, x: int)
    requires start < Clock.SecondsPerDay && end < Clock.SecondsPerDay && x > 0 && start != end
    ensures var stop := if end <= start then end + Clock.SecondsPerDay else end;
      |TrainSeconds(start, end, Every(x))| == Fits(stop - start, x)
    ensures forall k | 0 <= k < |TrainSeconds(start, end, Every(x))| ::
      TrainSeconds(start, end, Every(x))[k] == (start + k * x) % Clock.SecondsPerDay
  {
    var stop := if end <= start then end + Clock.SecondsPerDay else end;
    DeparturesEvery(start, stop, x, 0);
  }

  /** `format_time` of each second of the day; each text reads back as the
      second it shows. */
  function Texts(t: seq<int>): (r: seq<string>)
    requires forall k | 0 <= k < |t| :: 0 <= t[k] < Clock.SecondsPerDay
    ensures |r| == |t|
    ensures forall k | 0 <= k < |t| :: r[k] == Clock.FormatHMS(t[k])
    ensures forall k | 0 <= k < |t| :: ParseTime(r[k]) == Some(t[k]) && Clock.ClockText(r[k])
  {
    var r := seq(|t|, k requires 0 <= k < |t| => Clock.FormatHMS(t[k]));
    assert forall k | 0 <= k < |t| :: ParseTime(r[k]) == Some(t[k]) && Clock.ClockText(r[k]) by {
      forall k | 0 <= k < |t|
        ensures ParseTime(r[k]) == Some(t[k]) && Clock.ClockText(r[k])
      {
        ParseTimeFormatHMS(t[k]);
        Clock.FormatIsClockText(t[k]);
      }
    }
    r
  }

  /** The inputs on which `generate_train_times` returns: either end fails
      to parse (it raises before the loop), both ends parse to the same
      second (one train, no loop), or the headway moves the loop forward.
      On every other input its `while` loop never ends. */
  function Terminates(startText: string, endText: string, h: Headway): (b: bool)
    ensures ParseTime(startText).Some? && ParseTime(endText).Some? && ParseTime(startText) != ParseTime(endText) ==>
      (b <==> h.Rush? || h.seconds > 0)
    ensures ParseTime(startText).None? || ParseTime(endText).None? ==> b
  {
    Advances(h) || ParseTime(startText).None? || ParseTime(endText).None?
    || ParseTime(startText) == ParseTime(endText)
  }

  /** `generate_train_times(start_time, end_time, headway)`: the slot's
      departures as `HH:MM:SS` text; `None` when either end does not parse
      (`parse_time` raises). */
  function GenerateTrainTimes(startText: string, endText: string, h: Headway): (r: Option<seq<string>>)
    requires Terminates(startText, endText, h)
    ensures r.Some? ==> |r.value| > 0 && forall k | 0 <= k < |r.value| :: Clock.ClockText(r.value[k])
  {
    var s, e := ParseTime(startText), ParseTime(endText);
    if s.Some? && e.Some? then Some(Texts(TrainSeconds(s.value, e.value, h))) else None
  }

  /** The slot's texts exist exactly when both ends parse; there is one per
      departure second, the first is the start, and each reads back with
      `parse_time` as its second. */
  lemma {:induction false} GenerateTrainTimesSpec(startText: string, endText: string, h: Headway)
    requires Terminates(startText, endText, h)
    ensures GenerateTrainTimes(startText, endText, h).Some? <==> ParseTime(startText).Some? && ParseTime(endText).Some?
    ensures GenerateTrainTimes(startText, endText, h).Some? ==>
      var r := GenerateTrainTimes(startText, endText, h).value;
      var t := TrainSeconds(ParseTime(startText).value, ParseTime(endText).value, h);
      |r| == |t| && r[0] == Clock.FormatHMS(t[0])
      && forall k | 0 <= k < |t| :: ParseTime(r[k]) == Some(t[k])
  {
  }

  /** When both ends parse to the same second the slot is the single
      formatted start, whatever the headway. */
  lemma {:induction false} GenerateTrainTimesOne(startText: string, endText: string, h: Headway)
    requires ParseTime(startText).Some? && ParseTime(startText) == ParseTime(endText)
    ensures Terminates(startText, endText, h)
    ensures GenerateTrainTimes(startText, endText, h) == Some([Clock.FormatHMS(ParseTime(startText).value)])
  {
    var v := ParseTime(startText).value;
    var t := TrainSeconds(v, v, h);
    assert t == [v];
    var r := Texts(t);
    assert |r| == 1 && r[0] == Clock.FormatHMS(v);
    assert r == [Clock.FormatHMS(v)];
  }

  /** The loop of `generate_train_times`, in seconds: it appends the current
      time, steps by the interval (flipping the rush toggle) and stops at
      the end. */
  method DepartureLoop(start: int, end: int, h: Headway) returns (times: seq<int>)
    requires Advances(h)
    ensures times == Departures(start, end, h, 0)
  {
    times := [];
    var current := start;
    var toggle := 0;
    while current < end
      invariant toggle < 2
      invariant times + Departures(current, end, h, toggle) == Departures(start, end, h, 0)
      decreases end - current
    {
      DeparturesStep(times, current, end, h, toggle);
      times := times + [current];
      var interval := Interval(h, toggle);
      toggle := NextToggle(h, toggle);
      current := current + interval;
    }
  }

  /** One turn of the loop: the current time moves from the pending
      departures to the collected ones. */
  lemma {:induction false} DeparturesStep(times: seq<int>, cur: int, end: int, h: Headway, toggle: nat)
    requires toggle < 2 && Advances(h) && cur < end
    ensures times + Departures(cur, end, h, toggle)
         == (times + [cur]) + Departures(cur + Interval(h, toggle), end, h, NextToggle(h, toggle))
  {
    var rest := Departures(cur + Interval(h, toggle), end, h, NextToggle(h, toggle));
    assert Departures(cur, end, h, toggle) == [cur] + rest;
    assert times + ([cur] + rest) == (times + [cur]) + rest;
  }
}

=== FILE: jsnumber.dfy ===
/** The slice of JavaScript number semantics the browser code depends on:
    `Number(text)` may give `NaN`, arithmetic with `NaN` gives `NaN`, and every
    ordered comparison with `NaN` is false. Values are exact rationals, not
    IEEE doubles. */
module JsNumber {
  import opened Strings
  import Clock

  datatype Num = NaN | Fin(v: real)

  function Add(a: Num, b: Num): Num
  {
    if a.Fin? && b.Fin? then Fin(a.v + b.v) else NaN
  }

  function Sub(a: Num, b: Num): Num
  {
    if a.Fin? && b.Fin? then Fin(a.v - b.v) else NaN
  }

  function Scale(a: Num, k: real): Num
  {
    if a.Fin? then Fin(a.v * k) else NaN
  }

  predicate Lt(a: Num, b: Num) { a.Fin? && b.Fin? && a.v < b.v }
  predicate Le(a: Num, b: Num) { a.Fin? && b.Fin? && a.v <= b.v }

  /** `Number(field)` for the fields of a time string: all-digit text
      (the empty string included) is a number, anything else is `NaN`. */
  function FieldNumber(s: string): (r: Num)
    ensures r.Fin? <==> AllDigits(s)
    ensures r.Fin? ==> r.v == DigitsValue(s) as real
    ensures s == "" ==> r == Fin(0.0)
  {
    if AllDigits(s) then Fin(DigitsValue(s) as real) else NaN
  }

  /** `Number` reads back the number a field was written from, whether
      written plainly (`String(n)`) or padded to two digits. */
  lemma {:induction false} FieldNumberReadsBack(n: nat)
    ensures FieldNumber(DecimalString(n)) == Fin(n as real)
    ensures n < 100 ==> FieldNumber(Clock.Pad2(n)) == Fin(n as real)
  {
    if n < 100 {
      var p := Clock.Pad2(n);
      assert AllDigits(p) && DigitsValue(p) == n;
    }
  }

  /** `timeToMinutes` (docs/train_map.js, docs/train_details.js) and the
      `split(':').map(Number)` prologue of the delay rules:
      `hours * 60 + minutes`, where a missing minutes field is `undefined`
      and makes the sum `NaN`. */
  function TimeToMinutes(s: string): (r: Num)
    ensures r.Fin? ==> r.v >= 0.0
  {
    var parts := Split(s, ':');
    if |parts| < 2 then NaN
    else Add(Scale(FieldNumber(parts[0]), 60.0), FieldNumber(parts[1]))
  }

  /** The minutes of an `HH:MM:SS` string are those of its `HH:MM` prefix:
      the seconds field is ignored. */
  lemma {:induction false} MinutesOfHMS(t: nat)
    requires t < Clock.SecondsPerDay
    ensures TimeToMinutes(Clock.FormatHMS(t)) == Fin((t / 60) as real)
  {
    Clock.SplitHMS(t);
    var h, m := t / 3600, t / 60 % 60;
    assert (h * 60 + m) == t / 60;
  }

  lemma {:induction false} MinutesOfHM(m: nat)
    requires m < Clock.MinutesPerDay
    ensures TimeToMinutes(Clock.FormatHM(m)) == Fin(m as real)
  {
    Clock.SplitHM(m);
  }

  /** Text without a colon has no minutes field and reads as `NaN`. */
  lemma {:induction false} NoColonIsNaN(s: string)
    requires ':' !in s
    ensures TimeToMinutes(s) == NaN
  {
  }
}

=== FILE: legacy_views.dfy ===
/** The two older viewers: the Next.js page (mrt-nextjs/src/app/page.tsx)
    and the first web page (script.js). Both show, per platform, the first
    three times of the list that are strictly later than the clock as a
    string; the Next.js page spells the clock `HH:MM:SS`, the first page
    `HH:MM`. The loaded timetable and the clock are parameters. */
module LegacyViews {
  import opened Wrappers
  import opened LexOrder
  import Clock
  import Timetable
  import Selection
  import ScheduleView

  /** `list.filter(time => time > now).slice(0, 3)`. */
  function NextThree(times: seq<string>, now: string): (r: seq<string>)
    ensures |r| == if |Selection.Later(times, now)| < 3 then |Selection.Later(times, now)| else 3
    ensures r == Selection.Later(times, now)[..|r|]
    ensures forall i | 0 <= i < |r| :: r[i] in times && Less(now, r[i])
    ensures |r| < 3 ==> forall x | x in times && Less(now, x) :: x in r
  {
    var later := Selection.Later(times, now);
    Selection.SliceFront(later, 3);
    Selection.Slice(later, 0, 3)
  }

  /** What `findNextTrains` of the Next.js page returns: `null`, an
      exception (a direction missing from the station's entry), or the two
      platforms' times. */
  datatype PageResult = NoTrains | Thrown | Trains(toMotijheel: seq<string>, toUttara: seq<string>)

  /** `findNextTrains()` of the Next.js page with the loaded schedule
      (`None` before it is loaded), the selected station and the formatted
      clock. */
  function PageNextTrains(data: Option<Timetable.Table>, selected: string, now: string): (r: PageResult)
    ensures r == NoTrains <==> data.None? || selected == "" || selected !in data.value
    ensures r == Thrown <==> (data.Some? && selected != "" && selected in data.value
      && (Timetable.Motijheel !in data.value[selected] || Timetable.UttaraNorth !in data.value[selected]))
    ensures r.Trains? ==>
      r.toMotijheel == NextThree(data.value[selected][Timetable.Motijheel], now)
      && r.toUttara == NextThree(data.value[selected][Timetable.UttaraNorth], now)
  {
    if data.None? || selected == "" then NoTrains
    else
      var tt := data.value;
      if selected !in tt then NoTrains
      else if Timetable.Motijheel !in tt[selected] || Timetable.UttaraNorth !in tt[selected] then Thrown
      else Trains(NextThree(tt[selected][Timetable.Motijheel], now), NextThree(tt[selected][Timetable.UttaraNorth], now))
  }

  /** With the clock at second `t` spelled `HH:MM:SS`, a generated time is
      shown as later exactly when its second is after `t`: a train due at
      this very second is already gone. */
  lemma {:induction false} PageLaterBySecond(times: seq<string>, ts: seq<nat>, t: nat)
    requires t < Clock.SecondsPerDay && ScheduleView.Written(times, ts)
    ensures forall j | 0 <= j < |ts| :: times[j] in Selection.Later(times, Clock.FormatHMS(t)) <==> ts[j] > t
  {
    forall j | 0 <= j < |ts|
      ensures times[j] in Selection.Later(times, Clock.FormatHMS(t)) <==> ts[j] > t
    {
      Clock.FormatHMSOrder(t, ts[j]);
    }
  }

  /** The first page compares the `HH:MM` clock with the generator's
      `HH:MM:SS` times, so a train due earlier in the current minute still
      counts as later. */
  lemma {:induction false} FirstPageLaterByMinute(times: seq<string>, ts: seq<nat>, m: nat)
    requires m < Clock.MinutesPerDay && ScheduleView.Written(times, ts)
    ensures forall j | 0 <= j < |ts| :: times[j] in Selection.Later(times, Clock.FormatHM(m)) <==> ts[j] / 60 >= m
  {
    forall j | 0 <= j < |ts|
      ensures times[j] in Selection.Later(times, Clock.FormatHM(m)) <==> ts[j] / 60 >= m
    {
      Clock.SecondsVersusMinute(ts[j], m);
      Connected(Clock.FormatHMS(ts[j]), Clock.FormatHM(m));
      Asymmetric(Clock.FormatHMS(ts[j]), Clock.FormatHM(m));
    }
  }

  /** What `findNextTrains(stationName)` of the first page leaves on
      screen: the old content for a station the timetable lacks, an error
      swallowed by the promise's `catch` when a direction is missing, or the
      two platforms' times. */
  datatype FirstPageResult = Unchanged | Failed | Schedule(toMotijheel: seq<string>, toUttara: seq<string>)

  function FirstPageNextTrains(tt: Timetable.Table, station: string, now: string): (r: FirstPageResult)
    ensures r == Unchanged <==> station !in tt
    ensures r == Failed <==> (station in tt && (Timetable.Motijheel !in tt[station] || Timetable.UttaraNorth !in tt[station]))
    ensures r.Schedule? ==>
      r.toMotijheel == NextThree(tt[station][Timetable.Motijheel], now)
      && r.toUttara == NextThree(tt[station][Timetable.UttaraNorth], now)
  {
    if station !in tt then Unchanged
    else if Timetable.Motijheel !in tt[station] || Timetable.UttaraNorth !in tt[station] then Failed
    else Schedule(NextThree(tt[station][Timetable.Motijheel], now), NextThree(tt[station][Timetable.UttaraNorth], now))
  }

  /** The first page's station order, which spells one station
      "Bijoy Sharani". */
  const FirstPageOrder: seq<string> := [
    "Uttara North", "Uttara Center", "Uttara South", "Pallabi", "Mirpur 11", "Mirpur 10",
    "Kazipara", "Sewrapara", "Agargoan", "Bijoy Sharani", "Farmgate", "Karwan Bazar",
    "Shahbag", "Dhaka University", "Bangladesh Secretariat", "Motijheel"
  ]

  /** The station dropdown: the stations of `order` the timetable has, in
      that order. */
  function Dropdown(order: seq<string>, tt: Timetable.Table): (r: seq<string>)
    ensures forall s :: s in r <==> s in order && s in tt
    ensures |r| <= |order|
  {
    if |order| == 0 then []
    else (if order[0] in tt then [order[0]] else []) + Dropdown(order[1..], tt)
  }

  /** The dropdown lists the stations in line order. */
  lemma {:induction false} DropdownInOrder(order: seq<string>, tt: Timetable.Table, i: nat, j: nat)
    requires i < j < |Dropdown(order, tt)|
    ensures exists a, b | 0 <= a < b < |order| :: order[a] == Dropdown(order, tt)[i] && order[b] == Dropdown(order, tt)[j]
  {
    var r := Dropdown(order, tt);
    var rest := Dropdown(order[1..], tt);
    if order[0] !in tt {
      assert r == rest;
      DropdownInOrder(order[1..], tt, i, j);
      Timetable.ShiftPair(order, r[i], r[j]);
    } else if i == 0 {
      assert r == [order[0]] + rest;
      assert r[j] == rest[j - 1] && rest[j - 1] in rest;
      Timetable.HeadPair(order, r[j]);
    } else {
      assert r == [order[0]] + rest;
      assert r[i] == rest[i - 1] && r[j] == rest[j - 1];
      DropdownInOrder(order[1..], tt, i - 1, j - 1);
      Timetable.ShiftPair(order, r[i], r[j]);
    }
  }

  /** Keyed by the line's spelling, "Bijoy Sarani" is never offered by the
      first page, whatever the timetable holds. */
  lemma {:induction false} FirstPageOmitsBijoySarani(tt: Timetable.Table)
    ensures "Bijoy Sarani" !in Dropdown(FirstPageOrder, tt)
  {
    assert "Bijoy Sarani" !in FirstPageOrder by {
      forall i | 0 <= i < |FirstPageOrder|
        ensures FirstPageOrder[i] != "Bijoy Sarani"
      {
        if i == 9 {
          assert FirstPageOrder[i][7] != "Bijoy Sarani"[7];
        }
      }
    }
  }
}

=== FILE: lexorder.dfy ===
/** The order JavaScript's `<` and `<=` put on strings, and Python's on `str`:
    lexicographic by character, a proper prefix sorting first. */
module LexOrder {

  /** `a < b` on strings. */
  predicate Less(a: string, b: string)
    decreases |a|
  {
    if |b| == 0 then false
    else if |a| == 0 then true
    else if a[0] != b[0] then a[0] < b[0]
    else Less(a[1..], b[1..])
  }

  /** `a <= b` on strings, which JavaScript evaluates as `!(b < a)`. */
  predicate LessEq(a: string, b: string)
  {
    !Less(b, a)
  }

  lemma {:induction false} Irreflexive(a: string)
    ensures !Less(a, a)
    decreases |a|
  {
    if |a| > 0 {
      Irreflexive(a[1..]);
    }
  }

  lemma {:induction false} Asymmetric(a: string, b: string)
    ensures Less(a, b) ==> !Less(b, a)
    decreases |a|
  {
    if |a| > 0 && |b| > 0 && a[0] == b[0] {
      Asymmetric(a[1..], b[1..]);
    }
  }

  lemma {:induction false} Transitive(a: string, b: string, c: string)
    requires Less(a, b) && Less(b, c)
    ensures Less(a, c)
    decreases |a|
  {
    if |a| > 0 && a[0] == b[0] && b[0] == c[0] {
      Transitive(a[1..], b[1..], c[1..]);
    }
  }

  /** Two different strings are always ordered one way or the other. */
  lemma {:induction false} Connected(a: string, b: string)
    requires a != b
    ensures Less(a, b) || Less(b, a)
    decreases |a|
  {
    if |a| > 0 && |b| > 0 && a[0] == b[0] {
      assert a == [a[0]] + a[1..] && b == [b[0]] + b[1..];
      Connected(a[1..], b[1..]);
    }
  }

  /** `<=` is equality or `<`, so the two filters `t < now` and `t >= now`
      split any list between them. */
  lemma {:induction false} LessEqIsLessOrEqual(a: string, b: string)
    ensures LessEq(a, b) <==> (a == b || Less(a, b))
  {
    if a == b {
      Irreflexive(a);
    } else {
      Connected(a, b);
      Asymmetric(a, b);
    }
  }

  /** `<=` is transitive. */
  lemma {:induction false} LessEqTransitive(a: string, b: string, c: string)
    requires LessEq(a, b) && LessEq(b, c)
    ensures LessEq(a, c)
  {
    LessEqIsLessOrEqual(a, b);
    LessEqIsLessOrEqual(b, c);
    if a != b && b != c {
      Transitive(a, b, c);
    }
    LessEqIsLessOrEqual(a, c);
    Asymmetric(a, c);
  }

  /** A common prefix does not change the comparison. */
  lemma {:induction false} CommonPrefix(p: string, a: string, b: string)
    ensures Less(p + a, p + b) <==> Less(a, b)
    decreases |p|
  {
    if |p| > 0 {
      assert (p + a)[1..] == p[1..] + a;
      assert (p + b)[1..] == p[1..] + b;
      CommonPrefix(p[1..], a, b);
    } else {
      assert p + a == a && p + b == b;
    }
  }

  /** A proper prefix sorts before the longer string. */
  lemma {:induction false} ProperPrefix(p: string, x: string)
    requires |x| > 0
    ensures Less(p, p + x)
  {
    CommonPrefix(p, [], x);
    assert p + [] == p;
  }

  /** The first differing position decides, whatever follows. */
  lemma {:induction false} FirstDifference(p: string, c: char, d: char, a: string, b: string)
    requires c < d
    ensures Less(p + [c] + a, p + [d] + b)
  {
    assert p + [c] + a == p + ([c] + a);
    assert p + [d] + b == p + ([d] + b);
    CommonPrefix(p, [c] + a, [d] + b);
  }
}

=== FILE: schedule_view.dfy ===
/** The station view of the web viewer (docs/script.js, `findNextTrains`
    and the first/last-train buttons): each platform's list is split at the
    current minute into past and future trains; by default the next three
    future trains are shown, each labelled as leaving now, arriving within a
    minute, or upcoming; a banner announces trains arriving in a minute or
    leaving in the current one.

    The page formats "now" as `HH:MM`, while generate_timetable.py writes
    `HH:MM:SS`. `Matching` chooses between the page's exact string
    comparison (`Exact`) and a comparison of the `HH:MM` part (`ByMinute`);
    the two agree on `HH:MM` tables, and only `ByMinute` ever labels a
    generated time. */
module ScheduleView {
  import opened Wrappers
  import opened Strings
  import opened LexOrder
  import Clock
  import Timetable
  import Delays
  import Selection

  // ---------------------------------------------------------------------------
  // The clock as the page reads it

  /** `currentTime` and `oneMinuteLater` (`HH:MM`, seconds dropped) and
      `currentSec`. */
  datatype Now = Now(currentTime: string, oneMinuteLater: string, seconds: nat)

  /** The three readings of second `t` of the day. */
  function ClockNow(t: nat): (n: Now)
    requires t < Clock.SecondsPerDay
    ensures n.seconds < 60
    ensures t / 60 + 1 < Clock.MinutesPerDay ==> LexOrder.Less(n.currentTime, n.oneMinuteLater)
    ensures t / 60 + 1 == Clock.MinutesPerDay ==> n.oneMinuteLater == "00:00"
  {
    Clock.FormatHMOrder(t / 60, (t / 60 + 1) % Clock.MinutesPerDay);
    Now(Clock.FormatHM(t / 60), Clock.FormatHM((t / 60 + 1) % Clock.MinutesPerDay), t % 60)
  }

  // ---------------------------------------------------------------------------
  // Matching a timetable entry against a minute

  datatype Matching = Exact | ByMinute

  /** The `HH:MM` part of a time. */
  function MinuteKey(t: string): (k: string)
    ensures |t| >= 5 ==> k == t[..5]
  {
    if |t| >= 5 then t[..5] else t
  }

  predicate Matches(m: Matching, t: string, target: string)
  {
    if m == Exact then t == target else MinuteKey(t) == target
  }

  /** `xs.includes(target)` under the chosen matching. */
  predicate AnyMatches(m: Matching, xs: seq<string>, target: string)
  {
    exists i | 0 <= i < |xs| :: Matches(m, xs[i], target)
  }

  /** Two `HH:MM` texts are equal only for the same minute. */
  lemma {:induction false} FormatHMInjective(a: nat, b: nat)
    requires a < Clock.MinutesPerDay && b < Clock.MinutesPerDay
    ensures Clock.FormatHM(a) == Clock.FormatHM(b) <==> a == b
  {
    Clock.ParseFormatHM(a);
    Clock.ParseFormatHM(b);
  }

  /** On an `HH:MM` entry both matchings are the page's string equality. */
  lemma {:induction false} MatchingsAgreeOnMinuteText(a: nat, target: string)
    requires a < Clock.MinutesPerDay
    ensures Matches(ByMinute, Clock.FormatHM(a), target) == Matches(Exact, Clock.FormatHM(a), target)
  {
    assert Clock.FormatHM(a)[..5] == Clock.FormatHM(a);
  }

  /** A generated `HH:MM:SS` entry never equals an `HH:MM` minute. */
  lemma {:induction false} ExactMissesSecondsText(s: nat, a: nat)
    requires s < Clock.SecondsPerDay && a < Clock.MinutesPerDay
    ensures !Matches(Exact, Clock.FormatHMS(s), Clock.FormatHM(a))
  {
    Clock.SecondsVersusMinute(s, a);
  }

  /** Read by its `HH:MM` part, a generated entry matches exactly the
      minute it falls in. */
  lemma {:induction false} ByMinuteMatchesSecondsText(s: nat, a: nat)
    requires s < Clock.SecondsPerDay && a < Clock.MinutesPerDay
    ensures Matches(ByMinute, Clock.FormatHMS(s), Clock.FormatHM(a)) <==> s / 60 == a
  {
    Clock.HMSExtendsHM(s);
    assert MinuteKey(Clock.FormatHMS(s)) == Clock.FormatHM(s / 60);
    FormatHMInjective(s / 60, a);
  }

  // ---------------------------------------------------------------------------
  // Rows of a platform

  datatype TrainClass = PastTrain | CurrentTrain | ArrivingTrain | UpcomingTrain | FutureTrain

  /** The class of the future train at position `index` of the shown list. */
  function ClassOf(m: Matching, time: string, index: nat, now: Now): (c: TrainClass)
    ensures c == CurrentTrain <==> Matches(m, time, now.currentTime)
    ensures c == ArrivingTrain <==> !Matches(m, time, now.currentTime) && Matches(m, time, now.oneMinuteLater)
    ensures c == UpcomingTrain ==> index < 3
    ensures c != PastTrain
  {
    if Matches(m, time, now.currentTime) then CurrentTrain
    else if Matches(m, time, now.oneMinuteLater) then ArrivingTrain
    else if index < 3 then UpcomingTrain
    else FutureTrain
  }

  datatype Platform = Platform1 | Platform2

  /** The platform's trains run towards this terminus. */
  function Direction(p: Platform): string
  {
    if p == Platform1 then Timetable.Motijheel else Timetable.UttaraNorth
  }

  /** The platform and direction words of the verification id. */
  function PlatformWord(p: Platform): string
  {
    if p == Platform1 then "Platform1" else "Platform2"
  }

  function DirectionWord(p: Platform): string
  {
    if p == Platform1 then "Motijheel" else "UttaraNorth"
  }

  /** Which `formatTimeWithDelay` labels platform 2: the placeholder of
      docs/script.js, which returns the time, or the delay rules of
      docs/delay-handler.js on day `day`. The page loads both; the later
      script wins. */
  datatype DelayLabels = Placeholder | DelayRules(day: int)

  function ShownText(labels: DelayLabels, p: Platform, station: string, time: string): (r: string)
    ensures p == Platform1 || labels.Placeholder? ==> r == time
  {
    if p == Platform1 then time
    else match labels
      case Placeholder => time
      case DelayRules(day) => Delays.FormatTimeWithDelay(day, time, station, Timetable.UttaraNorth)
  }

  /** A shown train: its time, class, verification id, whether that id is
      verified, and the text displayed. */
  datatype Row = Row(time: string, cls: TrainClass, id: string, verified: bool, text: string)

  /** Everything a row depends on besides its time and class. */
  datatype Context = Context(labels: DelayLabels, station: string, platform: Platform, verified: set<string>)

  function MakeRow(ctx: Context, time: string, cls: TrainClass): (row: Row)
    ensures row.time == time && row.cls == cls
    ensures row.verified <==> row.id in ctx.verified
    ensures ctx.platform == Platform1 || ctx.labels.Placeholder? ==> row.text == time
  {
    var id := GenerateTimeId(ctx.station, PlatformWord(ctx.platform), DirectionWord(ctx.platform), time);
    Row(time, cls, id, IsTimeVerified(id, ctx.verified), ShownText(ctx.labels, ctx.platform, ctx.station, time))
  }

  /** A platform's list: the past trains (empty unless every train is
      shown) and the future trains. */
  datatype PlatformView = PlatformView(past: seq<Row>, future: seq<Row>)

  function Times(rows: seq<Row>): (r: seq<string>)
    ensures |r| == |rows| && forall i | 0 <= i < |rows| :: r[i] == rows[i].time
  {
    seq(|rows|, i requires 0 <= i < |rows| => rows[i].time)
  }

  /** The rows of past trains. */
  function PastRows(ctx: Context, xs: seq<string>): (r: seq<Row>)
    ensures Times(r) == xs
    ensures forall i | 0 <= i < |r| :: r[i] == MakeRow(ctx, xs[i], PastTrain)
  {
    seq(|xs|, i requires 0 <= i < |xs| => MakeRow(ctx, xs[i], PastTrain))
  }

  /** The rows of the shown future trains, classed by position. */
  function FutureRows(m: Matching, ctx: Context, xs: seq<string>, now: Now): (r: seq<Row>)
    ensures Times(r) == xs
    ensures forall i | 0 <= i < |r| :: r[i] == MakeRow(ctx, xs[i], ClassOf(m, xs[i], i, now))
  {
    seq(|xs|, i requires 0 <= i < |xs| => MakeRow(ctx, xs[i], ClassOf(m, xs[i], i, now)))
  }

  /** The future trains a platform shows: all of them with `showAllTrains`,
      otherwise `slice(0, 3)` of them. */
  function Shown(times: seq<string>, cur: string, showAll: bool): (r: seq<string>)
    ensures forall i | 0 <= i < |r| :: r[i] in times && LessEq(cur, r[i])
    ensures showAll ==> r == Selection.NotEarlier(times, cur)
    ensures !showAll ==> |r| <= 3
  {
    var future := Selection.NotEarlier(times, cur);
    Selection.SliceFront(future, 3);
    if showAll then future else Selection.Slice(future, 0, 3)
  }

  /** One platform of `findNextTrains`: past trains only when every train
      is shown, then the shown future trains. */
  function PlatformRows(m: Matching, ctx: Context, times: seq<string>, now: Now, showAll: bool): (v: PlatformView)
    ensures Times(v.past) == if showAll then Selection.Earlier(times, now.currentTime) else []
    ensures Times(v.future) == Shown(times, now.currentTime, showAll)
    ensures forall i | 0 <= i < |v.past| :: v.past[i] == MakeRow(ctx, v.past[i].time, PastTrain)
    ensures forall i | 0 <= i < |v.future| :: v.future[i] == MakeRow(ctx, v.future[i].time, ClassOf(m, v.future[i].time, i, now))
  {
    var past := if showAll then Selection.Earlier(times, now.currentTime) else [];
    PlatformView(PastRows(ctx, past), FutureRows(m, ctx, Shown(times, now.currentTime, showAll), now))
  }

  /** By default a platform shows no past train and the first three times
      at or after the current minute, in timetable order. */
  lemma {:induction false} DefaultView(times: seq<string>, cur: string)
    ensures var future := Selection.NotEarlier(times, cur);
      Shown(times, cur, false) == if |future| <= 3 then future else future[..3]
  {
    Selection.SliceFront(Selection.NotEarlier(times, cur), 3);
  }

  /** With every train shown, the list is the past trains followed by the
      future ones, which on an ascending list is the whole timetable. */
  lemma {:induction false} ShowAllView(m: Matching, ctx: Context, times: seq<string>, now: Now)
    requires Selection.Ascending(times)
    ensures var v := PlatformRows(m, ctx, times, now, true);
      Times(v.past) + Times(v.future) == times
  {
    Selection.SplitAscending(times, now.currentTime);
  }

  /** Classed by exact comparison with the `HH:MM` clock, a generated time
      is never leaving now or arriving next. */
  lemma {:induction false} ExactClassOfSecondsText(s: nat, t: nat, i: nat)
    requires s < Clock.SecondsPerDay && t < Clock.SecondsPerDay
    ensures ClassOf(Exact, Clock.FormatHMS(s), i, ClockNow(t)) == if i < 3 then UpcomingTrain else FutureTrain
  {
    ExactMissesSecondsText(s, t / 60);
    ExactMissesSecondsText(s, (t / 60 + 1) % Clock.MinutesPerDay);
  }

  /** On a list the generator wrote, the page's exact comparison never
      labels a shown train as leaving now or arriving next. */
  lemma {:induction false} ExactLabelsNeverFire(ctx: Context, times: seq<string>, t: nat, showAll: bool)
    requires t < Clock.SecondsPerDay
    requires forall i | 0 <= i < |times| :: Clock.ClockText(times[i])
    ensures var v := PlatformRows(Exact, ctx, times, ClockNow(t), showAll);
      forall i | 0 <= i < |v.future| :: v.future[i].cls != CurrentTrain && v.future[i].cls != ArrivingTrain
  {
    var now := ClockNow(t);
    var v := PlatformRows(Exact, ctx, times, now, showAll);
    forall i | 0 <= i < |v.future|
      ensures v.future[i].cls != CurrentTrain && v.future[i].cls != ArrivingTrain
    {
      var x := v.future[i].time;
      assert x == Times(v.future)[i];
      assert x in times;
      var s := Clock.ParseClock(x).value;
      assert x == Clock.FormatHMS(s);
      ExactClassOfSecondsText(s, t, i);
    }
  }

  /** Compared by minute, a generated train is classed as leaving now
      exactly when it departs within the current minute, and as arriving
      exactly when it departs within the next one. */
  lemma {:induction false} MinuteLabelsFire(s: nat, t: nat, i: nat)
    requires s < Clock.SecondsPerDay && t < Clock.SecondsPerDay
    ensures var c := ClassOf(ByMinute, Clock.FormatHMS(s), i, ClockNow(t));
      (c == CurrentTrain <==> s / 60 == t / 60)
      && (c == ArrivingTrain <==> s / 60 == (t / 60 + 1) % Clock.MinutesPerDay)
  {
    ByMinuteMatchesSecondsText(s, t / 60);
    ByMinuteMatchesSecondsText(s, (t / 60 + 1) % Clock.MinutesPerDay);
    assert t / 60 != (t / 60 + 1) % Clock.MinutesPerDay;
  }

  // ---------------------------------------------------------------------------
  // The arrival banner

  function PlatformNumber(p: Platform): string
  {
    if p == Platform1 then "1" else "2"
  }

  function ArrivingText(p: Platform): string
  {
    "Train is arriving at Platform " + PlatformNumber(p)
  }

  function LeavingText(p: Platform): string
  {
    "Train is leaving Platform " + PlatformNumber(p)
  }

  /** One platform's part of the banner: a train due next minute is
      announced as arriving; otherwise a train of the current minute is
      announced as leaving during the minute's first 30 seconds. */
  function PlatformMessage(m: Matching, p: Platform, times: seq<string>, now: Now): (r: string)
    ensures r == ArrivingText(p) || r == LeavingText(p) || r == ""
  {
    if AnyMatches(m, times, now.oneMinuteLater) then ArrivingText(p)
    else if AnyMatches(m, times, now.currentTime) && now.seconds < 30 then LeavingText(p)
    else ""
  }

  /** The banner: the two platforms' parts, joined by a line break when
      both are present. */
  function Banner(a: string, b: string): (r: string)
    ensures a == "" ==> r == b
    ensures b == "" ==> r == a
  {
    if a == "" then b else if b == "" then a else a + "<br>" + b
  }

  /** `times` is the text the generator wrote for the seconds `ts`. */
  predicate Written(times: seq<string>, ts: seq<nat>)
  {
    |times| == |ts| && forall j | 0 <= j < |ts| :: ts[j] < Clock.SecondsPerDay && times[j] == Clock.FormatHMS(ts[j])
  }

  /** On generated lists the page's exact comparison never raises the
      banner. */
  lemma {:induction false} ExactBannerSilent(p: Platform, times: seq<string>, ts: seq<nat>, t: nat)
    requires t < Clock.SecondsPerDay && Written(times, ts)
    ensures PlatformMessage(Exact, p, times, ClockNow(t)) == ""
  {
    var now := ClockNow(t);
    forall j | 0 <= j < |times|
      ensures !Matches(Exact, times[j], now.oneMinuteLater) && !Matches(Exact, times[j], now.currentTime)
    {
      ExactMissesSecondsText(ts[j], t / 60);
      ExactMissesSecondsText(ts[j], (t / 60 + 1) % Clock.MinutesPerDay);
    }
  }

  /** Compared by minute, a platform announces an arrival exactly when one
      of its trains departs in the next minute, and otherwise a departure
      exactly when one departs in the current minute and fewer than 30
      seconds of it have passed. */
  lemma {:induction false} MinuteBanner(p: Platform, times: seq<string>, ts: seq<nat>, t: nat)
    requires t < Clock.SecondsPerDay && Written(times, ts)
    ensures var next := (t / 60 + 1) % Clock.MinutesPerDay;
      var arriving := exists j | 0 <= j < |ts| :: ts[j] / 60 == next;
      var leaving := exists j | 0 <= j < |ts| :: ts[j] / 60 == t / 60;
      PlatformMessage(ByMinute, p, times, ClockNow(t))
        == if arriving then ArrivingText(p) else if leaving && t % 60 < 30 then LeavingText(p) else ""
  {
    var now := ClockNow(t);
    forall j | 0 <= j < |times|
      ensures Matches(ByMinute, times[j], now.oneMinuteLater) <==> ts[j] / 60 == (t / 60 + 1) % Clock.MinutesPerDay
      ensures Matches(ByMinute, times[j], now.currentTime) <==> ts[j] / 60 == t / 60
    {
      ByMinuteMatchesSecondsText(ts[j], t / 60);
      ByMinuteMatchesSecondsText(ts[j], (t / 60 + 1) % Clock.MinutesPerDay);
    }
  }

  // ---------------------------------------------------------------------------
  // The station view

  datatype StationView = StationView(banner: string, platform1: PlatformView, platform2: PlatformView)

  /** `findNextTrains(stationName)` once the timetable is loaded: nothing
      for a station missing from the timetable or missing a direction (the
      lookup throws and the promise's `catch` swallows it). */
  function FindNextTrains(m: Matching, labels: DelayLabels, tt: Timetable.Table, station: string, now: Now,
                          showAll: bool, verified: set<string>): (r: Option<StationView>)
    ensures r.Some? <==> Timetable.Times(tt, station, Timetable.Motijheel).Some?
                         && Timetable.Times(tt, station, Timetable.UttaraNorth).Some?
    ensures r.Some? ==>
      r.value.platform1 == PlatformRows(m, Context(labels, station, Platform1, verified), tt[station][Timetable.Motijheel], now, showAll)
      && r.value.platform2 == PlatformRows(m, Context(labels, station, Platform2, verified), tt[station][Timetable.UttaraNorth], now, showAll)
    ensures r.Some? ==>
      r.value.banner == Banner(PlatformMessage(m, Platform1, tt[station][Timetable.Motijheel], now),
                               PlatformMessage(m, Platform2, tt[station][Timetable.UttaraNorth], now))
  {
    var m1, m2 := Timetable.Times(tt, station, Timetable.Motijheel), Timetable.Times(tt, station, Timetable.UttaraNorth);
    if m1.None? || m2.None? then None
    else
      var banner := Banner(PlatformMessage(m, Platform1, m1.value, now), PlatformMessage(m, Platform2, m2.value, now));
      Some(StationView(banner,
        PlatformRows(m, Context(labels, station, Platform1, verified), m1.value, now, showAll),
        PlatformRows(m, Context(labels, station, Platform2, verified), m2.value, now, showAll)))
  }
  /** With exact matching the station page never shows a banner for a
      timetable the generator wrote: both platform parts stay empty. */
  lemma {:induction false} ExactViewBannerSilent(labels: DelayLabels, tt: Timetable.Table, station: string, t: nat,
                                                 showAll: bool, verified: set<string>, ts1: seq<nat>, ts2: seq<nat>)
    requires t < Clock.SecondsPerDay
    requires FindNextTrains(Exact, labels, tt, station, ClockNow(t), showAll, verified).Some?
    requires Written(tt[station][Timetable.Motijheel], ts1) && Written(tt[station][Timetable.UttaraNorth], ts2)
    ensures FindNextTrains(Exact, labels, tt, station, ClockNow(t), showAll, verified).value.banner == ""
  {
    ExactBannerSilent(Platform1, tt[station][Timetable.Motijheel], ts1, t);
    ExactBannerSilent(Platform2, tt[station][Timetable.UttaraNorth], ts2, t);
  }


  /** The first-train button: element 0 of each list, `slice(0, 1)`. */
  function FirstTrain(times: seq<string>): (r: seq<string>)
    ensures r == if |times| == 0 then [] else [times[0]]
  {
    Selection.SliceFront(times, 1);
    Selection.Slice(times, 0, 1)
  }

  /** The last-train button: the final element, `slice(-1)`. */
  function LastTrain(times: seq<string>): (r: seq<string>)
    ensures r == if |times| == 0 then [] else [times[|times| - 1]]
  {
    Selection.SliceLast(times);
    Selection.SliceFrom(times, -1)
  }

  // ---------------------------------------------------------------------------
  // Verification ids

  /** The characters `[a-zA-Z0-9-]` that the id keeps. */
  predicate IdChar(c: char)
  {
    'a' <= c <= 'z' || 'A' <= c <= 'Z' || '0' <= c <= '9' || c == '-'
  }

  /** `s.replace(/[^a-zA-Z0-9-]/g, '')`. */
  function KeepIdChars(s: string): (r: string)
    ensures |r| <= |s|
    ensures forall i | 0 <= i < |r| :: IdChar(r[i])
  {
    if |s| == 0 then []
    else if IdChar(s[0]) then [s[0]] + KeepIdChars(s[1..])
    else KeepIdChars(s[1..])
  }

  /** The filter works character by character. */
  lemma {:induction false} KeepIdCharsAppend(a: string, b: string)
    ensures KeepIdChars(a + b) == KeepIdChars(a) + KeepIdChars(b)
  {
    if |a| > 0 {
      KeepIdCharsAppend(a[1..], b);
      assert (a + b)[0] == a[0] && (a + b)[1..] == a[1..] + b;
    } else {
      assert a + b == b;
    }
  }

  lemma {:induction false} AllowedUnchanged(s: string)
    requires forall i | 0 <= i < |s| :: IdChar(s[i])
    ensures KeepIdChars(s) == s
  {
    if |s| > 0 {
      AllowedUnchanged(s[1..]);
    }
  }

  /** Text made only of kept characters passes unchanged, and nothing
      else does; so the filter is idempotent. */
  lemma {:induction false} KeepIdCharsKeeps(s: string)
    ensures (forall i | 0 <= i < |s| :: IdChar(s[i])) <==> KeepIdChars(s) == s
    ensures KeepIdChars(KeepIdChars(s)) == KeepIdChars(s)
  {
    if forall i | 0 <= i < |s| :: IdChar(s[i]) {
      AllowedUnchanged(s);
    }
    AllowedUnchanged(KeepIdChars(s));
  }

  /** `generateTimeId(station, platform, direction, time)`. */
  function GenerateTimeId(station: string, platform: string, direction: string, time: string): (id: string)
    ensures forall i | 0 <= i < |id| :: IdChar(id[i])
  {
    KeepIdChars(station + "-" + platform + "-" + direction + "-" + time)
  }

  /** `isTimeVerified(id)`: the id is among the verified ones. */
  predicate IsTimeVerified(id: string, verified: set<string>)
  {
    id in verified
  }

  /** The six digits of a generated time, colons dropped. */
  function Digits6(t: nat): (d: string)
    requires t < Clock.SecondsPerDay
    ensures |d| == 6
  {
    Clock.Pad2(t / 3600) + Clock.Pad2(t / 60 % 60) + Clock.Pad2(t % 60)
  }

  lemma {:induction false} IdOfClockText(t: nat)
    requires t < Clock.SecondsPerDay
    ensures KeepIdChars(Clock.FormatHMS(t)) == Digits6(t)
  {
    var h, m, s := Clock.Pad2(t / 3600), Clock.Pad2(t / 60 % 60), Clock.Pad2(t % 60);
    assert Clock.FormatHMS(t) == h + ":" + m + ":" + s;
    KeepIdCharsAppend(h + ":" + m + ":", s);
    KeepIdCharsAppend(h + ":" + m, ":");
    KeepIdCharsAppend(h + ":", m);
    KeepIdCharsAppend(h, ":");
    AllowedUnchanged(h);
    AllowedUnchanged(m);
    AllowedUnchanged(s);
  }

  lemma {:induction false} Digits6Injective(a: nat, b: nat)
    requires a < Clock.SecondsPerDay && b < Clock.SecondsPerDay && Digits6(a) == Digits6(b)
    ensures a == b
  {
    var da, db := Digits6(a), Digits6(b);
    assert da[..2] == Clock.Pad2(a / 3600) && db[..2] == Clock.Pad2(b / 3600);
    assert da[2..4] == Clock.Pad2(a / 60 % 60) && db[2..4] == Clock.Pad2(b / 60 % 60);
    assert da[4..] == Clock.Pad2(a % 60) && db[4..] == Clock.Pad2(b % 60);
    Clock.SecondsOfFields(a);
    Clock.SecondsOfFields(b);
  }

  /** Two different generated times at the same station and platform get
      different ids, which end in the time's six digits. */
  lemma {:induction false} TimeIdsDistinct(station: string, platform: Platform, a: nat, b: nat)
    requires a < Clock.SecondsPerDay && b < Clock.SecondsPerDay
    ensures var prefix := KeepIdChars(station + "-" + PlatformWord(platform) + "-" + DirectionWord(platform) + "-");
      GenerateTimeId(station, PlatformWord(platform), DirectionWord(platform), Clock.FormatHMS(a)) == prefix + Digits6(a)
    ensures a != b ==>
      GenerateTimeId(station, PlatformWord(platform), DirectionWord(platform), Clock.FormatHMS(a))
        != GenerateTimeId(station, PlatformWord(platform), DirectionWord(platform), Clock.FormatHMS(b))
  {
    var p := station + "-" + PlatformWord(platform) + "-" + DirectionWord(platform) + "-";
    KeepIdCharsAppend(p, Clock.FormatHMS(a));
    KeepIdCharsAppend(p, Clock.FormatHMS(b));
    IdOfClockText(a);
    IdOfClockText(b);
    var k := KeepIdChars(p);
    if k + Digits6(a) == k + Digits6(b) {
      assert (k + Digits6(a))[|k|..] == Digits6(a);
      assert (k + Digits6(b))[|k|..] == Digits6(b);
      Digits6Injective(a, b);
    }
  }
}

=== FILE: selection.dfy ===
/** The list selections the viewers make over one platform's time list:
    JavaScript's `filter` with the string comparisons `<`, `>=` and `>`, and
    `slice`. Times are compared as strings, in the order of `LexOrder`. */
module Selection {
  import opened LexOrder

  /** The list is in ascending string order. */
  predicate Ascending(xs: seq<string>)
  {
    forall i, j | 0 <= i < j < |xs| :: LessEq(xs[i], xs[j])
  }

  /** `xs.filter(time => time < now)`. */
  function Earlier(xs: seq<string>, now: string): (r: seq<string>)
    ensures |r| <= |xs|
    ensures forall i | 0 <= i < |r| :: r[i] in xs && Less(r[i], now)
    ensures forall x | x in xs && Less(x, now) :: x in r
  {
    if |xs| == 0 then []
    else if Less(xs[0], now) then [xs[0]] + Earlier(xs[1..], now)
    else Earlier(xs[1..], now)
  }

  /** `xs.filter(time => time >= now)`. */
  function NotEarlier(xs: seq<string>, now: string): (r: seq<string>)
    ensures |r| <= |xs|
    ensures forall i | 0 <= i < |r| :: r[i] in xs && LessEq(now, r[i])
    ensures forall x | x in xs && LessEq(now, x) :: x in r
  {
    if |xs| == 0 then []
    else if !Less(xs[0], now) then [xs[0]] + NotEarlier(xs[1..], now)
    else NotEarlier(xs[1..], now)
  }

  /** `xs.filter(time => time > now)`. */
  function Later(xs: seq<string>, now: string): (r: seq<string>)
    ensures |r| <= |xs|
    ensures forall i | 0 <= i < |r| :: r[i] in xs && Less(now, r[i])
    ensures forall x | x in xs && Less(now, x) :: x in r
  {
    if |xs| == 0 then []
    else if Less(now, xs[0]) then [xs[0]] + Later(xs[1..], now)
    else Later(xs[1..], now)
  }

  /** The past and future lists split the platform's list: every time goes
      to exactly one side, as often as it occurs, and a time equal to `now`
      goes to the future. */
  lemma {:induction false} SplitPartition(xs: seq<string>, now: string)
    ensures multiset(Earlier(xs, now)) + multiset(NotEarlier(xs, now)) == multiset(xs)
    ensures now in xs ==> now in NotEarlier(xs, now) && now !in Earlier(xs, now)
  {
    SplitCounts(xs, now);
    Irreflexive(now);
  }

  /** The multiset half of `SplitPartition`, by induction on the list. */
  lemma {:induction false} SplitCounts(xs: seq<string>, now: string)
    ensures multiset(Earlier(xs, now)) + multiset(NotEarlier(xs, now)) == multiset(xs)
  {
    if |xs| > 0 {
      var e, n := Earlier(xs[1..], now), NotEarlier(xs[1..], now);
      SplitCounts(xs[1..], now);
      if Less(xs[0], now) {
        assert Earlier(xs, now) == [xs[0]] + e && NotEarlier(xs, now) == n;
      } else {
        assert Earlier(xs, now) == e && NotEarlier(xs, now) == [xs[0]] + n;
      }
      CountsCons(xs, Earlier(xs, now), NotEarlier(xs, now), e, n);
    }
  }

  /** Adding the head to one side of a split of the tail splits the list. */
  lemma {:induction false} CountsCons<T>(xs: seq<T>, a: seq<T>, b: seq<T>, e: seq<T>, n: seq<T>)
    requires |xs| > 0 && multiset(e) + multiset(n) == multiset(xs[1..])
    requires (a == [xs[0]] + e && b == n) || (a == e && b == [xs[0]] + n)
    ensures multiset(a) + multiset(b) == multiset(xs)
  {
    assert xs == [xs[0]] + xs[1..];
  }

  /** Nothing in a list at or after `now` is earlier than it. */
  lemma {:induction false} NoneEarlier(xs: seq<string>, now: string)
    requires forall i | 0 <= i < |xs| :: LessEq(now, xs[i])
    ensures Earlier(xs, now) == [] && NotEarlier(xs, now) == xs
  {
    if |xs| > 0 {
      NoneEarlier(xs[1..], now);
    }
  }

  lemma {:induction false} AscendingTail(xs: seq<string>)
    requires |xs| > 0 && Ascending(xs)
    ensures Ascending(xs[1..])
  {
    var rest := xs[1..];
    forall i, j | 0 <= i < j < |rest|
      ensures LessEq(rest[i], rest[j])
    {
      assert rest[i] == xs[i + 1] && rest[j] == xs[j + 1];
    }
  }

  /** When the head of an ascending list is not before `now`, nothing after
      it is. */
  lemma {:induction false} RestNotEarlier(xs: seq<string>, now: string)
    requires |xs| > 0 && Ascending(xs) && LessEq(now, xs[0])
    ensures forall i | 0 <= i < |xs[1..]| :: LessEq(now, xs[1..][i])
  {
    forall i | 0 <= i < |xs[1..]|
      ensures LessEq(now, xs[1..][i])
    {
      assert LessEq(xs[0], xs[i + 1]);
      LessEqTransitive(now, xs[0], xs[i + 1]);
    }
  }

  /** On an ascending list the past is a prefix and the future the rest: the
      split keeps the timetable's order. */
  lemma {:induction false} SplitAscending(xs: seq<string>, now: string)
    requires Ascending(xs)
    ensures Earlier(xs, now) + NotEarlier(xs, now) == xs
  {
    if |xs| > 0 {
      if Less(xs[0], now) {
        AscendingTail(xs);
        SplitAscending(xs[1..], now);
        EarlierHeadSplit(xs, now);
      } else {
        RestNotEarlier(xs, now);
        NoneEarlier(xs[1..], now);
        LaterHeadSplit(xs, now);
      }
    }
  }

  /** A head before `now` starts the past; the tail splits as before. */
  lemma {:induction false} EarlierHeadSplit(xs: seq<string>, now: string)
    requires |xs| > 0 && Less(xs[0], now)
    requires Earlier(xs[1..], now) + NotEarlier(xs[1..], now) == xs[1..]
    ensures Earlier(xs, now) + NotEarlier(xs, now) == xs
  {
    var e, n := Earlier(xs[1..], now), NotEarlier(xs[1..], now);
    assert Earlier(xs, now) == [xs[0]] + e;
    assert NotEarlier(xs, now) == n;
    ConsAppend(xs, Earlier(xs, now), NotEarlier(xs, now), e);
  }

  /** The head followed by the tail's two parts is the list. */
  lemma {:induction false} ConsAppend<T>(xs: seq<T>, a: seq<T>, b: seq<T>, e: seq<T>)
    requires |xs| > 0 && a == [xs[0]] + e && e + b == xs[1..]
    ensures a + b == xs
  {
    assert a + b == [xs[0]] + (e + b);
    assert xs == [xs[0]] + xs[1..];
  }

  /** A head at or after `now`, with nothing earlier after it, puts the
      whole list in the future. */
  lemma {:induction false} LaterHeadSplit(xs: seq<string>, now: string)
    requires |xs| > 0 && !Less(xs[0], now)
    requires Earlier(xs[1..], now) == [] && NotEarlier(xs[1..], now) == xs[1..]
    ensures Earlier(xs, now) + NotEarlier(xs, now) == xs
  {
    assert Earlier(xs, now) == [];
    assert NotEarlier(xs, now) == [xs[0]] + xs[1..];
    assert xs == [xs[0]] + xs[1..];
  }

  /** `>` and `>=` select the same times unless `now` itself is in the
      list. */
  lemma {:induction false} LaterWithoutNow(xs: seq<string>, now: string)
    requires now !in xs
    ensures Later(xs, now) == NotEarlier(xs, now)
  {
    if |xs| > 0 {
      LaterWithoutNow(xs[1..], now);
      LessEqIsLessOrEqual(now, xs[0]);
    }
  }

  /** JavaScript's relative `slice` index: negative counts from the end;
      the result is clamped to the list. */
  function SliceIndex(len: nat, k: int): (r: nat)
    ensures r <= len
    ensures k >= 0 ==> r == if k < len then k else len
    ensures k < 0 ==> r == if len + k > 0 then len + k else 0
  {
    if k < 0 then (if len + k > 0 then len + k else 0)
    else if k < len then k else len
  }

  /** `xs.slice(start, end)`. */
  function Slice<T>(xs: seq<T>, start: int, end: int): (r: seq<T>)
  {
    var s, e := SliceIndex(|xs|, start), SliceIndex(|xs|, end);
    if s < e then xs[s..e] else []
  }

  /** `xs.slice(start)`. */
  function SliceFrom<T>(xs: seq<T>, start: int): (r: seq<T>)
  {
    xs[SliceIndex(|xs|, start)..]
  }

  /** `xs.slice(0, n)`: the first `n` elements, or all of them when there
      are fewer. */
  lemma {:induction false} SliceFront<T>(xs: seq<T>, n: nat)
    ensures Slice(xs, 0, n) == if n <= |xs| then xs[..n] else xs
  {
  }

  /** `xs.slice(-1)`: the last element, or nothing for an empty list. */
  lemma {:induction false} SliceLast<T>(xs: seq<T>)
    ensures SliceFrom(xs, -1) == if |xs| == 0 then [] else [xs[|xs| - 1]]
  {
  }
}

=== FILE: strings.dfy ===
/** String helpers with the semantics of the Python and JavaScript library
    calls the system relies on: `str.strip()`, `split(sep)`, `'x' in s`,
    `str.lower()` and `int()`. */
module Strings {
  import opened Wrappers

  /** Python's `str.isspace()`. */
  predicate IsSpace(c: char)
  {
    var n := c as int;
    (9 <= n <= 13) || (28 <= n <= 32) || n == 0x85 || n == 0xA0 || n == 0x1680
    || (0x2000 <= n <= 0x200A) || n == 0x2028 || n == 0x2029 || n == 0x202F
    || n == 0x205F || n == 0x3000
  }

  /** The first index at or after `i` that is not white space, or `|s|`. */
  function SkipSpaceFrom(s: string, i: nat): (j: nat)
    requires i <= |s|
    ensures i <= j <= |s|
    ensures forall k | i <= k < j :: IsSpace(s[k])
    ensures j < |s| ==> !IsSpace(s[j])
    decreases |s| - i
  {
    if i < |s| && IsSpace(s[i]) then SkipSpaceFrom(s, i + 1) else i
  }

  /** The end of `s[..j]` once trailing white space is dropped, but not below `lo`. */
  function SkipSpaceBack(s: string, lo: nat, j: nat): (e: nat)
    requires lo <= j <= |s|
    ensures lo <= e <= j
    ensures forall k | e <= k < j :: IsSpace(s[k])
    ensures e > lo ==> !IsSpace(s[e - 1])
    decreases j
  {
    if j > lo && IsSpace(s[j - 1]) then SkipSpaceBack(s, lo, j - 1) else j
  }

  /** Python's `str.strip()` with no argument: removes white space at both ends. */
  function Strip(s: string): (r: string)
    ensures |r| <= |s|
    ensures |r| > 0 ==> !IsSpace(r[0]) && !IsSpace(r[|r| - 1])
  {
    var b := SkipSpaceFrom(s, 0);
    var e := SkipSpaceBack(s, b, |s|);
    s[b..e]
  }

  /** The first index at or after `i` that is white space, or `|s|`. */
  function WordEnd(s: string, i: nat): (j: nat)
    requires i <= |s|
    ensures i <= j <= |s|
    ensures forall k | i <= k < j :: !IsSpace(s[k])
    ensures j < |s| ==> IsSpace(s[j])
    decreases |s| - i
  {
    if i < |s| && !IsSpace(s[i]) then WordEnd(s, i + 1) else i
  }

  /** The words of `s[i..]`: maximal runs of characters that are not white space. */
  function WordsFrom(s: string, i: nat): (w: seq<string>)
    requires i <= |s|
    ensures forall n | 0 <= n < |w| :: |w[n]| > 0 && forall k | 0 <= k < |w[n]| :: !IsSpace(w[n][k])
    ensures forall n, k | 0 <= n < |w| && 0 <= k < |w[n]| :: w[n][k] in s
    decreases |s| - i
  {
    var b := SkipSpaceFrom(s, i);
    if b == |s| then []
    else
      var e := WordEnd(s, b);
      var first := s[b..e];
      assert forall k | 0 <= k < |first| :: first[k] == s[b + k];
      [first] + WordsFrom(s, e)
  }

  /** Python's `str.split()` with no argument. */
  function Words(s: string): (w: seq<string>)
    ensures forall n | 0 <= n < |w| :: |w[n]| > 0 && forall k | 0 <= k < |w[n]| :: !IsSpace(w[n][k])
    ensures forall n, k | 0 <= n < |w| && 0 <= k < |w[n]| :: w[n][k] in s
  {
    WordsFrom(s, 0)
  }

  /** Two words separated by white space split back into those two words:
      `str.split()` undoes a join on spaces. */
  lemma {:induction false} WordsOfTwo(a: string, gap: string, b: string)
    requires |a| > 0 && |b| > 0 && |gap| > 0
    requires forall k | 0 <= k < |a| :: !IsSpace(a[k])
    requires forall k | 0 <= k < |b| :: !IsSpace(b[k])
    requires forall k | 0 <= k < |gap| :: IsSpace(gap[k])
    ensures Words(a + gap + b) == [a, b]
  {
    var s := a + gap + b;
    FirstWordBounds(a, gap, b);
    SecondWordBounds(a, gap, b);
    assert SkipSpaceFrom(s, |s|) == |s|;
    assert WordsFrom(s, |s|) == [];
    assert WordsFrom(s, |a|) == [b] + WordsFrom(s, |s|);
    assert WordsFrom(s, 0) == [a] + WordsFrom(s, |a|);
  }

  lemma {:induction false} FirstWordBounds(a: string, gap: string, b: string)
    requires |a| > 0 && |gap| > 0
    requires forall k | 0 <= k < |a| :: !IsSpace(a[k])
    requires IsSpace(gap[0])
    ensures var s := a + gap + b;
      SkipSpaceFrom(s, 0) == 0 && WordEnd(s, 0) == |a| && s[0..|a|] == a
  {
    var s := a + gap + b;
    assert s[0] == a[0];
    assert forall k | 0 <= k < |a| :: s[k] == a[k];
    assert s[|a|] == gap[0];
  }

  lemma {:induction false} SecondWordBounds(a: string, gap: string, b: string)
    requires |b| > 0 && |gap| > 0
    requires forall k | 0 <= k < |b| :: !IsSpace(b[k])
    requires forall k | 0 <= k < |gap| :: IsSpace(gap[k])
    ensures var s, c := a + gap + b, |a| + |gap|;
      SkipSpaceFrom(s, |a|) == c && WordEnd(s, c) == |s| && s[c..|s|] == b
  {
    var s, c := a + gap + b, |a| + |gap|;
    assert forall k | |a| <= k < c :: s[k] == gap[k - |a|];
    assert s[c] == b[0];
    assert forall k | c <= k < |s| :: s[k] == b[k - c];
  }

  /** `parts.join(sep)`: the inverse of `Split`. */
  function Join(parts: seq<string>, sep: char): string
    requires |parts| > 0
  {
    if |parts| == 1 then parts[0] else parts[0] + [sep] + Join(parts[1..], sep)
  }

  /** `s.split(sep)` for a one-character separator: the same in Python and
      JavaScript. Empty fields are kept, so the result is never empty. */
  function Split(s: string, sep: char): (parts: seq<string>)
    ensures |parts| >= 1
    ensures forall i | 0 <= i < |parts| :: sep !in parts[i]
    ensures sep !in s ==> parts == [s]
    decreases |s|
  {
    if |s| == 0 then [""]
    else if s[0] == sep then [""] + Split(s[1..], sep)
    else
      var rest := Split(s[1..], sep);
      var first := [s[0]] + rest[0];
      assert sep !in first;
      assert sep !in s ==> first == s by {
        if sep !in s {
          assert sep !in s[1..];
          assert s == [s[0]] + s[1..];
        }
      }
      if |rest| == 1 then [first] else [first] + rest[1..]
  }

  /** Joining the fields of a split gives the text back. */
  lemma {:induction false} JoinSplit(s: string, sep: char)
    ensures Join(Split(s, sep), sep) == s
    decreases |s|
  {
    if |s| > 0 {
      JoinSplit(s[1..], sep);
      var rest := Split(s[1..], sep);
      if s[0] == sep {
        assert s == [sep] + s[1..];
      } else {
        var first := [s[0]] + rest[0];
        assert s == [s[0]] + s[1..];
        if |rest| > 1 {
          assert Join([first] + rest[1..], sep) == first + [sep] + Join(rest[1..], sep);
        }
      }
    }
  }

  /** Splitting a joined list gives the list back when no part holds the separator. */
  lemma {:induction false} SplitJoin(parts: seq<string>, sep: char)
    requires |parts| > 0
    requires forall i | 0 <= i < |parts| :: sep !in parts[i]
    ensures Split(Join(parts, sep), sep) == parts
    decreases |parts|, |parts[0]|
  {
    if |parts| == 1 {
    } else if |parts[0]| == 0 {
      SplitJoin(parts[1..], sep);
      EmptyFirstPart(parts, sep);
    } else {
      var tail := [parts[0][1..]] + parts[1..];
      assert forall i | 0 <= i < |tail| :: sep !in tail[i];
      SplitJoin(tail, sep);
      ShorterFirstPart(parts, sep);
    }
  }

  lemma {:induction false} EmptyFirstPart(parts: seq<string>, sep: char)
    requires |parts| > 1 && |parts[0]| == 0
    requires Split(Join(parts[1..], sep), sep) == parts[1..]
    ensures Split(Join(parts, sep), sep) == parts
  {
    var rest := Join(parts[1..], sep);
    var s := [sep] + rest;
    assert Join(parts, sep) == s by {
      assert parts[0] + [sep] == [sep];
    }
    assert Split(s, sep) == [""] + Split(rest, sep) by {
      assert s[0] == sep && s[1..] == rest;
    }
    assert parts == [""] + parts[1..];
  }

  /** The step that moves the first character of a non-empty first part. */
  lemma {:induction false} ShorterFirstPart(parts: seq<string>, sep: char)
    requires |parts| > 1 && |parts[0]| > 0 && sep !in parts[0]
    requires var tail := [parts[0][1..]] + parts[1..];
      Split(Join(tail, sep), sep) == tail
    ensures Split(Join(parts, sep), sep) == parts
  {
    var a := parts[0];
    var tail := [a[1..]] + parts[1..];
    var t := a[1..] + [sep] + Join(parts[1..], sep);
    var s := [a[0]] + t;
    assert Join(tail, sep) == t by {
      assert tail[0] == a[1..] && tail[1..] == parts[1..];
    }
    assert Join(parts, sep) == s by {
      assert a == [a[0]] + a[1..];
    }
    assert Split(s, sep) == [[a[0]] + tail[0]] + tail[1..] by {
      assert s[0] == a[0] && s[0] != sep && s[1..] == t;
    }
    assert [a[0]] + tail[0] == a;
    assert parts == [a] + tail[1..];
  }

  /** Splitting `a + [sep] + b` where `a` has no separator. */
  lemma {:induction false} SplitAt(a: string, sep: char, b: string)
    requires sep !in a
    ensures Split(a + [sep] + b, sep) == [a] + Split(b, sep)
  {
    var ps := Split(b, sep);
    JoinSplit(b, sep);
    SplitJoin([a] + ps, sep);
    assert ([a] + ps)[1..] == ps;
  }

  predicate StartsWith(s: string, p: string)
  {
    |p| <= |s| && s[..|p|] == p
  }

  /** `str.lower()` restricted to ASCII letters. */
  function LowerChar(c: char): char
  {
    if 'A' <= c <= 'Z' then (c as int + 32) as char else c
  }

  function Lower(s: string): (r: string)
    ensures |r| == |s| && forall i | 0 <= i < |s| :: r[i] == LowerChar(s[i])
  {
    seq(|s|, i requires 0 <= i < |s| => LowerChar(s[i]))
  }

  // ---------------------------------------------------------------------------
  // Decimal digits and Python's int()

  predicate IsDigit(c: char)
  {
    '0' <= c <= '9'
  }

  predicate AllDigits(s: string)
  {
    forall i | 0 <= i < |s| :: IsDigit(s[i])
  }

  function DigitChar(d: nat): (c: char)
    requires d < 10
    ensures IsDigit(c) && DigitValue(c) == d
  {
    (d + '0' as int) as char
  }

  function DigitValue(c: char): (d: nat)
    requires IsDigit(c)
    ensures d < 10
  {
    c as int - '0' as int
  }

  /** The value of a string of decimal digits; the empty string reads as 0,
      as JavaScript's `Number("")` does. */
  function DigitsValue(s: string): nat
    requires AllDigits(s)
  {
    if |s| == 0 then 0 else DigitsValue(s[..|s| - 1]) * 10 + DigitValue(s[|s| - 1])
  }

  /** `str(n)` / `String(n)` for a natural number: no leading zeros. */
  function DecimalString(n: nat): (s: string)
    ensures |s| > 0 && AllDigits(s)
    ensures DigitsValue(s) == n
    ensures n < 10 ==> s == [DigitChar(n)]
  {
    if n < 10 then [DigitChar(n)]
    else
      var s := DecimalString(n / 10) + [DigitChar(n % 10)];
      assert s[..|s| - 1] == DecimalString(n / 10);
      s
  }

  /** `str(i)` for any integer: a minus sign before the digits of `-i`. */
  function IntString(i: int): (s: string)
    ensures |s| > 0 && (i >= 0 ==> s == DecimalString(i))
    ensures forall k | 0 <= k < |s| :: IsDigit(s[k]) || s[k] == '-'
  {
    if i < 0 then "-" + DecimalString(-i) else DecimalString(i)
  }

  /** Python's `int(s)` on base-10 text: surrounding white space, an optional
      sign, then at least one ASCII digit. Anything else raises ValueError,
      which is `None` here. */
  function PyInt(s: string): Option<int>
  {
    SignedDecimal(Strip(s))
  }

  /** An optional sign followed by at least one digit, with nothing around it. */
  function SignedDecimal(t: string): (r: Option<int>)
    ensures AllDigits(t) && |t| > 0 ==> r == Some(DigitsValue(t))
  {
    if |t| > 1 && (t[0] == '+' || t[0] == '-') && AllDigits(t[1..]) then
      var v: int := DigitsValue(t[1..]);
      Some(if t[0] == '-' then -v else v)
    else if |t| > 0 && AllDigits(t) then Some(DigitsValue(t))
    else None
  }

  /** `int(str(n)) == n`: decimal text reads back as its value. */
  lemma {:induction false} PyIntOfDigits(s: string)
    requires AllDigits(s) && |s| > 0
    ensures PyInt(s) == Some(DigitsValue(s))
  {
    StripOfDigits(s);
  }

  lemma {:induction false} PyIntOfDecimal(n: nat)
    ensures PyInt(DecimalString(n)) == Some(n)
  {
    PyIntOfDigits(DecimalString(n));
  }

  /** `int(str(i)) == i` for negative numbers as well. */
  lemma {:induction false} PyIntOfIntString(i: int)
    ensures PyInt(IntString(i)) == Some(i)
  {
    if i < 0 {
      var t := IntString(i);
      assert t[0] == '-' && t[1..] == DecimalString(-i);
      assert !IsSpace(t[0]) && !IsSpace(t[|t| - 1]);
      StripClean(t);
    } else {
      PyIntOfDecimal(i);
    }
  }

  /** Text that neither starts nor ends with white space is left as it is. */
  lemma {:induction false} StripClean(s: string)
    requires |s| > 0 && !IsSpace(s[0]) && !IsSpace(s[|s| - 1])
    ensures Strip(s) == s
  {
    assert SkipSpaceFrom(s, 0) == 0;
    assert SkipSpaceBack(s, 0, |s|) == |s|;
    assert s[0..|s|] == s;
  }

  /** A digit string has no white space to strip. */
  lemma {:induction false} StripOfDigits(s: string)
    requires AllDigits(s) && |s| > 0
    ensures Strip(s) == s
  {
    assert !IsSpace(s[0]) && !IsSpace(s[|s| - 1]);
    StripClean(s);
  }
}

=== FILE: timetable.dfy ===
/** The static timetable every front end reads: station name to direction
    name to the ordered list of time strings. Train `i` of a direction is
    element `i` of every station's list for that direction; there is no
    other train identity. */
module Timetable {
  import opened Wrappers

  type Table = map<string, map<string, seq<string>>>

  /** The two direction keys, named after the terminus a train runs to. */
  const Motijheel: string := "Motijheel"
  const UttaraNorth: string := "Uttara North"

  /** `stationsOrder` of docs/train_map.js and docs/train_details.js, and the
      `stationOrder` of docs/script.js: the line from north to south. */
  const StationsOrder: seq<string> := [
    "Uttara North", "Uttara Center", "Uttara South", "Pallabi", "Mirpur 11", "Mirpur 10",
    "Kazipara", "Sewrapara", "Agargoan", "Bijoy Sarani", "Farmgate", "Karwan Bazar",
    "Shahbag", "Dhaka University", "Bangladesh Secretariat", "Motijheel"
  ]

  /** `[...xs].reverse()`. */
  function Reverse<T>(xs: seq<T>): (r: seq<T>)
    ensures |r| == |xs|
    ensures forall i | 0 <= i < |xs| :: r[i] == xs[|xs| - 1 - i]
  {
    if |xs| == 0 then [] else Reverse(xs[1..]) + [xs[0]]
  }

  /** The stations a train visits, in order: the line order for trains to
      Motijheel and its reverse for any other direction value. */
  function TravelOrder(direction: string): (r: seq<string>)
    ensures |r| == |StationsOrder|
    ensures direction == Motijheel ==> r == StationsOrder
    ensures direction != Motijheel ==> forall i | 0 <= i < |r| :: r[i] == StationsOrder[|StationsOrder| - 1 - i]
  {
    if direction == Motijheel then StationsOrder else Reverse(StationsOrder)
  }

  /** `data[station][direction]`, `undefined` when either key is missing. */
  function Times(tt: Table, station: string, direction: string): (r: Option<seq<string>>)
    ensures r.Some? <==> station in tt && direction in tt[station]
  {
    if station in tt && direction in tt[station] then Some(tt[station][direction]) else None
  }

  /** JavaScript `Array.prototype.indexOf`: the first position holding `x`,
      or -1. */
  function IndexOf<T(==)>(xs: seq<T>, x: T): (r: int)
    ensures -1 <= r < |xs|
    ensures r == -1 <==> x !in xs
    ensures r >= 0 ==> xs[r] == x && x !in xs[..r]
  {
    if |xs| == 0 then -1
    else if xs[0] == x then 0
    else
      var k := IndexOf(xs[1..], x);
      assert k >= 0 ==> xs[1..][..k] == xs[1..k + 1];
      assert k >= 0 ==> xs[..k + 1] == [xs[0]] + xs[1..k + 1];
      if k == -1 then -1 else k + 1
  }

  /** An ordered pair of the tail is an ordered pair of the list. */
  lemma {:induction false} ShiftPair(order: seq<string>, x: string, y: string)
    requires |order| > 0
    requires exists a, b | 0 <= a < b < |order[1..]| :: order[1..][a] == x && order[1..][b] == y
    ensures exists a, b | 0 <= a < b < |order| :: order[a] == x && order[b] == y
  {
    var a, b :| 0 <= a < b < |order[1..]| && order[1..][a] == x && order[1..][b] == y;
    assert order[a + 1] == x && order[b + 1] == y;
  }

  /** The head comes before anything of the tail. */
  lemma {:induction false} HeadPair(order: seq<string>, y: string)
    requires |order| > 0 && y in order[1..]
    ensures exists a, b | 0 <= a < b < |order| :: order[a] == order[0] && order[b] == y
  {
    var b :| 0 <= b < |order[1..]| && order[1..][b] == y;
    assert order[0] == order[0] && order[b + 1] == y;
  }
}

=== FILE: train_details.dfy ===
/** The journey page of one train (docs/train_details.js). The page is
    opened with the station, the time chosen there and the direction; it
    finds that train's index in the station's list, collects the train's
    stops along the line, labels each stop against the `HH:MM` clock, and
    places a marker on the segment the train is travelling. The URL
    parameters, the fetched timetable and the clock are parameters. */
module TrainDetails {
  import opened Wrappers
  import opened JsNumber
  import LexOrder
  import Clock
  import Timetable
  import TrainMap
  import ScheduleView

  // ---------------------------------------------------------------------------
  // Opening the page

  /** `urlParams.get(...)` of `station`, `time`, `direction` and `file`;
      `None` for an absent parameter. */
  datatype Params = Params(station: Option<string>, time: Option<string>, direction: Option<string>, file: Option<string>)

  const DefaultFile: string := "mrt-6.json"

  /** A parameter JavaScript treats as true: present and not empty. */
  predicate Given(p: Option<string>)
  {
    p.Some? && p.value != ""
  }

  /** `urlParams.get('file') || 'mrt-6.json'`. */
  function ScheduleFile(p: Params): (f: string)
    ensures Given(p.file) ==> f == p.file.value
    ensures !Given(p.file) ==> f == DefaultFile
  {
    if Given(p.file) then p.file.value else DefaultFile
  }

  /** The stops of the selected train that have an entry: a station is
      visited when it has a list for the direction long enough to hold the
      train, even if the entry is empty. */
  predicate Included(tt: Timetable.Table, station: string, direction: string, i: nat)
  {
    station in tt && direction in tt[station] && i < |tt[station][direction]|
  }

  function JourneyStop(tt: Timetable.Table, station: string, direction: string, i: nat): TrainMap.Stop
    requires Included(tt, station, direction, i)
  {
    var t := tt[station][direction][i];
    TrainMap.Stop(station, t, TimeToMinutes(t), Timetable.IndexOf(Timetable.StationsOrder, station))
  }

  /** The stations of `stations` that have an entry for train `i`, in
      order. */
  function IncludedStations(tt: Timetable.Table, stations: seq<string>, direction: string, i: nat): (r: seq<string>)
    ensures |r| <= |stations|
    ensures forall j | 0 <= j < |r| :: r[j] in stations && Included(tt, r[j], direction, i)
    ensures forall s | s in stations && Included(tt, s, direction, i) :: s in r
  {
    if |stations| == 0 then []
    else
      var rest := IncludedStations(tt, stations[1..], direction, i);
      assert forall s | s in stations && s != stations[0] :: s in stations[1..];
      if Included(tt, stations[0], direction, i) then [stations[0]] + rest else rest
  }

  /** The included stations keep their travel order: of any two, the
      earlier one comes first in `stations`. */
  lemma {:induction false} IncludedInOrder(tt: Timetable.Table, stations: seq<string>, direction: string, i: nat, j: nat, l: nat)
    requires j < l < |IncludedStations(tt, stations, direction, i)|
    ensures var r := IncludedStations(tt, stations, direction, i);
      exists a, b | 0 <= a < b < |stations| :: stations[a] == r[j] && stations[b] == r[l]
  {
    var r := IncludedStations(tt, stations, direction, i);
    var rest := IncludedStations(tt, stations[1..], direction, i);
    if !Included(tt, stations[0], direction, i) {
      assert r == rest;
      IncludedInOrder(tt, stations[1..], direction, i, j, l);
      Timetable.ShiftPair(stations, r[j], r[l]);
    } else if j == 0 {
      assert r == [stations[0]] + rest;
      assert r[l] == rest[l - 1] && rest[l - 1] in stations[1..];
      Timetable.HeadPair(stations, r[l]);
    } else {
      assert r == [stations[0]] + rest;
      assert r[j] == rest[j - 1] && r[l] == rest[l - 1];
      IncludedInOrder(tt, stations[1..], direction, i, j - 1, l - 1);
      Timetable.ShiftPair(stations, r[j], r[l]);
    }
  }

  /** Step 3 of the page: one stop per included station, in travel order. */
  function Journey(tt: Timetable.Table, stations: seq<string>, direction: string, i: nat): (r: seq<TrainMap.Stop>)
    ensures |r| == |IncludedStations(tt, stations, direction, i)|
    ensures forall j | 0 <= j < |r| ::
      var s := IncludedStations(tt, stations, direction, i)[j];
      Included(tt, s, direction, i) && r[j] == JourneyStop(tt, s, direction, i)
  {
    var names := IncludedStations(tt, stations, direction, i);
    seq(|names|, j requires 0 <= j < |names| => JourneyStop(tt, names[j], direction, i))
  }

  /** What the page arrives at: an error message, or the train's index and
      its journey. */
  datatype Outcome =
    | MissingDetails
    | LoadFailed
    | StationNotFound
    | TimeNotFound
    | Found(trainIndex: nat, stops: seq<TrainMap.Stop>)

  /** Opening the page with parameters `p` and the fetched timetable
      (`None` when fetching or reading it failed). */
  function Open(p: Params, data: Option<Timetable.Table>): (r: Outcome)
    ensures r == MissingDetails <==> !(Given(p.station) && Given(p.time) && Given(p.direction))
    ensures r == LoadFailed <==> Given(p.station) && Given(p.time) && Given(p.direction) && data.None?
    ensures r == StationNotFound <==> (Given(p.station) && Given(p.time) && Given(p.direction) && data.Some?
      && Timetable.Times(data.value, p.station.value, p.direction.value).None?)
    ensures r == TimeNotFound || r.Found? ==>
      Given(p.station) && Given(p.time) && Given(p.direction) && data.Some?
      && p.station.value in data.value && p.direction.value in data.value[p.station.value]
    ensures r == TimeNotFound ==> p.time.value !in data.value[p.station.value][p.direction.value]
    ensures r.Found? ==>
      var list := data.value[p.station.value][p.direction.value];
      r.trainIndex < |list| && list[r.trainIndex] == p.time.value && p.time.value !in list[..r.trainIndex]
      && r.stops == Journey(data.value, Timetable.TravelOrder(p.direction.value), p.direction.value, r.trainIndex)
  {
    if !(Given(p.station) && Given(p.time) && Given(p.direction)) then MissingDetails
    else if data.None? then LoadFailed
    else
      var tt, station, direction := data.value, p.station.value, p.direction.value;
      if station !in tt || direction !in tt[station] then StationNotFound
      else
        var i := Timetable.IndexOf(tt[station][direction], p.time.value);
        if i == -1 then TimeNotFound
        else Found(i, Journey(tt, Timetable.TravelOrder(direction), direction, i))
  }

  /** The chosen stop is on the journey at the chosen time, whenever the
      station is on the line. */
  lemma {:induction false} OpenFindsSource(p: Params, data: Option<Timetable.Table>)
    requires Open(p, data).Found? && p.station.value in Timetable.StationsOrder
    ensures var stops := Open(p, data).stops;
      exists j | 0 <= j < |stops| :: stops[j].station == p.station.value && stops[j].timeStr == p.time.value
  {
    var r := Open(p, data);
    var tt, station, direction := data.value, p.station.value, p.direction.value;
    var order := Timetable.TravelOrder(direction);
    OnTheLine(direction, station);
    var names := IncludedStations(tt, order, direction, r.trainIndex);
    assert station in names;
    var j :| 0 <= j < |names| && names[j] == station;
    assert r.stops[j].station == station && r.stops[j].timeStr == p.time.value by {
      assert r.stops[j] == JourneyStop(tt, station, direction, r.trainIndex);
    }
  }

  /** Every station of the line is visited in either direction. */
  lemma {:induction false} OnTheLine(direction: string, station: string)
    requires station in Timetable.StationsOrder
    ensures station in Timetable.TravelOrder(direction)
  {
    var order := Timetable.TravelOrder(direction);
    var k := Timetable.IndexOf(Timetable.StationsOrder, station);
    if direction != Timetable.Motijheel {
      assert order[|Timetable.StationsOrder| - 1 - k] == station;
    } else {
      assert order[k] == station;
    }
  }

  /** On a complete train the journey page and the line map agree: the
      journey is exactly the train the map builds. */
  lemma {:induction false} JourneyOfCompleteTrain(tt: Timetable.Table, direction: string, i: nat)
    requires TrainMap.BuildTrain(tt, direction, i).Some?
    ensures Journey(tt, Timetable.TravelOrder(direction), direction, i) == TrainMap.BuildTrain(tt, direction, i).value
  {
    JourneyOfWalk(tt, Timetable.TravelOrder(direction), direction, i);
  }

  /** The page's journey over stations that all have train `i` is the
      map's walk over them. */
  lemma {:induction false} JourneyOfWalk(tt: Timetable.Table, stations: seq<string>, direction: string, i: nat)
    requires TrainMap.Walk(tt, stations, direction, i).Some?
    ensures Journey(tt, stations, direction, i) == TrainMap.Walk(tt, stations, direction, i).value
  {
    var built := TrainMap.Walk(tt, stations, direction, i).value;
    TrainMap.WalkStops(tt, stations, direction, i);
    AllIncluded(tt, stations, direction, i);
    var journey := Journey(tt, stations, direction, i);
    assert |journey| == |built|;
    forall j | 0 <= j < |built|
      ensures journey[j] == built[j]
    {
      assert TrainMap.HasEntry(tt, stations[j], direction, i);
    }
  }

  /** When every station is included, nothing is skipped. */
  lemma {:induction false} AllIncluded(tt: Timetable.Table, stations: seq<string>, direction: string, i: nat)
    requires forall j | 0 <= j < |stations| :: Included(tt, stations[j], direction, i)
    ensures IncludedStations(tt, stations, direction, i) == stations
  {
    if |stations| > 0 {
      assert forall j | 0 <= j < |stations[1..]| :: stations[1..][j] == stations[j + 1];
      AllIncluded(tt, stations[1..], direction, i);
    }
  }

  // ---------------------------------------------------------------------------
  // The timeline

  /** `journey[i].time <= currentTime` as the page compares, or by the
      `HH:MM` part of the stop's time. */
  function Reached(m: ScheduleView.Matching, stop: TrainMap.Stop, now: string): (b: bool)
    ensures m == ScheduleView.ByMinute && LexOrder.LessEq(stop.timeStr, now) ==> b
  {
    var t := if m == ScheduleView.Exact then stop.timeStr else ScheduleView.MinuteKey(stop.timeStr);
    KeyBefore(stop.timeStr, now);
    LexOrder.LessEq(t, now)
  }

  /** The `HH:MM` part of a time sorts no later than the time itself. */
  lemma {:induction false} KeyBefore(t: string, now: string)
    ensures LexOrder.LessEq(t, now) ==> LexOrder.LessEq(ScheduleView.MinuteKey(t), now)
  {
    var k := ScheduleView.MinuteKey(t);
    if LexOrder.LessEq(t, now) && |t| > 5 {
      assert t == k + t[5..];
      LexOrder.ProperPrefix(k, t[5..]);
      LexOrder.LessEqIsLessOrEqual(k, t);
      LexOrder.LessEqTransitive(k, t, now);
    } else if |t| == 5 {
      assert k == t;
    }
  }

  /** `currentStationIndex`: the last stop of the run of reached stops at
      the start of the journey, or -1 when the first is not reached. */
  function CurrentStation(m: ScheduleView.Matching, journey: seq<TrainMap.Stop>, now: string): (c: int)
    ensures -1 <= c < |journey|
    ensures forall j | 0 <= j <= c :: Reached(m, journey[j], now)
    ensures c + 1 < |journey| ==> !Reached(m, journey[c + 1], now)
  {
    if |journey| == 0 || !Reached(m, journey[0], now) then -1
    else 1 + CurrentStation(m, journey[1..], now)
  }

  /** The loop of `renderTimeline`, which stops at the first stop not
      reached. */
  method FindCurrentStation(m: ScheduleView.Matching, journey: seq<TrainMap.Stop>, now: string) returns (c: int)
    ensures c == CurrentStation(m, journey, now)
  {
    c := -1;
    var i := 0;
    while i < |journey|
      invariant 0 <= i <= |journey| && c == i - 1
      invariant forall j | 0 <= j < i :: Reached(m, journey[j], now)
    {
      if Reached(m, journey[i], now) {
        c := i;
      } else {
        break;
      }
      i := i + 1;
    }
    CurrentStationUnique(m, journey, now, c);
  }

  /** The contract of `CurrentStation` pins it down. */
  lemma {:induction false} CurrentStationUnique(m: ScheduleView.Matching, journey: seq<TrainMap.Stop>, now: string, c: int)
    requires -1 <= c < |journey|
    requires forall j | 0 <= j <= c :: Reached(m, journey[j], now)
    requires c + 1 < |journey| ==> !Reached(m, journey[c + 1], now)
    ensures c == CurrentStation(m, journey, now)
  {
    var d := CurrentStation(m, journey, now);
    assert !(c < d);
    assert !(d < c);
  }

  /** The badge of a stop. */
  datatype Badge = Departed | Arrived | CurrentLocation | Expected | StartsHere

  /** The badge text of stop `index` of `len` when the current station is
      `c`; `'Starts Here'` overrides the first stop's badge when no stop is
      reached. */
  function BadgeOf(c: int, index: nat, len: nat): (r: Badge)
    ensures r == StartsHere <==> c == -1 && index == 0
    ensures r == Departed <==> index < c
    ensures r == Arrived <==> index == c && index == len - 1
    ensures r == Expected <==> index > c && !(c == -1 && index == 0)
  {
    if c == -1 && index == 0 then StartsHere
    else if index < c then Departed
    else if index == c then (if index == len - 1 then Arrived else CurrentLocation)
    else Expected
  }

  /** `renderTimeline(journey, currentTime)`: the badge of every stop. */
  function Timeline(m: ScheduleView.Matching, journey: seq<TrainMap.Stop>, now: string): (r: seq<Badge>)
    ensures |r| == |journey|
  {
    var c := CurrentStation(m, journey, now);
    seq(|journey|, j requires 0 <= j < |journey| => BadgeOf(c, j, |journey|))
  }

  /** The timeline reads from the start: departed stops, then the current
      stop (or the terminus, arrived), then expected ones; with no stop
      reached the first one says where the train starts. */
  lemma {:induction false} TimelineShape(m: ScheduleView.Matching, journey: seq<TrainMap.Stop>, now: string)
    requires |journey| > 0
    ensures var r, c := Timeline(m, journey, now), CurrentStation(m, journey, now);
      c == -1 ==> r[0] == StartsHere && forall j | 1 <= j < |r| :: r[j] == Expected
    ensures var r, c := Timeline(m, journey, now), CurrentStation(m, journey, now);
      c >= 0 ==>
        (forall j | 0 <= j < |r| :: (r[j] == Departed <==> j < c) && (r[j] == Expected <==> j > c))
        && r[c] == (if c == |r| - 1 then Arrived else CurrentLocation)
    ensures forall j | 0 <= j < |journey| :: Timeline(m, journey, now)[j] in {Departed, Arrived, CurrentLocation} ==> Reached(m, journey[j], now)
  {
  }

  /** As the page compares, a stop at `HH:MM:SS` counts as reached only
      from the minute after it: during its own minute it is still
      expected. */
  lemma {:induction false} ExactReachedLate(stop: TrainMap.Stop, s: nat, t: nat)
    requires s < Clock.SecondsPerDay && t < Clock.MinutesPerDay && stop.timeStr == Clock.FormatHMS(s)
    ensures Reached(ScheduleView.Exact, stop, Clock.FormatHM(t)) <==> s / 60 < t
  {
    Clock.SecondsVersusMinute(s, t);
    LexOrder.LessEqIsLessOrEqual(Clock.FormatHMS(s), Clock.FormatHM(t));
  }

  /** Compared by its `HH:MM` part, a stop is reached from its own minute
      on. */
  lemma {:induction false} MinuteReached(stop: TrainMap.Stop, s: nat, t: nat)
    requires s < Clock.SecondsPerDay && t < Clock.MinutesPerDay && stop.timeStr == Clock.FormatHMS(s)
    ensures Reached(ScheduleView.ByMinute, stop, Clock.FormatHM(t)) <==> s / 60 <= t
  {
    Clock.HMSExtendsHM(s);
    assert ScheduleView.MinuteKey(stop.timeStr) == Clock.FormatHM(s / 60);
    Clock.FormatHMOrder(s / 60, t);
    ScheduleView.FormatHMInjective(s / 60, t);
    LexOrder.LessEqIsLessOrEqual(Clock.FormatHM(s / 60), Clock.FormatHM(t));
  }

  // ---------------------------------------------------------------------------
  // The marker

  /** Vertical distance between two station nodes: 600 px over the fifteen
      gaps of the line. */
  const Spacing: real := 600.0 / 15.0

  /** One frame of `animateTrain`: an exception on an empty journey (the
      first stop is `undefined`), no marker, or a marker on a segment with
      its progress and height. */
  datatype Position = Failed | NoMarker | OnSegment(segment: nat, progress: real, y: real)

  /** Segment `k` holds the train: `cur <= now < next`. */
  predicate Between(journey: seq<TrainMap.Stop>, now: real, k: nat)
    requires k + 1 < |journey|
  {
    Le(journey[k].minutes, Fin(now)) && Lt(Fin(now), journey[k + 1].minutes)
  }

  /** The first segment from `k` on that holds the train. */
  function FirstSegment(journey: seq<TrainMap.Stop>, now: real, k: nat): (r: Option<nat>)
    ensures r.Some? ==> k <= r.value && r.value + 1 < |journey| && Between(journey, now, r.value)
    ensures r.Some? ==> forall j | k <= j < r.value :: !Between(journey, now, j)
    ensures r.None? ==> forall j | k <= j && j + 1 < |journey| :: !Between(journey, now, j)
    decreases |journey| - k
  {
    if k + 1 >= |journey| then None
    else if Between(journey, now, k) then Some(k)
    else FirstSegment(journey, now, k + 1)
  }

  /** `currentMinutes >= startTime && currentMinutes <= endTime`. */
  predicate RunsAt(journey: seq<TrainMap.Stop>, now: real)
    requires |journey| > 0
  {
    Le(journey[0].minutes, Fin(now)) && Le(Fin(now), journey[|journey| - 1].minutes)
  }

  /** `update()` at minute `now` (with the seconds as a fraction). */
  function Animate(journey: seq<TrainMap.Stop>, now: real): (r: Position)
    ensures r == Failed <==> |journey| == 0
    ensures r.OnSegment? ==>
      Le(journey[0].minutes, Fin(now)) && Le(Fin(now), journey[|journey| - 1].minutes)
      && FirstSegment(journey, now, 0) == Some(r.segment)
      && 0.0 <= r.progress < 1.0
    ensures r == NoMarker <==>
      (|journey| > 0 && (!RunsAt(journey, now) || FirstSegment(journey, now, 0).None?))
    ensures |journey| > 0 && RunsAt(journey, now) && FirstSegment(journey, now, 0).Some? ==>
      var k := FirstSegment(journey, now, 0).value;
      var a, b := journey[k].stationIndex as real * Spacing, journey[k + 1].stationIndex as real * Spacing;
      r.OnSegment? && r.segment == k
      && r.progress == (now - journey[k].minutes.v) / (journey[k + 1].minutes.v - journey[k].minutes.v)
      && r.y == a + (b - a) * r.progress
  {
    if |journey| == 0 then Failed
    else if !RunsAt(journey, now) then NoMarker
    else
      var k := FirstSegment(journey, now, 0);
      if k.None? then NoMarker
      else
        var cur, next := journey[k.value], journey[k.value + 1];
        var progress := (now - cur.minutes.v) / (next.minutes.v - cur.minutes.v);
        TrainMap.FractionBelowOne(now - cur.minutes.v, next.minutes.v - cur.minutes.v);
        var startY := cur.stationIndex as real * Spacing;
        var endY := next.stationIndex as real * Spacing;
        OnSegment(k.value, progress, startY + (endY - startY) * progress)
  }

  /** The marker lies between the two stations of its segment. */
  lemma {:induction false} MarkerBetweenStations(journey: seq<TrainMap.Stop>, now: real)
    requires Animate(journey, now).OnSegment?
    ensures var r := Animate(journey, now);
      var a, b := journey[r.segment].stationIndex as real * Spacing, journey[r.segment + 1].stationIndex as real * Spacing;
      (a <= r.y <= b) || (b <= r.y <= a)
  {
    var r := Animate(journey, now);
    var a, b := journey[r.segment].stationIndex as real * Spacing, journey[r.segment + 1].stationIndex as real * Spacing;
    Interpolate(a, b, r.progress);
  }

  lemma {:induction false} Interpolate(a: real, b: real, p: real)
    requires 0.0 <= p < 1.0
    ensures var y := a + (b - a) * p;
      (a <= y <= b) || (b <= y <= a)
  {
    var d := if a <= b then b - a else a - b;
    NonNegativeProduct(d, p);
    NonNegativeProduct(d, 1.0 - p);
    assert d * p + d * (1.0 - p) == d;
  }

  lemma {:induction false} NonNegativeProduct(x: real, y: real)
    requires x >= 0.0 && y >= 0.0
    ensures x * y >= 0.0
  {
  }

  /** Minutes that are numbers and never decrease along the journey. */
  predicate Ascending(journey: seq<TrainMap.Stop>)
  {
    (forall j | 0 <= j < |journey| :: journey[j].minutes.Fin?)
    && forall j, l | 0 <= j < l < |journey| :: journey[j].minutes.v <= journey[l].minutes.v
  }

  /** On ascending times the marker is drawn from the first stop up to,
      but not including, the terminus minute. */
  lemma {:induction false} MarkerWhileRunning(journey: seq<TrainMap.Stop>, now: real)
    requires |journey| > 0 && Ascending(journey)
    requires journey[0].minutes.v <= now < journey[|journey| - 1].minutes.v
    ensures Animate(journey, now).OnSegment?
  {
    SegmentFrom(journey, now, 0);
  }

  /** Past stop `k` and before the terminus, some segment from `k` on holds
      the train. */
  lemma {:induction false} SegmentFrom(journey: seq<TrainMap.Stop>, now: real, k: nat)
    requires Ascending(journey) && k < |journey|
    requires journey[k].minutes.v <= now < journey[|journey| - 1].minutes.v
    ensures FirstSegment(journey, now, k).Some?
    decreases |journey| - k
  {
    if k + 1 == |journey| {
      assert false;
    } else if !Between(journey, now, k) {
      SegmentFrom(journey, now, k + 1);
    }
  }

  /** At the minute the train reaches its terminus no segment holds it, so
      the marker disappears although the train still counts as running. */
  lemma {:induction false} NoMarkerOnArrival(journey: seq<TrainMap.Stop>)
    requires |journey| > 0 && Ascending(journey)
    ensures Animate(journey, journey[|journey| - 1].minutes.v) == NoMarker
  {
    var now := journey[|journey| - 1].minutes.v;
    forall j | 0 <= j && j + 1 < |journey|
      ensures !Between(journey, now, j)
    {
      assert journey[j + 1].minutes.v <= now;
    }
  }
}

=== FILE: train_map.dfy ===
/** The live line map (docs/train_map.js). Every train of a direction is
    rebuilt from the timetable by index, visiting the sixteen stations in
    travel order; a train that is running is placed on the map as arriving
    at a station (the minute before it), departing it (a quarter of a
    minute after), or between two stations with the fraction of the
    segment covered. The station panel lists each direction's trains in a
    window around the current minute. Times are minutes of the day as
    JavaScript numbers; "now" is a parameter. */
module TrainMap {
  import opened Wrappers
  import opened JsNumber
  import Timetable

  /** `ARRIVAL_WINDOW` and `DEPARTURE_WINDOW`, in minutes. */
  const ArrivalWindow: real := 1.0
  const DepartureWindow: real := 0.25

  // ---------------------------------------------------------------------------
  // The direction filter

  const AllFilter: string := "all"
  const MotijheelFilter: string := "motijheel"
  const UttaraFilter: string := "uttara"

  /** `toggleFilter(filter)`: choosing the active filter again resets to
      `'all'`. */
  function ToggleFilter(active: string, f: string): (r: string)
    ensures active == f ==> r == AllFilter
    ensures active != f ==> r == f
  {
    if active == f then AllFilter else f
  }

  /** Toggling the same filter twice from `'all'` comes back to `'all'`. */
  lemma {:induction false} ToggleTwice(f: string)
    ensures ToggleFilter(ToggleFilter(AllFilter, f), f) == AllFilter
  {
  }

  /** The directions `animateTrains` processes under a filter, in order. */
  function FilteredDirections(filter: string): (r: seq<string>)
    ensures Timetable.Motijheel in r <==> filter == AllFilter || filter == MotijheelFilter
    ensures Timetable.UttaraNorth in r <==> filter == AllFilter || filter == UttaraFilter
    ensures |r| <= 2
  {
    (if filter == AllFilter || filter == MotijheelFilter then [Timetable.Motijheel] else [])
    + (if filter == AllFilter || filter == UttaraFilter then [Timetable.UttaraNorth] else [])
  }

  // ---------------------------------------------------------------------------
  // Rebuilding a train

  /** One stop of a train: station, time text, minutes and the station's
      position on the line. */
  datatype Stop = Stop(station: string, timeStr: string, minutes: Num, stationIndex: int)

  /** `data[station] && data[station][direction] && data[station][direction][i]`:
      the entry exists and is not the empty string. */
  function HasEntry(tt: Timetable.Table, station: string, direction: string, i: nat): (b: bool)
    ensures b ==> Timetable.Times(tt, station, direction).Some? && i < |Timetable.Times(tt, station, direction).value|
  {
    station in tt && direction in tt[station] && i < |tt[station][direction]| && tt[station][direction][i] != ""
  }

  function StopAt(tt: Timetable.Table, station: string, direction: string, i: nat): Stop
    requires HasEntry(tt, station, direction, i)
  {
    var t := tt[station][direction][i];
    Stop(station, t, TimeToMinutes(t), Timetable.IndexOf(Timetable.StationsOrder, station))
  }

  /** Train `i` at the given stations: every stop or nothing, since one
      missing entry makes the train invalid. */
  function Walk(tt: Timetable.Table, stations: seq<string>, direction: string, i: nat): (r: Option<seq<Stop>>)
    ensures r.Some? ==> |r.value| == |stations|
  {
    if |stations| == 0 then Some([])
    else if !HasEntry(tt, stations[0], direction, i) then None
    else
      var rest := Walk(tt, stations[1..], direction, i);
      if rest.None? then None
      else Some([StopAt(tt, stations[0], direction, i)] + rest.value)
  }

  /** A finished walk holds, at every position, the stop built from that
      station's entry, and every station has one. */
  lemma {:induction false} WalkStops(tt: Timetable.Table, stations: seq<string>, direction: string, i: nat)
    requires Walk(tt, stations, direction, i).Some?
    ensures forall j | 0 <= j < |stations| ::
      HasEntry(tt, stations[j], direction, i) && Walk(tt, stations, direction, i).value[j] == StopAt(tt, stations[j], direction, i)
  {
    if |stations| > 0 {
      var rest := Walk(tt, stations[1..], direction, i).value;
      WalkStops(tt, stations[1..], direction, i);
      var r := Walk(tt, stations, direction, i).value;
      assert r == [StopAt(tt, stations[0], direction, i)] + rest;
      forall j | 0 < j < |stations|
        ensures HasEntry(tt, stations[j], direction, i) && r[j] == StopAt(tt, stations[j], direction, i)
      {
        assert stations[1..][j - 1] == stations[j] && r[j] == rest[j - 1];
      }
    }
  }

  /** When every station has its entry, the walk does not give up. */
  lemma {:induction false} WalkComplete(tt: Timetable.Table, stations: seq<string>, direction: string, i: nat)
    requires forall j | 0 <= j < |stations| :: HasEntry(tt, stations[j], direction, i)
    ensures Walk(tt, stations, direction, i).Some?
  {
    if |stations| > 0 {
      assert forall j | 0 <= j < |stations[1..]| :: stations[1..][j] == stations[j + 1];
      WalkComplete(tt, stations[1..], direction, i);
    }
  }

  /** The stops of train `i`: element `i` of every station's list, in
      travel order. */
  function BuildTrain(tt: Timetable.Table, direction: string, i: nat): (r: Option<seq<Stop>>)
    ensures r.Some? ==> |r.value| == |Timetable.StationsOrder|
  {
    Walk(tt, Timetable.TravelOrder(direction), direction, i)
  }

  /** Train `i` is built exactly when every station has a non-empty entry
      `i` for the direction, and then its stops are those entries in travel
      order. */
  lemma {:induction false} BuildTrainSpec(tt: Timetable.Table, direction: string, i: nat)
    ensures var order := Timetable.TravelOrder(direction);
      BuildTrain(tt, direction, i).Some? <==> forall j | 0 <= j < |order| :: HasEntry(tt, order[j], direction, i)
    ensures var order := Timetable.TravelOrder(direction);
      BuildTrain(tt, direction, i).Some? ==>
        forall j | 0 <= j < |order| :: BuildTrain(tt, direction, i).value[j].timeStr == tt[order[j]][direction][i]
  {
    var order := Timetable.TravelOrder(direction);
    if forall j | 0 <= j < |order| :: HasEntry(tt, order[j], direction, i) {
      WalkComplete(tt, order, direction, i);
    }
    if BuildTrain(tt, direction, i).Some? {
      WalkStops(tt, order, direction, i);
    }
  }

  /** The station whose list counts the trains: where the train starts. */
  function Origin(direction: string): (s: string)
    ensures s == Timetable.Motijheel || s == Timetable.UttaraNorth
    ensures s == Timetable.UttaraNorth <==> direction == Timetable.Motijheel
  {
    if direction == Timetable.Motijheel then Timetable.UttaraNorth else Timetable.Motijheel
  }

  /** The origin is the first station in travel order: the north end for
      trains to Motijheel, the south end for any other direction. */
  lemma {:induction false} OriginFirst(direction: string)
    ensures Origin(direction) == Timetable.TravelOrder(direction)[0]
  {
  }

  /** `trainCount`: the length of the origin's list; `None` when the origin
      or its direction is missing and nothing is drawn. */
  function TrainCount(tt: Timetable.Table, direction: string): (n: Option<nat>)
    ensures n.Some? <==> Timetable.Times(tt, Origin(direction), direction).Some?
    ensures n.Some? ==> n.value == |tt[Origin(direction)][direction]|
  {
    var t := Timetable.Times(tt, Origin(direction), direction);
    if t.Some? then Some(|t.value|) else None
  }

  // ---------------------------------------------------------------------------
  // Placing a train

  /** The train runs from its first time up to a quarter minute after its
      last. */
  function Running(s: seq<Stop>, now: real): (b: bool)
    requires |s| > 0
    ensures b ==> s[0].minutes.Fin? && s[|s| - 1].minutes.Fin?
    ensures b ==> s[0].minutes.v <= now <= s[|s| - 1].minutes.v + DepartureWindow
  {
    Le(s[0].minutes, Fin(now)) && Le(Fin(now), Add(s[|s| - 1].minutes, Fin(DepartureWindow)))
  }

  datatype Kind = Arriving | Departing | InTransit(progress: real)

  /** The minute before the next stop's time. */
  predicate ArrivingAt(next: Num, now: real)
  {
    next.Fin? && next.v - ArrivalWindow <= now < next.v
  }

  /** The quarter minute from the next stop's time. */
  predicate DepartingAt(next: Num, now: real)
  {
    next.Fin? && next.v <= now < next.v + DepartureWindow
  }

  /** From the current stop's time up to the arriving window. */
  predicate BetweenAt(cur: Num, next: Num, now: real)
  {
    cur.Fin? && next.Fin? && cur.v <= now < next.v - ArrivalWindow
  }

  /** The only instant the final-arrival check is reached and holds: the
      end of the last stop's departing window. */
  predicate FinalArrivalAt(next: Num, now: real)
  {
    next.Fin? && now == next.v + DepartureWindow
  }

  /** The four checks of one segment, `k` to `k + 1`, in the order they are
      tried; each kind is stated by the window in which it is the first
      check to match. */
  function SegmentKind(s: seq<Stop>, now: real, k: nat): (r: Option<Kind>)
    requires k + 1 < |s|
    ensures r == Some(Arriving) <==>
      ArrivingAt(s[k + 1].minutes, now) || (k == |s| - 2 && FinalArrivalAt(s[k + 1].minutes, now))
    ensures r == Some(Departing) <==> DepartingAt(s[k + 1].minutes, now)
    ensures (r.Some? && r.value.InTransit?) <==> BetweenAt(s[k].minutes, s[k + 1].minutes, now)
    ensures r.None? <==>
      !ArrivingAt(s[k + 1].minutes, now) && !DepartingAt(s[k + 1].minutes, now)
      && !BetweenAt(s[k].minutes, s[k + 1].minutes, now)
      && !(k == |s| - 2 && FinalArrivalAt(s[k + 1].minutes, now))
    ensures r.Some? && r.value.InTransit? ==>
      0.0 <= r.value.progress < 1.0
      && r.value.progress == (now - s[k].minutes.v) / (s[k + 1].minutes.v - s[k].minutes.v)
  {
    var cur, next, n := s[k].minutes, s[k + 1].minutes, Fin(now);
    var arrivalStart := Sub(next, Fin(ArrivalWindow));
    var departureEnd := Add(next, Fin(DepartureWindow));
    if Le(arrivalStart, n) && Lt(n, next) then Some(Arriving)
    else if Le(next, n) && Lt(n, departureEnd) then Some(Departing)
    else if Le(cur, n) && Lt(n, next) then
      var p := (now - cur.v) / (next.v - cur.v);
      assert 0.0 <= p < 1.0 by {
        FractionBelowOne(now - cur.v, next.v - cur.v);
      }
      Some(InTransit(p))
    else if k == |s| - 2 && Le(arrivalStart, n) && Le(n, Add(s[|s| - 1].minutes, Fin(DepartureWindow))) then Some(Arriving)
    else None
  }

  lemma {:induction false} FractionBelowOne(a: real, b: real)
    requires 0.0 <= a < b
    ensures 0.0 <= a / b < 1.0
  {
  }

  /** The search from segment `k` on: the first segment whose checks
      match, with what they found. */
  function Locate(s: seq<Stop>, now: real, k: nat): (r: Option<(nat, Kind)>)
    ensures r.Some? ==> k <= r.value.0 && r.value.0 + 1 < |s| && SegmentKind(s, now, r.value.0) == Some(r.value.1)
    ensures r.Some? ==> forall j | k <= j < r.value.0 :: SegmentKind(s, now, j).None?
    ensures r.None? ==> forall j | k <= j && j + 1 < |s| :: SegmentKind(s, now, j).None?
    decreases |s| - k
  {
    if k + 1 >= |s| then None
    else
      var here := SegmentKind(s, now, k);
      if here.Some? then Some((k, here.value)) else Locate(s, now, k + 1)
  }

  /** Stop times that are numbers and never go back in time. */
  predicate Ascending(s: seq<Stop>)
  {
    (forall j | 0 <= j < |s| :: s[j].minutes.Fin?)
    && forall j, l | 0 <= j < l < |s| :: s[j].minutes.v <= s[l].minutes.v
  }

  /** On ascending times, a train past stop `k` and not past the end of its
      run is found on some segment from `k` on: the four checks leave no
      gap. */
  lemma {:induction false} LocateRunning(s: seq<Stop>, now: real, k: nat)
    requires Ascending(s) && k + 1 < |s|
    requires s[k].minutes.v <= now <= s[|s| - 1].minutes.v + DepartureWindow
    ensures Locate(s, now, k).Some?
    decreases |s| - k
  {
    if SegmentKind(s, now, k).None? {
      if k == |s| - 2 {
        assert false;
      }
      assert s[k + 1].minutes.v <= now;
      LocateRunning(s, now, k + 1);
    }
  }

  /** A train on the map: its index, the segment it was found on, and how. */
  datatype Marker = Marker(train: nat, segment: nat, kind: Kind)

  /** The marker of train `i`, if it is valid, running and found on a
      segment. */
  function PlaceTrain(tt: Timetable.Table, direction: string, now: real, i: nat): (r: Option<Marker>)
    ensures r.Some? ==> (r.value.train == i
      && BuildTrain(tt, direction, i).Some? && Running(BuildTrain(tt, direction, i).value, now)
      && Locate(BuildTrain(tt, direction, i).value, now, 0) == Some((r.value.segment, r.value.kind)))
    ensures BuildTrain(tt, direction, i).None? ==> r.None?
    ensures r.Some? <==> (BuildTrain(tt, direction, i).Some? && Running(BuildTrain(tt, direction, i).value, now)
      && Locate(BuildTrain(tt, direction, i).value, now, 0).Some?)
  {
    var t := BuildTrain(tt, direction, i);
    if t.None? || !Running(t.value, now) then None
    else
      var found := Locate(t.value, now, 0);
      if found.None? then None else Some(Marker(i, found.value.0, found.value.1))
  }

  /** A rebuilt train with ascending times is on the map for as long as
      it runs. */
  lemma {:induction false} RunningTrainPlaced(tt: Timetable.Table, direction: string, now: real, i: nat)
    requires BuildTrain(tt, direction, i).Some? && Ascending(BuildTrain(tt, direction, i).value)
    ensures PlaceTrain(tt, direction, now, i).Some? <==> Running(BuildTrain(tt, direction, i).value, now)
  {
    var t := BuildTrain(tt, direction, i).value;
    if Running(t, now) {
      LocateRunning(t, now, 0);
    }
  }

  /** The markers among the placements from `i` on, in index order; entry
      `t` of `placed` is train `t`'s marker, if any. */
  function Collect(placed: seq<Option<Marker>>, i: nat): (r: seq<Marker>)
    requires i <= |placed|
    requires forall t | 0 <= t < |placed| && placed[t].Some? :: placed[t].value.train == t
    ensures forall j | 0 <= j < |r| :: i <= r[j].train < |placed| && placed[r[j].train] == Some(r[j])
    ensures forall j, l | 0 <= j < l < |r| :: r[j].train < r[l].train
    decreases |placed| - i
  {
    if i == |placed| then []
    else
      var rest := Collect(placed, i + 1);
      if placed[i].Some? then [placed[i].value] + rest else rest
  }

  /** Every placement from `i` on has its marker. */
  lemma {:induction false} CollectComplete(placed: seq<Option<Marker>>, i: nat, t: nat)
    requires i <= t < |placed| && placed[t].Some?
    requires forall t | 0 <= t < |placed| && placed[t].Some? :: placed[t].value.train == t
    ensures placed[t].value in Collect(placed, i)
    decreases |placed| - i
  {
    if i < t {
      CollectComplete(placed, i + 1, t);
    }
  }

  /** The placement of every candidate train, by index. */
  function Placements(tt: Timetable.Table, direction: string, now: real, n: nat): (placed: seq<Option<Marker>>)
    ensures |placed| == n
    ensures forall t | 0 <= t < n :: placed[t] == PlaceTrain(tt, direction, now, t)
    ensures forall t | 0 <= t < n && placed[t].Some? :: placed[t].value.train == t
  {
    seq(n, t requires 0 <= t => PlaceTrain(tt, direction, now, t))
  }

  /** `processDirection(data, direction, currentMinutes)`: one marker for
      each candidate train that is placed, in index order; nothing when the
      origin has no list. */
  function ProcessDirection(tt: Timetable.Table, direction: string, now: real): (r: seq<Marker>)
    ensures TrainCount(tt, direction).None? ==> r == []
    ensures TrainCount(tt, direction).Some? ==>
      forall j | 0 <= j < |r| :: r[j].train < TrainCount(tt, direction).value && PlaceTrain(tt, direction, now, r[j].train) == Some(r[j])
    ensures forall j, l | 0 <= j < l < |r| :: r[j].train < r[l].train
  {
    var n := TrainCount(tt, direction);
    if n.None? then [] else Collect(Placements(tt, direction, now, n.value), 0)
  }

  /** No placed candidate is missing from the map. */
  lemma {:induction false} ProcessDirectionComplete(tt: Timetable.Table, direction: string, now: real, t: nat)
    requires TrainCount(tt, direction).Some? && t < TrainCount(tt, direction).value
    requires PlaceTrain(tt, direction, now, t).Some?
    ensures PlaceTrain(tt, direction, now, t).value in ProcessDirection(tt, direction, now)
  {
    var placed := Placements(tt, direction, now, TrainCount(tt, direction).value);
    CollectComplete(placed, 0, t);
  }

  /** `currentMinutes` of second `t` of the day: minutes with the seconds
      as a fraction. */
  function NowMinutes(t: nat): (m: real)
    ensures m * 60.0 == t as real
  {
    t as real / 60.0
  }

  // ---------------------------------------------------------------------------
  // The station panel's service hours

  /** `stationData[direction] || []`. */
  function DirectionTrains(tt: Timetable.Table, station: string, direction: string): (r: seq<string>)
    requires station in tt
    ensures direction in tt[station] ==> r == tt[station][direction]
    ensures direction !in tt[station] ==> r == []
  {
    if direction in tt[station] then tt[station][direction] else []
  }

  const NoService: string := "No service"

  /** `${first} - ${last}` of a non-empty list, `'No service'` for an empty
      one. */
  function FirstLast(trains: seq<string>): (r: string)
    ensures |trains| == 0 ==> r == NoService
    ensures |trains| > 0 ==>
      var first, last := trains[0], trains[|trains| - 1];
      |r| == |first| + 3 + |last| && r[..|first|] == first && r[|first|..|first| + 3] == " - " && r[|r| - |last|..] == last
  {
    if |trains| > 0 then trains[0] + " - " + trains[|trains| - 1] else NoService
  }

  /** `populateStationDetails(stationName)`: the service hours towards
      Motijheel and towards Uttara North; nothing for an unknown station. */
  function StationDetails(tt: Timetable.Table, station: string): (r: Option<(string, string)>)
    ensures r.None? <==> station !in tt
    ensures r.Some? ==> r.value.0 == FirstLast(DirectionTrains(tt, station, Timetable.Motijheel))
    ensures r.Some? ==> r.value.1 == FirstLast(DirectionTrains(tt, station, Timetable.UttaraNorth))
  {
    if station !in tt then None
    else Some((FirstLast(DirectionTrains(tt, station, Timetable.Motijheel)),
               FirstLast(DirectionTrains(tt, station, Timetable.UttaraNorth))))
  }

  // ---------------------------------------------------------------------------
  // The station panel's train list

  /** `timeToMinutes` of every train of the list, in order. */
  function MinutesOf(trains: seq<string>): (ms: seq<Num>)
    ensures |ms| == |trains| && forall i | 0 <= i < |trains| :: ms[i] == TimeToMinutes(trains[i])
  {
    seq(|trains|, i requires 0 <= i < |trains| => TimeToMinutes(trains[i]))
  }

  /** `trainMinutes <= currentMinutes`; `NaN` is never departed. */
  predicate DepartedBy(m: Num, cur: int)
  {
    Le(m, Fin(cur as real))
  }

  /** The number of trains departed by minute `cur`. */
  function DepartedCount(ms: seq<Num>, cur: int): (n: nat)
    ensures n <= |ms|
  {
    if |ms| == 0 then 0
    else DepartedCount(ms[..|ms| - 1], cur) + (if DepartedBy(ms[|ms| - 1], cur) then 1 else 0)
  }

  /** The first train not departed by minute `cur`, or -1. */
  function FirstPending(ms: seq<Num>, cur: int): (r: int)
    ensures -1 <= r < |ms|
    ensures r >= 0 ==> !DepartedBy(ms[r], cur) && forall j | 0 <= j < r :: DepartedBy(ms[j], cur)
    ensures r == -1 ==> forall j | 0 <= j < |ms| :: DepartedBy(ms[j], cur)
  {
    if |ms| == 0 then -1
    else if !DepartedBy(ms[0], cur) then 0
    else
      var k := FirstPending(ms[1..], cur);
      if k == -1 then -1 else k + 1
  }

  /** The counting loop of `populateTrainList`: every train whose minutes
      are not after `cur` counts as departed, and the first other one is
      the current train. */
  method CountTrains(trains: seq<string>, cur: int) returns (departed: nat, currentIndex: int)
    ensures departed == DepartedCount(MinutesOf(trains), cur)
    ensures currentIndex == FirstPending(MinutesOf(trains), cur)
  {
    var ms := MinutesOf(trains);
    departed := 0;
    currentIndex := -1;
    var i := 0;
    while i < |trains|
      invariant 0 <= i <= |trains|
      invariant departed == DepartedCount(ms[..i], cur)
      invariant currentIndex == FirstPending(ms[..i], cur)
    {
      var trainMinutes := ms[i];
      assert ms[..i + 1] == ms[..i] + [trainMinutes];
      DepartedCountExtend(ms[..i], trainMinutes, cur);
      FirstPendingExtend(ms[..i], trainMinutes, cur);
      if DepartedBy(trainMinutes, cur) {
        departed := departed + 1;
      } else if currentIndex == -1 {
        currentIndex := i;
      }
      i := i + 1;
    }
    assert ms[..i] == ms;
  }

  /** Appending a train adds one to the count when it has departed. */
  lemma {:induction false} DepartedCountExtend(ms: seq<Num>, m: Num, cur: int)
    ensures DepartedCount(ms + [m], cur) == DepartedCount(ms, cur) + (if DepartedBy(m, cur) then 1 else 0)
  {
    assert (ms + [m])[..|ms|] == ms;
  }

  /** Appending a train leaves an existing first pending train in place. */
  lemma {:induction false} FirstPendingExtend(ms: seq<Num>, m: Num, cur: int)
    ensures FirstPending(ms + [m], cur)
         == if FirstPending(ms, cur) != -1 then FirstPending(ms, cur)
            else if DepartedBy(m, cur) then -1 else |ms|
  {
    if |ms| > 0 {
      assert (ms + [m])[0] == ms[0];
      assert (ms + [m])[1..] == ms[1..] + [m];
      FirstPendingExtend(ms[1..], m, cur);
    }
  }

  /** The rows shown: three departed trains and the following ones, fifteen
      rows at most. */
  function WindowStart(departed: nat): (s: nat)
    ensures s <= departed && departed - s <= 3
  {
    if departed > 3 then departed - 3 else 0
  }

  function WindowEnd(len: nat, start: nat): (e: nat)
    ensures e <= len && e <= start + 15
    ensures e == len || e == start + 15
  {
    if len < start + 15 then len else start + 15
  }

  datatype Status = Departed | NextTrain | Coming | NoStatus

  /** The status of train `i`: departed strictly before the current
      minute, the first pending train, the one after it, or none. */
  function StatusOf(ms: seq<Num>, cur: int, currentIndex: int, i: nat): (r: Status)
    requires i < |ms|
    ensures ms[i].NaN? ==> r != Departed
    ensures r == Departed <==> ms[i].Fin? && ms[i].v < cur as real
    ensures r == NextTrain ==> i == currentIndex
    ensures r == Coming ==> i == currentIndex + 1
  {
    if Lt(ms[i], Fin(cur as real)) then Departed
    else if i == currentIndex then NextTrain
    else if i == currentIndex + 1 then Coming
    else NoStatus
  }

  /** The rows for the trains' minutes `ms` at minute `cur`. */
  function Rows(ms: seq<Num>, cur: int): (rows: seq<(int, Status)>)
    ensures |rows| <= 15
    ensures var start := WindowStart(DepartedCount(ms, cur));
      start <= |ms| && |rows| == (if |ms| - start < 15 then |ms| - start else 15)
      && (|rows| > 0 ==> rows[0].0 == start)
    ensures forall j | 0 <= j < |rows| :: 0 <= rows[j].0 < |ms|
    ensures forall j | 0 <= j && j + 1 < |rows| :: rows[j + 1].0 == rows[j].0 + 1
  {
    var start := WindowStart(DepartedCount(ms, cur));
    var end := WindowEnd(|ms|, start);
    var current := FirstPending(ms, cur);
    seq(end - start, j requires 0 <= j < end - start => (start + j, StatusOf(ms, cur, current, start + j)))
  }

  /** `populateTrainList(direction, trains)` at minute `cur`: the rows shown,
      as list positions with their statuses. */
  function TrainList(trains: seq<string>, cur: int): (rows: seq<(int, Status)>)
    ensures |rows| <= 15
    ensures var start := WindowStart(DepartedCount(MinutesOf(trains), cur));
      start <= |trains| && |rows| == (if |trains| - start < 15 then |trains| - start else 15)
      && (|rows| > 0 ==> rows[0].0 == start)
    ensures forall j | 0 <= j < |rows| :: 0 <= rows[j].0 < |trains|
    ensures forall j | 0 <= j && j + 1 < |rows| :: rows[j + 1].0 == rows[j].0 + 1
  {
    Rows(MinutesOf(trains), cur)
  }

  /** Minutes that are numbers and never decrease along the list. */
  predicate MinutesAscending(ms: seq<Num>)
  {
    (forall i | 0 <= i < |ms| :: ms[i].Fin?)
    && forall i, j | 0 <= i < j < |ms| :: ms[i].v <= ms[j].v
  }

  /** With ascending minutes the departed trains are a prefix, so the count
      is the index of the first pending train. */
  lemma {:induction false} DepartedPrefix(ms: seq<Num>, cur: int)
    requires MinutesAscending(ms)
    ensures forall i | 0 <= i < |ms| :: DepartedBy(ms[i], cur) <==> i < DepartedCount(ms, cur)
    ensures FirstPending(ms, cur) == if DepartedCount(ms, cur) < |ms| then DepartedCount(ms, cur) else -1
  {
    if |ms| > 0 {
      var init := ms[..|ms| - 1];
      assert MinutesAscending(init) by {
        forall i | 0 <= i < |init| ensures init[i] == ms[i] { }
      }
      DepartedPrefix(init, cur);
      var last := ms[|ms| - 1];
      if DepartedBy(last, cur) {
        forall i | 0 <= i < |init|
          ensures DepartedBy(init[i], cur)
        {
          assert init[i] == ms[i];
        }
      }
      forall i | 0 <= i < |ms|
        ensures DepartedBy(ms[i], cur) <==> i < DepartedCount(ms, cur)
      {
        if i < |init| {
          assert init[i] == ms[i];
          if !DepartedBy(ms[i], cur) {
            assert !DepartedBy(last, cur);
          }
        }
      }
    }
  }

  /** Row `j` of the list is the train `j` places after the window's start,
      with its status. */
  lemma {:induction false} RowAt(ms: seq<Num>, cur: int, j: nat)
    requires j < |Rows(ms, cur)|
    ensures var start := WindowStart(DepartedCount(ms, cur));
      start + j < |ms|
      && Rows(ms, cur)[j] == (start + j, StatusOf(ms, cur, FirstPending(ms, cur), start + j))
  {
  }

  /** On an ascending list the next train is always in the window, after at
      most three departed trains, and only trains before it are labelled
      departed. */
  lemma {:induction false} NextTrainShown(trains: seq<string>, cur: int)
    requires MinutesAscending(MinutesOf(trains))
    requires DepartedCount(MinutesOf(trains), cur) < |trains|
    ensures var d := DepartedCount(MinutesOf(trains), cur);
      var rows := TrainList(trains, cur);
      d - WindowStart(d) < |rows| && rows[d - WindowStart(d)] == (d, NextTrain)
    ensures var d := DepartedCount(MinutesOf(trains), cur);
      var rows := TrainList(trains, cur);
      forall j | 0 <= j < |rows| :: rows[j].1 == Departed ==> rows[j].0 < d
  {
    NextRowShown(MinutesOf(trains), cur);
  }

  /** `NextTrainShown` for the list's minutes. */
  lemma {:induction false} NextRowShown(ms: seq<Num>, cur: int)
    requires MinutesAscending(ms) && DepartedCount(ms, cur) < |ms|
    ensures var d, rows := DepartedCount(ms, cur), Rows(ms, cur);
      d - WindowStart(d) < |rows| && rows[d - WindowStart(d)] == (d, NextTrain)
      && forall j | 0 <= j < |rows| :: rows[j].1 == Departed ==> rows[j].0 < d
  {
    var d := DepartedCount(ms, cur);
    var rows := Rows(ms, cur);
    var start := WindowStart(d);
    assert d - start < |rows|;
    DepartedPrefix(ms, cur);
    assert rows[d - start] == (d, NextTrain) by {
      RowAt(ms, cur, d - start);
    }
    forall j | 0 <= j < |rows| && rows[j].1 == Departed
      ensures rows[j].0 < d
    {
      RowAt(ms, cur, j);
      assert DepartedBy(ms[start + j], cur);
    }
  }
}

=== FILE: wrappers.dfy ===
/** Failure-carrying results shared by every module of the model. */
module Wrappers {

  /** A value that may be missing: a JavaScript `undefined`/`null`, a Python
      `None`, or an operation that raised and whose caller gives up. */
  datatype Option<+T> = None | Some(value: T)
}
